=== FILE: README.md ===
# MailSift rule sets in Dafny

MailSift sorts a Gmail inbox into opportunities, hackathons, contests,
scholarships, jobs and events, flags important mail and lets the user set
reminders. Its behaviour is spread over three programs, and this project models
the deterministic rules of each as pure Dafny functions over immutable datatypes:

- **The Python ML service.**
  - Feature extraction and keyword weak labelling: `DataProcessor`, driven by
    the tables in `Config`.
  - The training pipeline: `TrainModel`, with `Learning` and `LabelEncoding`
    for the fitted artifacts.
  - Prediction post-processing (`Predict`) and the `/predict` and
    `/batch_predict` routes (`PredictApi`).
- **The Node backend.**
  - The keyword filter and its merge with ML answers: `FilterService`.
  - Gmail message parsing: `GmailService`.
  - The stored documents with their enumerations and defaults: `Schemas`.
  - The reminder lifecycle over an in-memory store: `ReminderService`.
  - The reminder HTTP routes, with their query defaults and the statistics
    endpoint: `ReminderRoutes`, using `JsNumbers` for JavaScript's `parseInt`.
- **The React front end.**
  - The category filter toggle and "Total Filtered": `FilterPanel`.
  - The dashboard's filter, search, sort, importance toggle and per-category
    counts: `Dashboard`, over the record types of `EmailTypes`.
  - The email card's time-ago label and colour classes: `EmailCard`.
  - The reminder form's submit rule: `ReminderModal`.

Shared helpers are kept in separate modules:

- `Wrappers`: `Option` and `Result`.
- `Text`: ASCII case mapping, substrings, splitting, trimming, words and
  decimal printing.
- `Seqs`: sub-lists and order-keeping filters.
- `Sorting`: a stable descending sort by a key.
- `Selection`: the first maximum.
- `Keys`: fresh document ids and a map's entries in id order.
- `Tally`: counting occurrences per key, as a JavaScript object of counters does.
- `Taxonomy`: the category names.

Foreign code becomes an uninterpreted parameter:

- `DataProcessor.TextTools` stands for html2text, NLTK, the URL and address
  regexes and `parseaddr`.
- `Learning.Library` stands for the scikit-learn fitting, transforms,
  probabilities and cross-validation.
- `GmailService.Codecs` stands for base64 decoding and `encodeURIComponent`.
- The clock, the mail transport and `toLocaleDateString` are plain arguments.

One consequence the proofs make visible is recorded in the table: with two
categories active, "Total Filtered" adds the per-category counts, so an email
carrying both categories is shown once but counted twice
(`Dashboard.TotalFilteredCountsTwice`). In general the total is an upper bound
on the shown list, and it is exact when no email carries two active categories
(`Dashboard.TotalFilteredCounts`).

## Model

| member | source | states |
|---|---|---|
| Config.CategoriesFollowKeywordTable | ml-model/config.py:28-70 | The taxonomy is the six keyword-table categories in table order, followed by `other`, which owns no keyword list. |
| Config.KeywordTableWellFormed | ml-model/config.py:39-70 | Every keyword list is non-empty and the six categories are distinct, so the labeller's division by list length is defined. |
| Config.SharedKeywords | ml-model/config.py:40-64 | `position` and `career` occur in both the opportunities list and the jobs list. |
| DataProcessor.ResolveBody | ml-model/data_processor.py:97-102 | A plain body is used as is. For a `{text, html}` body, a non-empty text wins; with an empty or absent text a non-empty html part is converted to text. With both parts empty or absent the body is empty, because `clean_html` of an empty value is `""`. |
| DataProcessor.FullText | ml-model/data_processor.py:96-105 | The full text is one character longer than subject and body together: the separating space. |
| DataProcessor.SenderDomain | ml-model/data_processor.py:52-60 | The domain is empty when the parsed address has no `@`; otherwise it contains no `@` and no upper-case letter. |
| DataProcessor.SenderDomainOfAddress | ml-model/data_processor.py:55-57 | For an address `local@domain` with a single `@`, the domain is exactly `domain` lowercased. |
| DataProcessor.LettersAndSpaces | ml-model/data_processor.py:77 | Removing special characters and digits keeps every letter and whitespace character of the input, in order, and nothing else. Text already made of them is unchanged. |
| DataProcessor.KeptTokens | ml-model/data_processor.py:86-87 | The kept tokens are the tokens longer than two characters that are not stopwords: every one of them, repeats included, in token order, and nothing else. |
| DataProcessor.Stems | ml-model/data_processor.py:86 | Each kept token is replaced by its stem, position by position. |
| DataProcessor.Preprocess | ml-model/data_processor.py:62-66 | Empty input gives empty output. |
| DataProcessor.WordsCollapse | ml-model/data_processor.py:80-83 | Collapsing whitespace runs to one space does not change the tokens. |
| DataProcessor.PreprocessOfWords | ml-model/data_processor.py:62-89 | Space-joined lowercase words that contain no URL or address tokenize back into exactly those words, so normalising them only filters and stems them. |
| DataProcessor.PreprocessNotIdempotent | ml-model/data_processor.py:86-89 | With Porter's stem of "yes" ("ye"), normalising "yes" gives "ye" and normalising again gives "", because the second pass drops the two-letter token. |
| DataProcessor.PreprocessIdempotentWhen | ml-model/data_processor.py:62-89 | Normalising twice equals normalising once when every produced stem is a lowercase word the token test keeps and its own stem. |
| DataProcessor.PreprocessShape | ml-model/data_processor.py:62-89 | Every kept token is letters only, longer than two characters and not a stopword. When the stems are non-empty and contain no whitespace, the output splits back into exactly those stems, in token order. |
| DataProcessor.CapsRatio | ml-model/data_processor.py:126 | The caps ratio lies in [0, 1]. It is 0 exactly when neither subject nor body has an upper-case letter. |
| DataProcessor.CharCount | ml-model/data_processor.py:124-125 | The `!` and `?` counts of the full text are the subject's count plus the body's count. |
| DataProcessor.WordCount | ml-model/data_processor.py:123 | The word count is the subject's words plus the body's words. |
| DataProcessor.AnyContained | ml-model/data_processor.py:120 | `has_urgent`'s test holds exactly when one of the words occurs in the text. |
| DataProcessor.ExtractFeatures | ml-model/data_processor.py:91-129 | The lengths satisfy total = subject + body + 1. Word, `!` and `?` counts add over subject and body. The caps ratio is in [0, 1] and is 0 iff there are no capitals. `has_deadline`, `has_apply` and `has_opportunity` hold iff their word occurs in the lowercased text, and `has_urgent` iff urgent, asap or immediate does. The processed text is the normalised subject-and-body text. The domain comes from the sender field. |
| DataProcessor.FlagsIgnoreSender | ml-model/data_processor.py:113-127 | Two emails that differ only in their sender agree on every keyword flag, the processed text, the caps ratio, the word count and the total length. |
| DataProcessor.EmptyEmailFeatures | ml-model/data_processor.py:96-127 | An email with no fields has every count 0, total length 1 (the space), no flag set, caps ratio 0 and an empty domain. |
| DataProcessor.KeywordHits | ml-model/data_processor.py:144 | A category's score counts each of its keywords found in the text once. It is at most the list length, and it is 0 iff no keyword occurs. |
| DataProcessor.Scores | ml-model/data_processor.py:142-146 | There is one score per keyword-table entry, in table order. |
| DataProcessor.LabelText | ml-model/data_processor.py:141-153 | The label is `other` with confidence 0 iff every score is 0. Otherwise the category is the first one with the highest score, and its confidence is score / list length, in (0, 1]. |
| DataProcessor.LabelEmailText | ml-model/data_processor.py:133-139 | The labeller reads the same lowercased subject-space-body text that the keyword flags read. |
| DataProcessor.TrainingRow | ml-model/data_processor.py:167-185 | A row is important iff its category is opportunities, scholarships or jobs, or its confidence exceeds 0.7. |
| DataProcessor.CreateTrainingDataset | ml-model/data_processor.py:155-187 | There is one row per email, in input order. Each row carries that email's features and weak label, with importance derived from them. |
| Selection.SelectAbove | ml-model/train_model.py:88-101 | No choice iff every score is at most the floor. Otherwise the choice is the first position of the maximum, which exceeds the floor. |
| Selection.ArgMax | ml-model/predict.py:92 | The result is the first position holding the maximum. |
| LabelEncoding.FitClasses | ml-model/train_model.py:135-136 | The classes are the distinct labels, strictly ascending. |
| LabelEncoding.EncodeAll | ml-model/train_model.py:136 | Every label is encoded as a class position that decodes back to the label. |
| LabelEncoding.EncodeDecode | ml-model/predict.py:93 | Decoding a class position and encoding the class gives the same position. |
| Learning.Design | ml-model/train_model.py:132 | There is one design row per data row. Each row is the text vector followed by the scaled scalar block. |
| TrainModel.PrepareData | ml-model/train_model.py:25-44 | A missing text becomes `""`. The scalar matrix has the six numeric columns, then the four boolean columns. A missing cell is read as 0. |
| TrainModel.TrainingCellsMatchFeatures | ml-model/train_model.py:31-42 | A row built by the dataset builder prepares to exactly its email's feature values, column by column. |
| TrainModel.SplitRows | ml-model/train_model.py:77-79 | The split is stratified by the labels with `TEST_SIZE` and `RANDOM_STATE`. It fails exactly when the library refuses. Otherwise every row lands on exactly one side. |
| TrainModel.ImportanceLabels | ml-model/train_model.py:74 | The target is 1 for important rows and 0 for the others. |
| TrainModel.CandidateScores | ml-model/train_model.py:91-94 | Each candidate's score is its mean cross-validation accuracy on the training part only. |
| TrainModel.TrainImportance | ml-model/train_model.py:59-116 | The kept model is the first candidate with the highest CV mean, which must exceed 0. Training fails iff every mean is at most 0. The model is fitted on the training part and scored on the held-out part. The vectorizer and scaler are fitted on this frame. |
| TrainModel.TrainCategory | ml-model/train_model.py:118-167 | The stage fails without a fitted vectorizer or scaler. It keeps both unchanged and only transforms with them. The label encoder is fitted on the category column and the model is the random forest. With both fitted, it fails iff the stratified split (`TEST_SIZE`, `RANDOM_STATE`) is refused. The forest is fitted on the training part and its accuracy is measured on the held-out part. |
| TrainModel.CategoryNeedsImportanceStage | ml-model/train_model.py:125-129 | The category stage cannot run on a fresh trainer. |
| TrainModel.SaveModels | ml-model/train_model.py:169-186 | The bundle holds both models, the vectorizer, the label classes, the scaler, and the categories, max features and min confidence. |
| TrainModel.TrainFullPipeline | ml-model/train_model.py:188-227 | Without input the five sample emails are used. An empty list fails with the KeyError of reading `category` from a frame without columns. The sample count is reported, and the warning is printed iff there are fewer than 50 rows. A successful run saves both models, fitted on the frame built from the emails. |
| TrainModel.RunStages | ml-model/train_model.py:209-227 | The importance stage runs on a fresh trainer and the category stage on its result. The saved bundle holds both models, the vectorizer fitted on the frame's texts and the scaler fitted on its scalar block. |
| TrainModel.SamplePipelineWarns | ml-model/train_model.py:193-206 | The default run on sample data always prints the small-dataset warning. |
| Predict.LoadModels | ml-model/predict.py:27-51 | Loading fails iff no bundle can be read: a missing file gives the not-found error and an unreadable one the loader's own error. Otherwise the predictor is loaded. |
| Predict.SaveLoadRoundTrip | ml-model/predict.py:37-44 | Loading a saved trainer gives back its models, vectorizer, label classes and scaler. |
| Predict.ScalarRow | ml-model/predict.py:66-77 | The predictor's scalar block follows the trainer's column order, field by field. |
| Predict.TrainingRowMatchesPrediction | ml-model/predict.py:60-80 | The trainer's prepared text and scalar row for an email are exactly what the predictor builds for it. |
| Predict.Candidates | ml-model/predict.py:97-103 | The candidates are exactly the classes with probability above 0.1, in class order. |
| Predict.TopCandidates | ml-model/predict.py:106-113 | The result has min(3, number of candidates) entries, all taken from the candidates. |
| Predict.TopCandidatesScored | ml-model/predict.py:99 | Every top candidate has probability above 0.1. |
| Predict.TopCandidatesOrdered | ml-model/predict.py:106 | The top candidates descend by probability; equal probabilities keep class order. |
| Predict.TopCandidatesBeatRest | ml-model/predict.py:106-113 | No candidate that was left out is more probable than one that was kept. |
| Predict.Named | ml-model/predict.py:100-103 | Each kept candidate is named by its class. |
| Predict.PostProcess | ml-model/predict.py:85-120 | `isImportant` holds iff the positive-class probability is strictly above 0.5, and that probability is the reported confidence. The primary category is the first most probable class, with its probability. The features are echoed unchanged. Out-of-range class positions fail. |
| Predict.PostProcessCategories | ml-model/predict.py:96-113 | `categories` holds at most three named classes, each with probability above 0.1, in descending order. |
| Predict.PredictEmail | ml-model/predict.py:53-124 | Before loading it fails with the not-loaded message. Otherwise both models see the same design row, built from the extracted features. |
| PredictApi.MissingFields | ml-model/predict.py:169-170 | Subject, then body, is listed exactly when it is absent. |
| PredictApi.PredictRoute | ml-model/predict.py:149-192 | The route answers 503 before loading and 400 for an empty body. It answers 400 listing exactly the missing fields. It succeeds iff the fields are present and prediction succeeds, and answers 500 otherwise. |
| PredictApi.SplitOutcomes | ml-model/predict.py:226-238 | Every index goes to the predictions iff its prediction succeeded, and to the errors iff it failed. Both lists are in ascending index order. |
| PredictApi.PredictItem | ml-model/data_processor.py:96 | An email object is predicted as usual. Any other entry fails with the AttributeError naming its type, because it has no `get`. |
| PredictApi.Outcomes | ml-model/predict.py:229-231 | Every entry of a batch is predicted on its own, and with the models loaded an entry that is not an object always fails. |
| PredictApi.BatchPredict | ml-model/predict.py:194-253 | The batch answers 503 before loading. It answers 400 for a missing `emails` key, a non-array or more than 100 entries. Otherwise every index appears exactly once, in order, across predictions and errors, and the two totals add up to the input length. An entry that is not an object becomes one error entry at its index. |
| FilterService.TablesAgree | server/services/filterService.js:6-37 | The backend's keyword table is the ML service's table, and it is well-formed. |
| FilterService.CategoryLabel | server/services/filterService.js:196-206 | A keyword category has its own non-empty display label. Any other string is returned unchanged. |
| FilterService.Matches | server/services/filterService.js:97 | The match count is at most the list length, and it is 0 iff no keyword occurs. |
| FilterService.TagConfidence | server/services/filterService.js:103 | `min(0.3 k, 1)` lies in (0, 1] and is 1 from four matches on. |
| FilterService.TagOf | server/services/filterService.js:96-105 | An entry yields a tag iff one of its keywords matches. The tag carries the entry's category, its display label and the capped confidence. |
| FilterService.TagsFrom | server/services/filterService.js:96-111 | The tags are exactly those of the matching entries, at most one per entry. |
| FilterService.TagsFromOne | server/services/filterService.js:96-111 | One table entry contributes its tag when one of its keywords matches, and nothing otherwise. |
| FilterService.TagsFromAppend | server/services/filterService.js:96-111 | The tags of two tables in a row are the tags of the first followed by those of the second, so the tags follow keyword-table order. |
| FilterService.TagsUnique | server/services/filterService.js:96-111 | For a well-formed table the tags carry distinct categories. |
| FilterService.TagOfCategory | server/services/filterService.js:96-105 | A category's only tag is the one its own entry contributes. |
| FilterService.TaggedIff | server/services/filterService.js:96-105 | A category is tagged iff one of its keywords matches. |
| FilterService.KeywordPriority | server/services/filterService.js:114-121 | The priority is high iff a high keyword matches. It is medium iff no high but some medium keyword matches, and low otherwise. |
| FilterService.ApplyKeywordFiltering | server/services/filterService.js:90-130 | The tags are the table tags. The priority is high iff a high keyword matches or the deadline heuristic fires. Importance holds iff there is an important-category tag, a priority keyword matches or the heuristic fires. |
| FilterService.FilterText | server/services/filterService.js:55 | The matched text is subject, body text and sender address joined by single spaces. |
| FilterService.FilterEmail | server/services/filterService.js:52-88 | A missing body or sender gives no tags, low priority and not important. Otherwise the keyword result is merged with the ML answer. |
| FilterService.FindTag | server/services/filterService.js:168 | The result is the first tag with the category, or none iff no tag has it. |
| FilterService.MergeOne | server/services/filterService.js:167-179 | An ML category at 0.5 or below is ignored. Above 0.5, a category with no tag is appended with its label and confidence, and otherwise the first tag of that category takes the larger of the two confidences, all else unchanged. Categories stay unique. |
| FilterService.MergeTags | server/services/filterService.js:165-181 | The merge keeps every keyword tag in place, adds at most one tag per ML category, and keeps categories unique. |
| FilterService.Best | server/services/filterService.js:166-178 | The running confidence is the largest of the starting value and the confidences above 0.5 proposed for the category: at least each of them, and equal to one of them. |
| FilterService.MergeTagsOld | server/services/filterService.js:165-181 | After the merge, the first keyword tag of a category ends with the largest of its own confidence and the ML confidences above 0.5 for that category; any other keyword tag is unchanged. |
| FilterService.MergeTagsNew | server/services/filterService.js:165-181 | Each appended tag is labelled for a category no keyword tag has, with the largest ML confidence above 0.5 proposed for it. |
| FilterService.MergeTagsConfidence | server/services/filterService.js:165-181 | The two previous rows, for every position of the merged tags. |
| FilterService.MergeTagsCovers | server/services/filterService.js:165-181 | After the merge every ML category above 0.5 has a tag, and every added tag was proposed above 0.5. |
| FilterService.CombineResults | server/services/filterService.js:152-194 | Without an ML answer the keyword result stands. With one, importance is overridden only above confidence 0.7. The priority is forced high only when ML says important above 0.8. The tags are the merge; with distinct keyword categories each keyword tag ends with the largest of its confidence and the ML confidences above 0.5 for its category. |
| FilterService.AppendNew | server/services/filterService.js:222 | The old list is kept as a prefix. The result holds exactly the old and new elements, with no duplicates added. |
| FilterService.Dedupe | server/services/filterService.js:222 | `[...new Set(xs)]` is duplicate-free and has exactly the elements of `xs`. |
| FilterService.UpdateKeywords | server/services/filterService.js:220-224 | An unknown category leaves the table unchanged. Otherwise only that category's list changes, to the deduplicated union. |
| FilterService.UpdateKeepsOldList | server/services/filterService.js:222 | For a duplicate-free list the update appends exactly the new keywords not yet present. |
| FilterService.UpdatePreservesWellFormed | server/services/filterService.js:220-224 | Updating keeps the table well-formed. |
| FilterService.ImportantCount | server/services/filterService.js:235 | The important count is the number of positions whose email is important. |
| FilterService.GetFilteringStats | server/services/filterService.js:227-246 | The total is the number of emails, and `important` is the number of important emails. The category counts are per distinct category and add up to the number of tags; each equals that category's occurrences. |
| Text.Trim | server/services/gmailService.js:161-162 | `trim()` removes the leading whitespace run and the trailing whitespace, leaving a slice that neither starts nor ends with whitespace. |
| GmailService.GetHeader | server/services/gmailService.js:149-152 | The result is the value of the first header whose name matches case-insensitively, and none iff no header matches. |
| GmailService.HeaderOr | server/services/gmailService.js:116-119 | A missing or empty header gives the fallback. |
| GmailService.FirstAngleSplit | server/services/gmailService.js:157 | The lazy first group ends at the smallest split point where `\s*<(.+?)>$` matches the rest. |
| GmailService.ParseAddress | server/services/gmailService.js:157-170 | The `Name <addr>` form has a name without `"`. Another non-empty single-line header is taken whole, trimmed, as name and email. Anything else is the unknown address. |
| GmailService.NoAngleWithoutClose | server/services/gmailService.js:157 | A header that does not end in `>` never takes the `Name <addr>` form. |
| GmailService.ParseFormatted | server/services/gmailService.js:157-164 | Parsing `name <addr>` gives the trimmed name without quotes and the trimmed address, for a name and address without line terminators. |
| GmailService.PlainAddress | server/services/gmailService.js:165-170 | A single-line header without `<` is name and email at once, trimmed. |
| GmailService.ParseSender | server/services/gmailService.js:154-172 | An empty header is the unknown sender without avatar. Otherwise the address rule applies, with the avatar of the email. |
| GmailService.ParseRecipients | server/services/gmailService.js:174-193 | An empty header has no recipients. Otherwise there is one address per comma-separated piece, trimmed, using the same rule. |
| GmailService.RecipientCount | server/services/gmailService.js:174-177 | A non-empty header has one recipient more than it has commas. |
| GmailService.WalkBodyVisits | server/services/gmailService.js:199-209 | The body walk's text and html are the decoded text/plain and text/html parts of its depth-first traversal, in order. |
| GmailService.PartBodyVisits | server/services/gmailService.js:200-207 | The same holds for one part. |
| GmailService.ExtractBody | server/services/gmailService.js:195-225 | A payload with parts is walked. A single-part payload is assigned by its MIME type, and is empty when it is not a text part with data. |
| GmailService.WalkAttachments | server/services/gmailService.js:230-243 | Every listed attachment has a file name and an attachment id. |
| GmailService.WalkAttachmentsVisits | server/services/gmailService.js:230-243 | The attachment walk lists exactly the attachment parts of its depth-first traversal, which does not descend into attachments. |
| GmailService.PartAttachmentsVisits | server/services/gmailService.js:231-241 | The same holds for one part. |
| GmailService.ExtractAttachments | server/services/gmailService.js:227-250 | A payload without parts has no attachments; otherwise it lists the visited attachment parts. |
| GmailService.ToInt32 | server/services/gmailService.js:256 | `a & a` yields a signed 32-bit value. |
| GmailService.ToInt32Congruent | server/services/gmailService.js:255-256 | Values congruent modulo 2^32 have the same 32-bit form. |
| GmailService.HashUnits | server/services/gmailService.js:254-257 | The hash fold stays a signed 32-bit value. |
| GmailService.HashIsWrappedPoly | server/services/gmailService.js:254-257 | The 32-bit fold equals the unbounded polynomial `h * 31 + code`, wrapped once to 32 bits. |
| GmailService.CodeUnits | server/services/gmailService.js:254-255 | A character splits into one or two UTF-16 code units below 2^16. |
| GmailService.Utf16 | server/services/gmailService.js:254-255 | A string has between one and two code units per character. |
| GmailService.Utf16OfBmp | server/services/gmailService.js:254-255 | A string inside the Basic Multilingual Plane has one code unit per character. |
| GmailService.Utf16OfAstral | server/services/gmailService.js:254-255 | A string outside it has two code units per character. |
| GmailService.Utf16Append | server/services/gmailService.js:254-255 | The code units of a concatenation are the concatenated code units. |
| GmailService.ColorIndex | server/services/gmailService.js:259-260 | `Math.abs(hash) % 6` always indexes the six-colour palette, and it is the absolute wrapped polynomial modulo 6. |
| GmailService.GenerateAvatar | server/services/gmailService.js:252-263 | The URL holds the encoded email and a palette colour picked by the hash. |
| GmailService.GetEmailDetail | server/services/gmailService.js:112-142 | The subject is never empty and is "No Subject" iff the header is missing, empty or that text. The message is read iff its labels lack UNREAD, and missing labels become none. Sender, recipients, body and attachments come from their parsers. The date is the Date header, or empty without one. |
| Schemas.ReminderTypeName | server/models/Reminder.js:26-30 | Every reminder type has a name in the schema's enumeration. |
| Schemas.ParseReminderType | server/models/Reminder.js:26-30 | A name is accepted iff it is in the enumeration, and it is read back as the type bearing that name. |
| Schemas.ReminderTypeRoundTrip | server/models/Reminder.js:26-30 | Naming a type and parsing the name gives the type back. |
| Schemas.ParseStatus | server/models/Reminder.js:31-35 | Exactly pending, sent and cancelled are accepted, each as its own status. |
| Schemas.ParseChannel | server/models/Reminder.js:36-40 | Exactly email, push and both are accepted, each as its own channel. |
| Schemas.NewReminder | server/models/Reminder.js:3-58 | A new reminder is pending, not recurring, without pattern or `sentAt`, and carries the given fields. |
| Schemas.NewEmail | server/models/Email.js:3-83 | A new email is unread, not important, medium priority, without tags, labels or reminder, with ML prediction confidence 0.5. Given non-empty required strings and a snippet of at most 500 UTF-16 code units, it passes validation. |
| Schemas.JsLength | server/models/Email.js:35-38 | A string's JavaScript length, which `maxlength` compares, is between its character count and twice that. |
| Schemas.AstralSnippetRejected | server/models/Email.js:35-38 | A snippet of 251 characters outside the Basic Multilingual Plane is 502 code units, so validation refuses it. |
| Schemas.KeywordTagsValid | server/models/Email.js:56-64 | Every tag the keyword filter produces has a non-empty label, an accepted category and a confidence in [0, 1]. |
| ReminderService.CalculateReminderTime | server/services/reminderService.js:95-107 | The due time is now plus the type's delay; any other name gives one hour. It is always after now. |
| ReminderService.CreateReminder | server/services/reminderService.js:48-93 | A missing email fails with "Email not found"; creation succeeds iff the email exists and the schema accepts the request, the description counted in UTF-16 code units. On success the reminder is pending, validated, with the defaulted type and channel. A custom reminder uses the client's time and any other type the type's delay. The new reminder gets a fresh id and the email is flagged. |
| ReminderService.AstralDescription | server/services/reminderService.js:71 | A sender name of 240 characters outside the Basic Multilingual Plane makes a description of 278 characters but at least 518 UTF-16 code units. |
| ReminderService.CreateRefusesLongAstralName | server/services/reminderService.js:63-89 | Creating a reminder for such an email fails validation, since the description bound counts code units. |
| ReminderService.CreateKeepsFlags | server/services/reminderService.js:84-86 | Creating a reminder keeps every email that a pending reminder refers to flagged. |
| ReminderService.Dispatches | server/services/reminderService.js:141-148 | The email channel is used iff the method is email or both; push iff push or both. |
| ReminderService.SendReminder | server/services/reminderService.js:138-149 | Sending fails exactly when it needs the email channel and the mailer fails; push alone never fails. |
| ReminderService.Processed | server/services/reminderService.js:119-131 | A reminder changes iff it is due and its send succeeds. Then it becomes sent at now, and nothing else changes. |
| ReminderService.ProcessDueReminders | server/services/reminderService.js:109-136 | The run keeps every id and processes each reminder on its own; a failed send does not affect the others. |
| ReminderService.ProcessIdempotent | server/services/reminderService.js:114-126 | A second run at the same time changes nothing. |
| ReminderService.ProcessLeavesOnlyFailures | server/services/reminderService.js:119-131 | After a run, a reminder that is still due is one whose send failed. |
| ReminderService.ProcessKeepsFlags | server/services/reminderService.js:119-131 | A delivery run keeps the email flags sound. |
| ReminderService.CancelReminder | server/services/reminderService.js:258-287 | Cancelling fails with "Reminder not found" iff the reminder is not the user's. Otherwise it is cancelled, and its email loses the flag only when no pending reminder still refers to it. |
| ReminderService.CancelKeepsFlags | server/services/reminderService.js:268-280 | Cancelling keeps the email flags sound. |
| ReminderService.Apply | server/services/reminderService.js:301 | The supplied fields are overwritten and every other field is kept. |
| ReminderService.UpdateReminder | server/services/reminderService.js:289-309 | An unknown reminder fails and a non-pending one is refused. Otherwise the supplied fields are overwritten, subject to validation, which counts the description in UTF-16 code units. |
| ReminderService.EmptyUpdateIsIdentity | server/services/reminderService.js:301-302 | An empty update of a valid pending reminder changes nothing. |
| ReminderService.UpdateKeepsFlags | server/services/reminderService.js:296-302 | An update keeps the email flags sound. |
| ReminderService.Matching | server/services/reminderService.js:233-236 | The listing considers exactly the user's reminders that pass the status filter; "all" keeps every status. |
| ReminderService.Newest | server/services/reminderService.js:238-240 | The matching reminders are listed once each, latest `remindAt` first. |
| ReminderService.CeilDiv | server/services/reminderService.js:250 | The result is `ceil(total / limit)` for any non-zero limit. |
| ReminderService.Take | server/services/reminderService.js:241 | A limit of 0 admits everything; any other limit admits at most its absolute value. |
| ReminderService.Window | server/services/reminderService.js:241-242 | The page is the run of the list that starts at the offset and is as long as the limit admits. |
| ReminderService.WindowKeeps | server/services/reminderService.js:238-242 | A page of a stored, latest-first list is stored and latest-first. |
| ReminderService.GetUserReminders | server/services/reminderService.js:229-256 | Status, limit and page default to "all", 50 and 1, and a negative offset fails. Otherwise the page is the matching reminders, latest first, after `(page - 1) * limit` of them, at most `limit` long. It reports total and `ceil(total / limit)`. |
| ReminderService.PageWithinCount | server/services/reminderService.js:241-250 | With a positive limit, page `p >= 1` is non-empty iff `p <= totalPages`. |
| JsNumbers.ParseInt | server/routes/reminderRoutes.js:39-40 | `parseInt` is NaN exactly when no digit follows the whitespace, sign and radix prefix. |
| JsNumbers.ParseIntDecimal | server/routes/reminderRoutes.js:39-40 | A signed decimal numeral followed by a non-digit reads back as its value. |
| ReminderRoutes.QueryInt | server/routes/reminderRoutes.js:39-40 | `parseInt(q) \|\| fallback` gives the fallback for a missing, unparsable or zero value, and the parsed value otherwise. It is never 0 for a non-zero fallback. |
| ReminderRoutes.ListRoute | server/routes/reminderRoutes.js:32-48 | The listing uses limit 50 and page 1 when they are absent, unparsable or zero. It answers 200 with the service's page, or 500 iff the offset is negative. |
| ReminderRoutes.CreateRoute | server/routes/reminderRoutes.js:51-74 | A missing email id gives 400 and leaves the store unchanged. The route answers 201 iff the service creates the reminder, and 500 otherwise. |
| ReminderRoutes.UpdateRoute | server/routes/reminderRoutes.js:77-93 | The route fails with 500 and the service's message iff the service refuses. Otherwise it answers 200 with the updated reminder. |
| ReminderRoutes.DeleteRoute | server/routes/reminderRoutes.js:96-111 | The route fails with 500 "Reminder not found" iff the reminder is not the user's; otherwise the reminder comes back cancelled. |
| ReminderRoutes.CountStatus | server/routes/reminderRoutes.js:123-125 | A status count is the number of positions whose reminder has that status. |
| ReminderRoutes.CountPendingWhen | server/routes/reminderRoutes.js:126-127 | The upcoming (overdue) count is the number of positions whose reminder is pending and due after (not after) the time read for it. |
| ReminderRoutes.TypeNames | server/routes/reminderRoutes.js:132-134 | The type of every listed reminder is read by its schema name. |
| ReminderRoutes.StatusesPartition | server/routes/reminderRoutes.js:122-125 | The pending, sent and cancelled counts add up to the total. |
| ReminderRoutes.PendingPartition | server/routes/reminderRoutes.js:126-127 | Against one clock reading per reminder, the upcoming and overdue counts add up to the pending count. |
| ReminderRoutes.PendingCover | server/routes/reminderRoutes.js:126-127 | When the overdue pass reads the clock no earlier than the upcoming pass, upcoming plus overdue is at least the pending count; a reminder due between the two readings counts twice. |
| Tally.TallyOf | server/routes/reminderRoutes.js:131-134 | The per-key counters have distinct keys and positive counts. Each counter is the key's occurrences, and the counters add up to the list length. |
| ReminderRoutes.Summarize | server/routes/reminderRoutes.js:121-134 | Pending, sent and cancelled are the status counts. Upcoming counts pending reminders due after the upcoming pass's readings, and overdue counts those not due after the overdue pass's readings. The three status counts add up to the total. Upcoming plus overdue is at least pending when the overdue pass reads the clock no earlier, and equals it when both passes read the same times. The per-type counts add up to the total, and each equals that type's occurrences. |
| ReminderRoutes.StatsListing | server/routes/reminderRoutes.js:118 | The statistics listing always succeeds and holds at most 1000 reminders. |
| ReminderRoutes.StatsRoute | server/routes/reminderRoutes.js:114-144 | The statistics answer 200 with the summary of the user's first 1000 reminders, so the total is at most 1000. |
| FilterPanel.Without | src/components/FilterPanel.tsx:93 | Removing a filter keeps exactly the other filters in order and keeps the list duplicate-free. A filter that is not active changes nothing. |
| FilterPanel.Click | src/components/FilterPanel.tsx:84-103 | Clicking "all" gives `["all"]`. A category clicked while "all" is active gives just that category. An active category is removed, and an emptied list becomes `["all"]`. An inactive category is appended at the end. |
| FilterPanel.ClickKeepsWellFormed | src/components/FilterPanel.tsx:84-103 | A click keeps the list non-empty, duplicate-free and made of panel ids, either exactly `["all"]` or without "all". |
| FilterPanel.After | src/components/FilterPanel.tsx:84-103 | Every list reachable from the initial `["all"]` by panel clicks is well-formed. |
| FilterPanel.ClickTwice | src/components/FilterPanel.tsx:92-98 | Clicking an inactive category twice, with "all" not active, restores the list. |
| FilterPanel.TotalFiltered | src/components/FilterPanel.tsx:152-155 | The total is the `all` count when "all" is active, and otherwise the sum of the active filters' counts. Missing counts add 0. |
| Seqs.Where | src/pages/Dashboard.tsx:42-53 | `filter` keeps exactly the elements satisfying the predicate, in order, and changes nothing when all satisfy it. |
| Seqs.SubsequenceTrans | src/pages/Dashboard.tsx:38-54 | Filtering twice still leaves a sub-list of the emails. |
| Dashboard.ByCategory | src/pages/Dashboard.tsx:40-45 | With "all" active nothing is filtered. Otherwise an email is kept iff one of its tags has an active category. |
| Dashboard.BySearch | src/pages/Dashboard.tsx:48-54 | An empty query keeps everything. Otherwise an email is kept iff its subject, sender name or preview contains the query, ignoring case. |
| Dashboard.SearchIgnoresCase | src/pages/Dashboard.tsx:50-52 | Two queries that lowercase alike select the same emails. |
| Dashboard.SortEmails | src/pages/Dashboard.tsx:57-64 | The sort is a stable reordering: newest first by date, or high before medium before low by priority. |
| Dashboard.Visible | src/pages/Dashboard.tsx:37-67 | The shown list is the filtered list, reordered by the sort. |
| Dashboard.VisibleContents | src/pages/Dashboard.tsx:37-67 | The filtered list is a sub-list of the emails. Every shown email passes both filters, and every email passing both is shown. |
| Dashboard.MarkImportant | src/pages/Dashboard.tsx:69-75 | `isImportant` flips exactly on the emails with the id, and nothing else changes. |
| Dashboard.MarkImportantTwice | src/pages/Dashboard.tsx:69-75 | Marking the same id twice restores the list. |
| Dashboard.CountWith | src/pages/Dashboard.tsx:143-148 | A category count is at most the number of emails. |
| Dashboard.EmailCountsOf | src/pages/Dashboard.tsx:141-149 | `all` is the number of emails. There is a count for each of the six categories: the emails with a tag of it, at most `all`. |
| Dashboard.CountIsShownWithOnly | src/pages/Dashboard.tsx:141-149 | A category's count is the length of the list shown with only that category active. |
| Dashboard.HitsIffTagged | src/pages/Dashboard.tsx:43 | An email carries an active category iff the category filter keeps it. |
| Dashboard.PanelSum | src/components/FilterPanel.tsx:154 | The panel's sum over active categories is the number of (email, active category) tag hits. |
| Dashboard.TotalFilteredCounts | src/components/FilterPanel.tsx:152-155 | For any reachable filter list, "Total Filtered" is at least the number of emails the category filter keeps. It is equal when no email carries two active categories. |
| Dashboard.TotalFilteredCountsTwice | src/components/FilterPanel.tsx:152-155 | An email tagged with two active categories is shown once but counted twice. |
| EmailCard.PriorityColor | src/components/EmailCard.tsx:24-30 | The class is red iff the priority is "high" and yellow iff "medium"; every other value gets green. |
| EmailCard.TagColor | src/components/EmailCard.tsx:32-42 | Each of the six categories gets its own class; gray is used iff the string is not one of them. |
| EmailCard.TagColorsDistinct | src/components/EmailCard.tsx:33-40 | Different categories get different classes. |
| EmailCard.HoursSince | src/components/EmailCard.tsx:47 | The elapsed hours are rounded down, also for future dates. |
| EmailCard.TimeAgo | src/components/EmailCard.tsx:44-54 | Under an hour, and for future dates, the label is "Just now". From 1 to 24 hours it is `<h>h ago`. From 24 to 168 hours it is `<d>d ago` with d in 1..6, and after that the formatted date. |
| EmailCard.TimeAgoReadsBack | src/components/EmailCard.tsx:50-52 | The number at the head of an hours or days label reads back as the elapsed hours or days. |
| ReminderModal.OptionIds | src/components/ReminderModal.tsx:20-28 | The option ids are listed in form order. |
| ReminderModal.OptionsAreReminderTypes | src/components/ReminderModal.tsx:20-28 | The form offers exactly the server's seven reminder types, in schema order. |
| ReminderModal.HandleSubmit | src/components/ReminderModal.tsx:30-44 | A non-custom choice is submitted unchanged. A custom choice submits `"<date> <time>"` iff both are filled, and nothing otherwise. |
| ReminderModal.DisabledIffNothingSubmitted | src/components/ReminderModal.tsx:153 | The submit button is disabled exactly when submitting would do nothing. |
| ReminderModal.QuickChoiceIsReminderType | src/components/ReminderModal.tsx:33-43 | A submitted quick option is a non-custom reminder type the server accepts. |
| ReminderModal.CustomSplitsBack | src/components/ReminderModal.tsx:35-37 | A custom date and time without spaces split back apart at the space. |

## Left out

- Foreign libraries are uninterpreted parameters:
  - html2text and the BeautifulSoup fallback;
  - NLTK's tokenizer, stopwords and Porter stemmer;
  - the URL and address regexes and `parseaddr`;
  - scikit-learn's vectorizer, scaler, classifiers, cross-validation and split;
  - joblib;
  - base64 decoding and `encodeURIComponent`;
  - the near-date regexes of `containsDateInNearFuture`.
- Not modelled at all:
  - I/O: Flask setup, `/health` and `/model_info`; the Gmail API calls; OAuth.
  - Mongo: queries, `populate` and save failures other than schema validation.
  - Reminder delivery plumbing: the cron scheduler, the SMTP transport and the HTML template.
  - The authentication middleware.
  - Logging and printing.
  - Concurrency: every operation is one sequential step.
- The environment overrides of the ML configuration are not modelled; the defaults are constants.
- Probabilities, ratios and confidences are exact reals; IEEE rounding is not modelled.
- Case mapping and whitespace are ASCII only; Unicode case folding is not modelled. Python's `str.split()` and `\s` also treat \x1c–\x1f and Unicode spaces as whitespace; the model does not.
- DataProcessor.Preprocess: the tokenizer is taken to split at whitespace. NLTK's `word_tokenize` also splits some letter-only words, such as `cannot` (into `can`, `not`) and `gonna` (into `gon`, `na`); the model keeps them whole.
- DataProcessor.Preprocess is not idempotent: normalising already-normalised text can change it. For example, a stem of two letters ("yes" gives "ye") is dropped on a second pass. A stem that Porter's stemmer shortens again changes too ("agreed" gives "agre", then "agr"). The model follows the code. `PreprocessNotIdempotent` exhibits the first case, and `PreprocessIdempotentWhen` states when a second pass changes nothing.
- DataProcessor.ExtractFeatures, PredictApi.PredictRoute and PredictApi.BatchPredict: the subject and body of an email object are taken to be strings (a body may also be a `{text, html}` object). A `null` or other non-string value makes `len` raise at ml-model/data_processor.py:115-116, and the route answers 500; this is not modelled.
- TrainModel.TrainCategory and TrainModel.TrainImportance: of the library's exceptions only a refused stratified split is modelled. Too few rows per class for five cross-validation folds, a vocabulary left empty by TF-IDF and conflicting `max_df`/`min_df` settings are not.
- ReminderRoutes.Summarize: the clock readings are parameters; the model does not derive that each pass reads the clock no earlier than the one before.
- DataProcessor.SenderDomain: `parseaddr` is a parameter. The domain is the segment between the first and the second `@`, as `split('@')[1]` gives.
- GmailService.ParseAddress: `.` in the address regex matches no line terminator (\n, \r, U+2028, U+2029), and the model follows this exactly. The `\s*` before `<` uses JavaScript's whitespace set. The surrounding `trim()` calls use the ASCII whitespace of `Text.Trim`, so a name or address that starts or ends with a Unicode space, such as U+00A0, keeps it in the model but not in the source.
- GmailService.GetEmailDetail: the Date header is kept as text, because `new Date(...)` parsing is not modelled. The fetch and its `null` on failure are left out.
- JsNumbers.ParseInt: values are exact integers; the loss of precision past 2^53 is not modelled.
- ReminderService.Newest: Mongo leaves the order of equal `remindAt` values unspecified. The model breaks ties by id order, which is one of the orders Mongo may return.
- ReminderService.Processed: `sentAt` is taken as the run's `now`, not as a second clock reading.
- ReminderService.UpdateReminder: only the documented fields can be patched (title, description, remindAt, reminderType, status, notificationMethod, isRecurring). `Object.assign` of arbitrary keys such as `userId` or `_id` is not modelled.
- ReminderService.CreateReminder: a custom time is either absent or already parsed to milliseconds. An unparsable custom time (an invalid `Date`) is not modelled.
- EmailCard.TimeAgo and Dashboard.SortEmails: date strings are taken as already-parsed milliseconds, so invalid dates (NaN) are not modelled. With one, the source's date comparator (src/pages/Dashboard.tsx:59) returns NaN, and the resulting order is not defined. `toLocaleDateString` is a parameter.
- EmailCard.TagColor, FilterPanel.TotalFiltered, FilterService.CategoryLabel and FilterService.UpdateKeywords: inherited object properties such as `constructor` are not modelled. Looking one up in the colour map or the counts object would yield a non-string value. For `constructor`, the display-name lookup returns a function (server/services/filterService.js:205), and the keyword update passes its category check but fails on spreading the inherited value (server/services/filterService.js:221-222, a TypeError).
- Dashboard.SortEmails: the source sorts the `emails` state array in place when no filter applies. This aliasing is not modelled; the sort returns a new sequence.
- The dashboard's `handleSetReminder` and `handleReminderSubmit` only open the modal and log. The loading timer, the header, the login page and the app shell are rendering only.
- The listing handler's `emailId` population is not modelled, and neither are the remaining email routes.

=== FILE: config.dfy ===
/** The configuration constants of the ML service, at their defaults
    (environment overrides are not modelled). */
module Config {
  import opened Taxonomy

  const TestSize: real := 0.2
  const RandomState: int := 42
  const MaxFeatures: nat := 10000
  const MinConfidence: real := 0.5
  const MaxTextLength: nat := 10000

  /** The classification taxonomy: the six keyword categories, then the catch-all. */
  const Categories: seq<string> := [Opportunities, Hackathons, Contests, Scholarships, Jobs, Events, Other]

  /** The weak-labelling keyword lists, in declaration order. */
  const CategoryKeywords: seq<KeywordList> := [
    KeywordList(Opportunities, [
      "internship", "intern", "opportunity", "application", "apply now",
      "career", "job opening", "position", "hiring", "recruitment",
      "fellowship", "program", "mentorship", "training", "apprenticeship"]),
    KeywordList(Hackathons, [
      "hackathon", "hack", "coding competition", "programming contest",
      "dev challenge", "build challenge", "code sprint", "hack day",
      "innovation challenge", "tech competition"]),
    KeywordList(Contests, [
      "contest", "competition", "challenge", "prize", "award",
      "winner", "submit", "deadline", "entry", "participate",
      "coding contest", "programming competition"]),
    KeywordList(Scholarships, [
      "scholarship", "grant", "funding", "financial aid", "tuition",
      "education fund", "student aid", "bursary", "stipend",
      "educational support", "study abroad"]),
    KeywordList(Jobs, [
      "job", "position", "role", "employment", "career",
      "full-time", "part-time", "remote", "work from home",
      "software engineer", "developer", "programmer", "analyst"]),
    KeywordList(Events, [
      "event", "conference", "workshop", "seminar", "webinar",
      "meetup", "summit", "symposium", "networking", "tech talk",
      "presentation", "demo day"])
  ]

  /** The taxonomy is the keyword table's categories in the same order,
      followed by `other`, which owns no keyword list. */
  lemma CategoriesFollowKeywordTable()
    ensures Categories == TableCategories(CategoryKeywords) + [Other]
    ensures TableCategories(CategoryKeywords) == KeywordCategories
    ensures Other !in TableCategories(CategoryKeywords)
  {
  }

  /** Every keyword list is non-empty (so dividing a score by the list length is
      defined) and the six categories are distinct. */
  lemma KeywordTableWellFormed()
    ensures WellFormedTable(CategoryKeywords)
  {
  }

  /** `position` and `career` belong to both the opportunities and the jobs list,
      so those two categories can tie on them. */
  lemma SharedKeywords()
    ensures CategoryKeywords[0].category == Opportunities && CategoryKeywords[4].category == Jobs
    ensures "position" in CategoryKeywords[0].keywords && "position" in CategoryKeywords[4].keywords
    ensures "career" in CategoryKeywords[0].keywords && "career" in CategoryKeywords[4].keywords
  {
    assert CategoryKeywords[0].keywords[7] == "position";
    assert CategoryKeywords[4].keywords[1] == "position";
    assert CategoryKeywords[0].keywords[5] == "career";
    assert CategoryKeywords[4].keywords[4] == "career";
  }
}

=== FILE: dashboard.dfy ===
/** The dashboard's list logic: the category and search filters, the sort,
    the importance toggle and the per-category counts handed to the filter
    panel. Every step returns a new list. */
module Dashboard {
  import opened Text
  import opened Taxonomy
  import opened Sorting
  import opened EmailTypes
  import opened FilterPanel
  import opened Seqs

  // ---------------------------------------------------------------- filters

  /** Some tag of the email has one of the active categories. */
  predicate TaggedWithAny(e: Email, active: seq<string>) {
    exists k :: 0 <= k < |e.tags| && e.tags[k].category in active
  }

  function InCategories(active: seq<string>): Email -> bool {
    (e: Email) => TaggedWithAny(e, active)
  }

  /** The category filter: none with "all" active; otherwise the emails with a
      tag of an active category. */
  function ByCategory(emails: seq<Email>, active: seq<string>): (r: seq<Email>)
    ensures AllFilter in active ==> r == emails
    ensures Subsequence(r, emails)
    ensures forall i :: 0 <= i < |r| ==> AllFilter in active || TaggedWithAny(r[i], active)
    ensures forall i :: 0 <= i < |emails| && TaggedWithAny(emails[i], active) ==> emails[i] in r
  {
    if AllFilter in active then
      SubsequenceRefl(emails);
      emails
    else
      assert forall e :: InCategories(active)(e) == TaggedWithAny(e, active);
      Where(emails, InCategories(active))
  }

  /** The email's subject, sender name or preview contains the query, all
      three and the query lowercased. */
  predicate MatchesQuery(e: Email, query: string) {
    var q := Lower(query);
    Contains(Lower(e.subject), q) || Contains(Lower(e.sender.name), q) || Contains(Lower(e.preview), q)
  }

  function OnQuery(query: string): Email -> bool {
    (e: Email) => MatchesQuery(e, query)
  }

  /** The search filter: none for an empty query. */
  function BySearch(emails: seq<Email>, query: string): (r: seq<Email>)
    ensures query == "" ==> r == emails
    ensures Subsequence(r, emails)
    ensures forall i :: 0 <= i < |r| ==> query == "" || MatchesQuery(r[i], query)
    ensures forall i :: 0 <= i < |emails| && MatchesQuery(emails[i], query) ==> emails[i] in r
  {
    if query == "" then
      SubsequenceRefl(emails);
      emails
    else
      assert forall e :: OnQuery(query)(e) == MatchesQuery(e, query);
      Where(emails, OnQuery(query))
  }

  lemma LowerTwice(s: string)
    ensures Lower(Lower(s)) == Lower(s)
  {
  }

  /** The search ignores the query's case: two queries that lowercase alike
      keep the same emails. */
  lemma SearchIgnoresCase(emails: seq<Email>, q1: string, q2: string)
    requires Lower(q1) == Lower(q2)
    ensures BySearch(emails, q1) == BySearch(emails, q2)
  {
    if q1 != "" {
      WhereSame(emails, OnQuery(q1), OnQuery(q2));
    }
  }

  // ---------------------------------------------------------------- sorting

  datatype SortBy = ByDate | ByPriority

  /** `priorityOrder`: high 3, medium 2, low 1. */
  function PriorityRank(p: Priority): nat {
    match p
    case High => 3
    case Medium => 2
    case Low => 1
  }

  function DateKey(e: Email): real {
    e.date as real
  }

  function RankKey(e: Email): real {
    PriorityRank(e.priority) as real
  }

  function SortKey(sortBy: SortBy): Email -> real {
    if sortBy == ByDate then DateKey else RankKey
  }

  /** The comparator sort: newest first, or high before medium before low; the
      sort is stable. */
  function SortEmails(es: seq<Email>, sortBy: SortBy): (r: seq<Email>)
    ensures |r| == |es|
    ensures forall i :: 0 <= i < |r| ==> r[i] == es[Order(es, SortKey(sortBy))[i]]
    ensures sortBy == ByDate ==> forall i, j :: 0 <= i < j < |r| ==> r[i].date >= r[j].date
    ensures sortBy == ByPriority ==> forall i, j :: 0 <= i < j < |r| ==> PriorityRank(r[i].priority) >= PriorityRank(r[j].priority)
  {
    var r := SortByKeyDesc(es, SortKey(sortBy));
    assert forall i, j :: 0 <= i < j < |r| ==> SortKey(sortBy)(r[i]) >= SortKey(sortBy)(r[j]);
    r
  }

  /** The list the dashboard shows: the emails passing both filters, sorted. */
  function Visible(emails: seq<Email>, active: seq<string>, query: string, sortBy: SortBy): (r: seq<Email>)
    ensures |r| == |BySearch(ByCategory(emails, active), query)| <= |emails|
    ensures forall i :: 0 <= i < |r| ==> r[i] == BySearch(ByCategory(emails, active), query)[Order(BySearch(ByCategory(emails, active), query), SortKey(sortBy))[i]]
  {
    SortEmails(BySearch(ByCategory(emails, active), query), sortBy)
  }

  /** What the dashboard shows are emails of the list passing both filters,
      and every email passing both is shown. */
  lemma VisibleContents(emails: seq<Email>, active: seq<string>, query: string, sortBy: SortBy)
    ensures Subsequence(BySearch(ByCategory(emails, active), query), emails)
    ensures forall i :: 0 <= i < |Visible(emails, active, query, sortBy)| ==>
      var e := Visible(emails, active, query, sortBy)[i];
      && e in emails
      && (AllFilter in active || TaggedWithAny(e, active))
      && (query == "" || MatchesQuery(e, query))
    ensures forall k :: 0 <= k < |emails| && (AllFilter in active || TaggedWithAny(emails[k], active)) && (query == "" || MatchesQuery(emails[k], query)) ==>
      emails[k] in Visible(emails, active, query, sortBy)
  {
    var c := ByCategory(emails, active);
    var f := BySearch(c, query);
    var r := Visible(emails, active, query, sortBy);
    SubsequenceTrans(f, c, emails);
    SubsequenceMembers(f, emails);
    SubsequenceMembers(f, c);
    var order := Order(f, SortKey(sortBy));
    forall i | 0 <= i < |r|
      ensures r[i] in emails && (AllFilter in active || TaggedWithAny(r[i], active)) && (query == "" || MatchesQuery(r[i], query))
    {
      var j := order[i];
      assert r[i] == f[j];
      assert f[j] in c;
      var k :| 0 <= k < |c| && c[k] == f[j];
    }
    forall k | 0 <= k < |emails| && (AllFilter in active || TaggedWithAny(emails[k], active)) && (query == "" || MatchesQuery(emails[k], query))
      ensures emails[k] in r
    {
      assert emails[k] in c;
      var i :| 0 <= i < |c| && c[i] == emails[k];
      assert c[i] in f;
      var j :| 0 <= j < |f| && f[j] == c[i];
      assert j in order;
      var m :| 0 <= m < |order| && order[m] == j;
      assert r[m] == f[j];
    }
  }

  // ---------------------------------------------------------------- importance

  /** `handleMarkImportant`: flips `isImportant` on the emails with the id and
      changes nothing else. */
  function MarkImportant(emails: seq<Email>, id: string): (r: seq<Email>)
    ensures |r| == |emails|
    ensures forall i :: 0 <= i < |r| ==> r[i].isImportant == (emails[i].isImportant != (emails[i].id == id))
    ensures forall i :: 0 <= i < |r| ==> r[i].(isImportant := emails[i].isImportant) == emails[i]
  {
    seq(|emails|, i requires 0 <= i < |emails| =>
      if emails[i].id == id then emails[i].(isImportant := !emails[i].isImportant) else emails[i])
  }

  /** Marking the same id twice restores the list. */
  lemma MarkImportantTwice(emails: seq<Email>, id: string)
    ensures MarkImportant(MarkImportant(emails, id), id) == emails
  {
    var once := MarkImportant(emails, id);
    var twice := MarkImportant(once, id);
    forall i | 0 <= i < |emails| ensures twice[i] == emails[i] {
      assert once[i].id == emails[i].id;
    }
  }

  // ---------------------------------------------------------------- counts

  /** The number of emails with a tag of the category. */
  function CountWith(emails: seq<Email>, c: string): (n: nat)
    ensures n <= |emails|
  {
    if |emails| == 0 then 0
    else CountWith(emails[..|emails| - 1], c) + (if HasCategory(emails[|emails| - 1], c) then 1 else 0)
  }

  /** The `emailCounts` object: all emails, and per keyword category the
      emails tagged with it. */
  function EmailCountsOf(emails: seq<Email>): (counts: EmailCounts)
    ensures counts.all == |emails|
    ensures counts.byFilter.Keys == set c | c in KeywordCategories
    ensures forall c :: c in counts.byFilter ==> counts.byFilter[c] == CountWith(emails, c) <= counts.all
  {
    EmailCounts(|emails|, map c | c in KeywordCategories :: CountWith(emails, c))
  }

  /** A category's count is the length of the list shown with only that
      category active. */
  lemma {:induction false} CountIsShownWithOnly(emails: seq<Email>, c: string)
    requires c != AllFilter
    ensures CountWith(emails, c) == |ByCategory(emails, [c])|
    decreases |emails|
  {
    if |emails| > 0 {
      var init, x := emails[..|emails| - 1], emails[|emails| - 1];
      CountIsShownWithOnly(init, c);
      assert init + [x] == emails;
      WhereSnoc(init, x, InCategories([c]));
      assert TaggedWithAny(x, [c]) <==> HasCategory(x, c);
    }
  }

  // ---------------------------------------------------------------- total filtered

  /** How many of the active filters the email's tags carry. */
  function ActiveHits(e: Email, active: seq<string>): nat {
    if |active| == 0 then 0
    else ActiveHits(e, active[..|active| - 1]) + (if HasCategory(e, active[|active| - 1]) then 1 else 0)
  }

  lemma {:induction false} HitsIffTagged(e: Email, active: seq<string>)
    ensures ActiveHits(e, active) > 0 <==> TaggedWithAny(e, active)
    decreases |active|
  {
    if |active| > 0 {
      var init, f := active[..|active| - 1], active[|active| - 1];
      HitsIffTagged(e, init);
      assert active == init + [f];
      if TaggedWithAny(e, active) && !HasCategory(e, f) {
        var k :| 0 <= k < |e.tags| && e.tags[k].category in active;
        assert e.tags[k].category in init;
      }
      if TaggedWithAny(e, init) {
        var k :| 0 <= k < |e.tags| && e.tags[k].category in init;
        assert e.tags[k].category in active;
      }
    }
  }

  /** The active filters' counts added up, filter by filter. */
  function CategorySum(emails: seq<Email>, active: seq<string>): nat {
    if |active| == 0 then 0
    else CategorySum(emails, active[..|active| - 1]) + CountWith(emails, active[|active| - 1])
  }

  /** The same sum, email by email. */
  function HitTotal(emails: seq<Email>, active: seq<string>): nat {
    if |emails| == 0 then 0
    else HitTotal(emails[..|emails| - 1], active) + ActiveHits(emails[|emails| - 1], active)
  }

  lemma {:induction false} CategorySumSnoc(emails: seq<Email>, x: Email, active: seq<string>)
    ensures CategorySum(emails + [x], active) == CategorySum(emails, active) + ActiveHits(x, active)
    decreases |active|
  {
    if |active| > 0 {
      CategorySumSnoc(emails, x, active[..|active| - 1]);
      assert (emails + [x])[..|emails|] == emails;
    }
  }

  lemma {:induction false} CategorySumByEmail(emails: seq<Email>, active: seq<string>)
    ensures CategorySum(emails, active) == HitTotal(emails, active)
    decreases |emails|
  {
    if |emails| == 0 {
      ZeroSum(active);
    } else {
      var init, x := emails[..|emails| - 1], emails[|emails| - 1];
      CategorySumByEmail(init, active);
      assert init + [x] == emails;
      CategorySumSnoc(init, x, active);
    }
  }

  lemma {:induction false} ZeroSum(active: seq<string>)
    ensures CategorySum([], active) == 0
    decreases |active|
  {
    if |active| > 0 {
      ZeroSum(active[..|active| - 1]);
    }
  }

  lemma {:induction false} PanelSum(emails: seq<Email>, active: seq<string>)
    requires forall i :: 0 <= i < |active| ==> active[i] in KeywordCategories
    ensures SumCounts(active, EmailCountsOf(emails)) == CategorySum(emails, active)
    decreases |active|
  {
    if |active| > 0 {
      PanelSum(emails, active[..|active| - 1]);
    }
  }

  lemma {:induction false} ShownAtMostHits(emails: seq<Email>, active: seq<string>)
    ensures |Where(emails, InCategories(active))| <= HitTotal(emails, active)
    ensures (forall i :: 0 <= i < |emails| ==> ActiveHits(emails[i], active) <= 1) ==>
      |Where(emails, InCategories(active))| == HitTotal(emails, active)
    decreases |emails|
  {
    if |emails| > 0 {
      var init, x := emails[..|emails| - 1], emails[|emails| - 1];
      ShownAtMostHits(init, active);
      assert init + [x] == emails;
      WhereSnoc(init, x, InCategories(active));
      HitsIffTagged(x, active);
    }
  }

  /** "Total Filtered" never undercounts the emails the category filter keeps,
      and matches it exactly when no email carries two active categories; an
      email tagged with two active categories is counted twice. */
  lemma TotalFilteredCounts(emails: seq<Email>, active: seq<string>)
    requires WellFormed(active)
    ensures |ByCategory(emails, active)| <= TotalFiltered(active, EmailCountsOf(emails))
    ensures (forall i :: 0 <= i < |emails| ==> ActiveHits(emails[i], active) <= 1) ==>
      |ByCategory(emails, active)| == TotalFiltered(active, EmailCountsOf(emails))
  {
    if AllFilter !in active {
      forall i | 0 <= i < |active| ensures active[i] in KeywordCategories {
        assert active[i] in FilterIds;
      }
      PanelSum(emails, active);
      CategorySumByEmail(emails, active);
      ShownAtMostHits(emails, active);
    }
  }

  /** An email tagged with two active categories is shown once but counted
      twice. */
  lemma TotalFilteredCountsTwice(e: Email, a: string, b: string)
    requires a in KeywordCategories && b in KeywordCategories && a != b
    requires HasCategory(e, a) && HasCategory(e, b)
    ensures |ByCategory([e], [a, b])| == 1
    ensures TotalFiltered([a, b], EmailCountsOf([e])) == 2
  {
    ShownOnce(e, a, b);
    CountedTwice(e, a, b);
  }

  lemma ShownOnce(e: Email, a: string, b: string)
    requires a in KeywordCategories && b in KeywordCategories && HasCategory(e, a)
    ensures |ByCategory([e], [a, b])| == 1
  {
    var active := [a, b];
    assert AllFilter !in active;
    assert TaggedWithAny(e, active) by {
      var k :| 0 <= k < |e.tags| && e.tags[k].category == a;
      assert e.tags[k].category in active;
    }
    WhereSnoc([], e, InCategories(active));
    assert [] + [e] == [e];
  }

  lemma CountedTwice(e: Email, a: string, b: string)
    requires a in KeywordCategories && b in KeywordCategories
    requires HasCategory(e, a) && HasCategory(e, b)
    ensures TotalFiltered([a, b], EmailCountsOf([e])) == 2
  {
    var active := [a, b];
    assert AllFilter !in active;
    assert [e][..0] == [];
    assert CountWith([e], a) == 1 && CountWith([e], b) == 1;
    assert active[..1] == [a] && [a][..0] == [];
    assert CategorySum([e], [a]) == CategorySum([e], []) + CountWith([e], a);
    assert CategorySum([e], active) == CategorySum([e], [a]) + CountWith([e], b);
    PanelSum([e], active);
  }



}

=== FILE: data_processor.dfy ===
/** Feature extraction and weak labelling of raw emails (the ML service's
    `EmailDataProcessor`). The text libraries it calls (html2text with its
    BeautifulSoup fallback, the URL and address regexes, NLTK's stopword list and
    Porter stemmer, `email.utils.parseaddr`) are the fields of a `TextTools` value. */
module DataProcessor {
  import opened Wrappers
  import opened Text
  import opened Taxonomy
  import opened Selection
  import opened Seqs
  import Config

  /** The body of a request: a plain string, or a `{text, html}` object whose keys may be absent. */
  datatype Body = PlainBody(text: string) | StructuredBody(textPart: Option<string>, htmlPart: Option<string>)

  /** An email as the service receives it; an absent key is `None`. */
  datatype RawEmail = RawEmail(subject: Option<string>, body: Option<Body>, sender: Option<string>)

  /** The foreign text-processing functions. */
  datatype TextTools = TextTools(
    htmlToText: string -> string,
    stripUrls: string -> string,
    stripEmailAddresses: string -> string,
    isStopword: string -> bool,
    stem: string -> string,
    parseAddress: string -> string)

  datatype FeatureBag = FeatureBag(
    processedText: string,
    subjectLength: nat,
    bodyLength: nat,
    totalLength: nat,
    senderDomain: string,
    hasDeadline: bool,
    hasUrgent: bool,
    hasApply: bool,
    hasOpportunity: bool,
    wordCount: nat,
    exclamationCount: nat,
    questionCount: nat,
    capsRatio: real)

  // ---------------------------------------------------------------- text

  /** `clean_html`: an empty value converts to the empty string without calling the converter. */
  function CleanHtml(tools: TextTools, html: string): string {
    if html == "" then "" else tools.htmlToText(html)
  }

  /** Body resolution: a non-empty `text` wins, otherwise the converted `html`;
      a plain string is used as is and a missing body is empty. */
  function ResolveBody(tools: TextTools, body: Option<Body>): (r: string)
    ensures body == None ==> r == ""
    ensures body.Some? && body.value.PlainBody? ==> r == body.value.text
    ensures body.Some? && body.value.StructuredBody? && body.value.textPart.GetOr("") != "" ==> r == body.value.textPart.value
    ensures body.Some? && body.value.StructuredBody? && body.value.textPart.GetOr("") == "" && body.value.htmlPart.GetOr("") == "" ==> r == ""
    ensures body.Some? && body.value.StructuredBody? && body.value.textPart.GetOr("") == "" && body.value.htmlPart.GetOr("") != "" ==>
      r == tools.htmlToText(body.value.htmlPart.value)
  {
    match body
    case None => ""
    case Some(PlainBody(t)) => t
    case Some(StructuredBody(t, h)) => if t.GetOr("") != "" then t.GetOr("") else CleanHtml(tools, h.GetOr(""))
  }

  function Subject(e: RawEmail): string {
    e.subject.GetOr("")
  }

  /** Subject and resolved body joined by one space. */
  function FullText(tools: TextTools, e: RawEmail): (r: string)
    ensures |r| == |Subject(e)| + |ResolveBody(tools, e.body)| + 1
  {
    Subject(e) + " " + ResolveBody(tools, e.body)
  }

  /** `extract_sender_domain`: the part of the parsed address between the first `@`
      and the next one (`split('@')[1]`), lowercased; empty when there is no `@`. */
  function SenderDomain(tools: TextTools, sender: string): (d: string)
    ensures '@' !in tools.parseAddress(sender) ==> d == ""
    ensures '@' !in d && forall i :: 0 <= i < |d| ==> !IsUpper(d[i])
  {
    var address := tools.parseAddress(sender);
    if '@' in address then
      var parts := Split(address, '@');
      assert |parts| >= 2;
      var r := Lower(parts[1]);
      assert forall i :: 0 <= i < |r| ==> r[i] == LowerChar(parts[1][i]);
      r
    else ""
  }

  /** For an address `local@domain` with a single `@`, the domain is `domain` lowercased. */
  lemma SenderDomainOfAddress(tools: TextTools, sender: string, local: string, domain: string)
    requires tools.parseAddress(sender) == local + "@" + domain
    requires '@' !in local && '@' !in domain
    ensures SenderDomain(tools, sender) == Lower(domain)
  {
    var address := local + "@" + domain;
    assert address == JoinWith([local, domain], '@');
    SplitJoin([local, domain], '@');
    assert address[|local|] == '@';
  }

  /** The characters `[^a-zA-Z\s]` removal keeps. */
  predicate KeptChar(c: char) {
    IsLetter(c) || IsSpace(c)
  }

  /** `re.sub(r'[^a-zA-Z\s]', '', s)`: the letters and whitespace of `s`, every
      one of them, in order. */
  function LettersAndSpaces(s: string): (r: string)
    ensures Subsequence(r, s) && |r| == Satisfying(s, KeptChar)
    ensures forall i :: 0 <= i < |r| ==> IsLetter(r[i]) || IsSpace(r[i])
    ensures forall i :: 0 <= i < |s| && (IsLetter(s[i]) || IsSpace(s[i])) ==> s[i] in r
    ensures (forall i :: 0 <= i < |s| ==> IsLetter(s[i]) || IsSpace(s[i])) ==> r == s
  {
    Where(s, KeptChar)
  }

  /** `re.sub(r'\s+', ' ', s)`: every whitespace run becomes one space. */
  function CollapseSpaces(s: string): string
    decreases |s|
  {
    if |s| == 0 then ""
    else if IsSpace(s[0]) then " " + CollapseSpaces(TrimStart(s[1..]))
    else [s[0]] + CollapseSpaces(s[1..])
  }

  /** The whitespace-separated tokens of the cleaned text (with only letters and
      whitespace left, the tokenizer splits at whitespace). */
  function Tokens(tools: TextTools, text: string): seq<string> {
    var lowered := Lower(text);
    var noUrls := tools.stripUrls(lowered);
    var noAddresses := tools.stripEmailAddresses(noUrls);
    Words(CollapseSpaces(LettersAndSpaces(noAddresses)))
  }

  /** A token survives when it is longer than two characters and not a stopword. */
  predicate KeepToken(tools: TextTools, t: string) {
    |t| > 2 && !tools.isStopword(t)
  }

  function Keep(tools: TextTools): string -> bool {
    (t: string) => KeepToken(tools, t)
  }

  /** The tokens that survive the stopword and length test: every surviving
      token, repeats included, in order. */
  function KeptTokens(tools: TextTools, tokens: seq<string>): (kept: seq<string>)
    ensures Subsequence(kept, tokens) && |kept| == Satisfying(tokens, Keep(tools))
    ensures forall k :: 0 <= k < |kept| ==> kept[k] in tokens && |kept[k]| > 2 && !tools.isStopword(kept[k])
    ensures forall k :: 0 <= k < |tokens| && |tokens[k]| > 2 && !tools.isStopword(tokens[k]) ==> tokens[k] in kept
    ensures (forall k :: 0 <= k < |tokens| ==> KeepToken(tools, tokens[k])) ==> kept == tokens
  {
    var kept := Where(tokens, Keep(tools));
    SubsequenceMembers(kept, tokens);
    assert forall t :: Keep(tools)(t) == KeepToken(tools, t);
    kept
  }

  function Stems(tools: TextTools, words: seq<string>): (r: seq<string>)
    ensures |r| == |words|
    ensures forall k :: 0 <= k < |words| ==> r[k] == tools.stem(words[k])
  {
    seq(|words|, k requires 0 <= k < |words| => tools.stem(words[k]))
  }

  /** `preprocess_text`. */
  function Preprocess(tools: TextTools, text: string): (r: string)
    ensures text == "" ==> r == ""
  {
    if text == "" then ""
    else JoinWith(Stems(tools, KeptTokens(tools, Tokens(tools, text))), ' ')
  }

  lemma {:induction false} WordsTrimStart(s: string)
    ensures Words(TrimStart(s)) == Words(s)
    decreases |s|
  {
    if |s| > 0 && IsSpace(s[0]) {
      WordsTrimStart(s[1..]);
    }
  }

  lemma {:induction false} CollapseRun(s: string, k: nat)
    requires k <= |s|
    requires forall i :: 0 <= i < k ==> !IsSpace(s[i])
    ensures CollapseSpaces(s) == s[..k] + CollapseSpaces(s[k..])
    decreases k
  {
    if k > 0 {
      CollapseRun(s[1..], k - 1);
      assert s[1..][k - 1..] == s[k..];
      assert s[..k] == [s[0]] + s[1..][..k - 1];
    }
  }

  /** Collapsing whitespace runs does not change the tokens. */
  lemma {:induction false} WordsCollapse(s: string)
    ensures Words(CollapseSpaces(s)) == Words(s)
    decreases |s|
  {
    if |s| == 0 {
    } else if IsSpace(s[0]) {
      var rest := CollapseSpaces(TrimStart(s[1..]));
      assert CollapseSpaces(s) == " " + rest;
      assert (" " + rest)[1..] == rest;
      WordsCollapse(TrimStart(s[1..]));
      WordsTrimStart(s[1..]);
    } else {
      var k := RunLen(s);
      CollapseRun(s, k);
      var tail := CollapseSpaces(s[k..]);
      var c := CollapseSpaces(s);
      assert c == s[..k] + tail;
      if |s[k..]| > 0 {
        assert IsSpace(s[k..][0]);
        assert tail == " " + CollapseSpaces(TrimStart(s[k..][1..]));
        RunLenAppend(s[..k], tail);
      } else {
        assert tail == "";
        assert c == s[..k];
      }
      RunLenAll(s[..k]);
      assert RunLen(c) == k;
      assert c[..k] == s[..k];
      assert c[k..] == tail;
      WordsCollapse(s[k..]);
    }
  }

  /** The shape of the normalised text: every kept token is letters-only, longer
      than two characters, not a stopword and one of the cleaned text's whitespace
      runs; when the stemmer yields non-empty, whitespace-free stems, the output
      splits back into exactly those stems, in token order. */
  lemma PreprocessShape(tools: TextTools, text: string)
    requires text != ""
    ensures forall k :: 0 <= k < |KeptTokens(tools, Tokens(tools, text))| ==>
      var t := KeptTokens(tools, Tokens(tools, text))[k];
      |t| > 2 && !tools.isStopword(t) && (forall i :: 0 <= i < |t| ==> IsLetter(t[i]))
    ensures
      var stems := Stems(tools, KeptTokens(tools, Tokens(tools, text)));
      (forall k :: 0 <= k < |stems| ==> |stems[k]| > 0 && forall i :: 0 <= i < |stems[k]| ==> !IsSpace(stems[k][i]))
      ==> Words(Preprocess(tools, text)) == stems
  {
    var cleaned := LettersAndSpaces(tools.stripEmailAddresses(tools.stripUrls(Lower(text))));
    WordsCollapse(cleaned);
    var tokens := Tokens(tools, text);
    assert tokens == Words(cleaned);
    forall k | 0 <= k < |tokens| ensures forall i :: 0 <= i < |tokens[k]| ==> IsLetter(tokens[k][i]) {
      WordsLetters(cleaned, k);
    }
    var stems := Stems(tools, KeptTokens(tools, tokens));
    if forall k :: 0 <= k < |stems| ==> |stems[k]| > 0 && forall i :: 0 <= i < |stems[k]| ==> !IsSpace(stems[k][i]) {
      WordsJoin(stems);
    }
  }

  /** A token of letters-and-whitespace text is made of letters only. */
  lemma {:induction false} WordsLetters(s: string, k: nat)
    requires forall i :: 0 <= i < |s| ==> IsLetter(s[i]) || IsSpace(s[i])
    requires k < |Words(s)|
    ensures forall i :: 0 <= i < |Words(s)[k]| ==> IsLetter(Words(s)[k][i])
    decreases |s|
  {
    var w := Words(s)[k];
    if IsSpace(s[0]) {
      WordsLetters(s[1..], k);
    } else {
      var n := RunLen(s);
      if k > 0 {
        WordsLetters(s[n..], k - 1);
      } else {
        assert w == s[..n];
      }
    }
  }

  // ---------------------------------------------------------------- normalising twice

  predicate LowerLetter(c: char) {
    'a' <= c <= 'z'
  }

  /** Non-empty words of lowercase letters. */
  predicate LowerWords(ws: seq<string>) {
    forall k :: 0 <= k < |ws| ==> |ws[k]| > 0 && forall i :: 0 <= i < |ws[k]| ==> LowerLetter(ws[k][i])
  }

  /** Text made of spaces and lowercase letters only. */
  predicate LowerText(s: string) {
    forall i :: 0 <= i < |s| ==> s[i] == ' ' || LowerLetter(s[i])
  }

  lemma {:induction false} JoinLowerWords(ws: seq<string>)
    requires LowerWords(ws)
    ensures LowerText(JoinWith(ws, ' '))
    ensures |ws| > 0 ==> |JoinWith(ws, ' ')| > 0
    decreases |ws|
  {
    if |ws| > 1 {
      var rest := JoinWith(ws[1..], ' ');
      assert LowerWords(ws[1..]) by {
        assert forall k :: 0 <= k < |ws[1..]| ==> ws[1..][k] == ws[k + 1];
      }
      JoinLowerWords(ws[1..]);
      var j := JoinWith(ws, ' ');
      assert j == ws[0] + [' '] + rest;
      forall i | 0 <= i < |j| ensures j[i] == ' ' || LowerLetter(j[i]) {
        if i < |ws[0]| {
          assert j[i] == ws[0][i];
        } else if i > |ws[0]| {
          assert j[i] == rest[i - |ws[0]| - 1];
        }
      }
    }
  }

  /** Lowercasing and the letter filter leave lowercase text alone, so its
      tokens are its words. */
  lemma TokensOfLowerText(tools: TextTools, y: string)
    requires LowerText(y)
    requires tools.stripUrls(y) == y && tools.stripEmailAddresses(y) == y
    ensures Tokens(tools, y) == Words(y)
  {
    assert Lower(y) == y by {
      assert forall i :: 0 <= i < |y| ==> Lower(y)[i] == LowerChar(y[i]) == y[i];
    }
    assert LettersAndSpaces(y) == y by {
      assert forall i :: 0 <= i < |y| ==> IsLetter(y[i]) || IsSpace(y[i]);
    }
    WordsCollapse(y);
  }

  /** Space-joined lowercase words that the URL and address passes leave alone
      tokenize back into exactly those words. */
  lemma PreprocessOfWords(tools: TextTools, ws: seq<string>)
    requires |ws| > 0 && LowerWords(ws)
    requires tools.stripUrls(JoinWith(ws, ' ')) == JoinWith(ws, ' ')
    requires tools.stripEmailAddresses(JoinWith(ws, ' ')) == JoinWith(ws, ' ')
    ensures Tokens(tools, JoinWith(ws, ' ')) == ws
    ensures Preprocess(tools, JoinWith(ws, ' ')) == JoinWith(Stems(tools, KeptTokens(tools, ws)), ' ')
  {
    var y := JoinWith(ws, ' ');
    JoinLowerWords(ws);
    TokensOfLowerText(tools, y);
    assert forall k :: 0 <= k < |ws| ==> forall i :: 0 <= i < |ws[k]| ==> !IsSpace(ws[k][i]);
    WordsJoin(ws);
  }

  /** A single lowercase word normalises to its stem when the token test keeps
      it, and to nothing otherwise. */
  lemma PreprocessOneWord(tools: TextTools, w: string)
    requires LowerWords([w])
    requires tools.stripUrls(w) == w && tools.stripEmailAddresses(w) == w
    ensures Preprocess(tools, w) == if KeepToken(tools, w) then tools.stem(w) else ""
  {
    assert JoinWith([w], ' ') == w;
    PreprocessOfWords(tools, [w]);
    var kept := KeptTokens(tools, [w]);
    assert Satisfying([w], Keep(tools)) == if KeepToken(tools, w) then 1 else 0 by {
      assert [w][..0] == [];
    }
    if KeepToken(tools, w) {
      assert kept == [w];
      assert JoinWith(Stems(tools, kept), ' ') == tools.stem(w);
    } else {
      assert kept == [];
    }
  }

  /** Normalising is not idempotent: Porter's stem of "yes" is "ye", and the
      second pass drops that two-letter token. */
  lemma PreprocessNotIdempotent(tools: TextTools)
    requires tools.stem("yes") == "ye" && !tools.isStopword("yes")
    requires tools.stripUrls("yes") == "yes" && tools.stripEmailAddresses("yes") == "yes"
    requires tools.stripUrls("ye") == "ye" && tools.stripEmailAddresses("ye") == "ye"
    ensures Preprocess(tools, "yes") == "ye"
    ensures Preprocess(tools, Preprocess(tools, "yes")) == ""
  {
    assert LowerWords(["yes"]) by { assert "yes"[0] == 'y' && "yes"[1] == 'e' && "yes"[2] == 's'; }
    assert LowerWords(["ye"]) by { assert "ye"[0] == 'y' && "ye"[1] == 'e'; }
    PreprocessOneWord(tools, "yes");
    PreprocessOneWord(tools, "ye");
  }

  /** Words the token test keeps and the stemmer fixes pass the last two steps unchanged. */
  lemma StemsOfFixedWords(tools: TextTools, ws: seq<string>)
    requires forall k :: 0 <= k < |ws| ==> KeepToken(tools, ws[k]) && tools.stem(ws[k]) == ws[k]
    ensures Stems(tools, KeptTokens(tools, ws)) == ws
  {
    var stems := Stems(tools, KeptTokens(tools, ws));
    assert |stems| == |ws| && forall k :: 0 <= k < |ws| ==> stems[k] == ws[k];
  }

  /** Normalising space-joined words again gives them back when each is a
      lowercase word the token test keeps and its own stem. */
  lemma PreprocessFixedWords(tools: TextTools, ws: seq<string>)
    requires |ws| > 0 && LowerWords(ws)
    requires forall k :: 0 <= k < |ws| ==> KeepToken(tools, ws[k]) && tools.stem(ws[k]) == ws[k]
    requires tools.stripUrls(JoinWith(ws, ' ')) == JoinWith(ws, ' ')
    requires tools.stripEmailAddresses(JoinWith(ws, ' ')) == JoinWith(ws, ' ')
    ensures Preprocess(tools, JoinWith(ws, ' ')) == JoinWith(ws, ' ')
  {
    PreprocessOfWords(tools, ws);
    StemsOfFixedWords(tools, ws);
  }

  /** Normalising is idempotent when every stem it produces is a lowercase word
      the token test keeps, is its own stem, and is left alone by the URL and
      address passes. */
  lemma PreprocessIdempotentWhen(tools: TextTools, text: string)
    requires LowerWords(Stems(tools, KeptTokens(tools, Tokens(tools, text))))
    requires forall k :: 0 <= k < |Stems(tools, KeptTokens(tools, Tokens(tools, text)))| ==>
      var s := Stems(tools, KeptTokens(tools, Tokens(tools, text)))[k];
      KeepToken(tools, s) && tools.stem(s) == s
    requires tools.stripUrls(Preprocess(tools, text)) == Preprocess(tools, text)
    requires tools.stripEmailAddresses(Preprocess(tools, text)) == Preprocess(tools, text)
    ensures Preprocess(tools, Preprocess(tools, text)) == Preprocess(tools, text)
  {
    var stems := Stems(tools, KeptTokens(tools, Tokens(tools, text)));
    if text != "" && |stems| > 0 {
      assert Preprocess(tools, text) == JoinWith(stems, ' ');
      PreprocessFixedWords(tools, stems);
    }
  }

  // ---------------------------------------------------------------- features

  /** `caps_ratio` of `subject + " " + body`: uppercase letters over the length. */
  function CapsRatio(subject: string, body: string): (c: real)
    ensures 0.0 <= c <= 1.0
    ensures c == 0.0 <==>
      (forall i :: 0 <= i < |subject| ==> !IsUpper(subject[i])) && (forall i :: 0 <= i < |body| ==> !IsUpper(body[i]))
  {
    var full := subject + " " + body;
    assert full == subject + (" " + body);
    CountIfAppend(subject, " " + body, IsUpper);
    CountIfAppend(" ", body, IsUpper);
    var upper := CountIf(full, IsUpper);
    Ratio(upper, |full|);
    upper as real / |full| as real
  }

  /** A count over a positive total is a fraction in [0, 1], zero exactly for a zero count. */
  lemma Ratio(n: nat, d: nat)
    requires 0 < d && n <= d
    ensures 0.0 <= n as real / d as real <= 1.0
    ensures n as real / d as real == 0.0 <==> n == 0
    ensures n > 0 ==> n as real / d as real > 0.0
  {
    var q := n as real / d as real;
    assert q * d as real == n as real;
  }

  /** Occurrences of a non-space character in `subject + " " + body`. */
  function CharCount(subject: string, body: string, c: char): (n: nat)
    requires c != ' '
    ensures n == CountChar(subject, c) + CountChar(body, c)
  {
    var full := subject + " " + body;
    assert full == subject + (" " + body);
    CountIfAppend(subject, " " + body, x => x == c);
    CountIfAppend(" ", body, x => x == c);
    CountChar(full, c)
  }

  /** `len(full_text.split())`. */
  function WordCount(subject: string, body: string): (n: nat)
    ensures n == |Words(subject)| + |Words(body)|
  {
    WordsAppendSpace(subject, body);
    |Words(subject + " " + body)|
  }

  /** `extract_features`. Never fails: absent fields count as empty strings. */
  function ExtractFeatures(tools: TextTools, e: RawEmail): (f: FeatureBag)
    ensures f.subjectLength == |Subject(e)| && f.bodyLength == |ResolveBody(tools, e.body)|
    ensures f.totalLength == f.subjectLength + f.bodyLength + 1
    ensures f.wordCount == |Words(Subject(e))| + |Words(ResolveBody(tools, e.body))|
    ensures f.exclamationCount == CountChar(Subject(e), '!') + CountChar(ResolveBody(tools, e.body), '!')
    ensures f.questionCount == CountChar(Subject(e), '?') + CountChar(ResolveBody(tools, e.body), '?')
    ensures 0.0 <= f.capsRatio <= 1.0
    ensures f.capsRatio == 0.0 <==>
      (forall i :: 0 <= i < |Subject(e)| ==> !IsUpper(Subject(e)[i])) &&
      (forall i :: 0 <= i < |ResolveBody(tools, e.body)| ==> !IsUpper(ResolveBody(tools, e.body)[i]))
    ensures f.hasDeadline <==> Contains(Lower(FullText(tools, e)), "deadline")
    ensures f.hasUrgent <==> exists k :: 0 <= k < |UrgentWords| && Contains(Lower(FullText(tools, e)), UrgentWords[k])
    ensures f.hasApply <==> Contains(Lower(FullText(tools, e)), "apply")
    ensures f.hasOpportunity <==> Contains(Lower(FullText(tools, e)), "opportunity")
    ensures f.processedText == Preprocess(tools, FullText(tools, e))
    ensures f.senderDomain == SenderDomain(tools, e.sender.GetOr(""))
  {
    var subject := Subject(e);
    var body := ResolveBody(tools, e.body);
    var full := FullText(tools, e);
    var lowered := Lower(full);
    FeatureBag(
      processedText := Preprocess(tools, full),
      subjectLength := |subject|,
      bodyLength := |body|,
      totalLength := |full|,
      senderDomain := SenderDomain(tools, e.sender.GetOr("")),
      hasDeadline := Contains(lowered, "deadline"),
      hasUrgent := AnyContained(lowered, UrgentWords),
      hasApply := Contains(lowered, "apply"),
      hasOpportunity := Contains(lowered, "opportunity"),
      wordCount := WordCount(subject, body),
      exclamationCount := CharCount(subject, body, '!'),
      questionCount := CharCount(subject, body, '?'),
      capsRatio := CapsRatio(subject, body))
  }

  const UrgentWords: seq<string> := ["urgent", "asap", "immediate"]

  /** Some word of `words` occurs in `text`. */
  function AnyContained(text: string, words: seq<string>): (b: bool)
    ensures b <==> exists k :: 0 <= k < |words| && Contains(text, words[k])
  {
    if |words| == 0 then false
    else
      assert forall k :: 1 <= k < |words| ==> words[k] == words[1..][k - 1];
      Contains(text, words[0]) || AnyContained(text, words[1..])
  }

  /** The keyword flags and the text counts look at subject and body only:
      two emails that differ only in their sender agree on all of them. */
  lemma FlagsIgnoreSender(tools: TextTools, e: RawEmail, sender: Option<string>)
    ensures
      var f, g := ExtractFeatures(tools, e), ExtractFeatures(tools, e.(sender := sender));
      && f.hasDeadline == g.hasDeadline && f.hasUrgent == g.hasUrgent
      && f.hasApply == g.hasApply && f.hasOpportunity == g.hasOpportunity
      && f.processedText == g.processedText && f.capsRatio == g.capsRatio
      && f.wordCount == g.wordCount && f.totalLength == g.totalLength
  {
  }

  /** An email with no subject, body or sender: every count is zero, the full
      text is the single separating space, no flag is set and the caps ratio is 0. */
  lemma EmptyEmailFeatures(tools: TextTools)
    requires '@' !in tools.parseAddress("")
    ensures
      var f := ExtractFeatures(tools, RawEmail(None, None, None));
      && f.subjectLength == 0 && f.bodyLength == 0 && f.totalLength == 1
      && f.wordCount == 0 && f.exclamationCount == 0 && f.questionCount == 0
      && f.capsRatio == 0.0 && f.senderDomain == ""
      && !f.hasDeadline && !f.hasUrgent && !f.hasApply && !f.hasOpportunity
  {
    var e := RawEmail(None, None, None);
    assert Subject(e) == "" && ResolveBody(tools, e.body) == "";
    var lowered := Lower(FullText(tools, e));
    assert |lowered| == 1;
    NotContainedInShorter(lowered, "deadline");
    NotContainedInShorter(lowered, "apply");
    NotContainedInShorter(lowered, "opportunity");
    forall k | 0 <= k < |UrgentWords| ensures !Contains(lowered, UrgentWords[k]) {
      NotContainedInShorter(lowered, UrgentWords[k]);
    }
  }

  lemma NotContainedInShorter(s: string, t: string)
    requires |s| < |t|
    ensures !Contains(s, t)
  {
    ContainsIff(s, t);
  }

  // ---------------------------------------------------------------- weak labels

  /** Number of keywords of `keywords` occurring in `text`, each counted once. */
  function KeywordHits(text: string, keywords: seq<string>): (n: nat)
    ensures n <= |keywords|
    ensures n == 0 <==> forall k :: 0 <= k < |keywords| ==> !Contains(text, keywords[k])
  {
    if |keywords| == 0 then 0
    else
      assert forall k :: 1 <= k < |keywords| ==> keywords[k] == keywords[1..][k - 1];
      (if Contains(text, keywords[0]) then 1 else 0) + KeywordHits(text, keywords[1..])
  }

  /** The per-category scores, in keyword-table order. */
  function Scores(table: seq<KeywordList>, text: string): (scores: seq<real>)
    ensures |scores| == |table|
    ensures forall i :: 0 <= i < |scores| ==> scores[i] == KeywordHits(text, table[i].keywords) as real
  {
    seq(|table|, i requires 0 <= i < |table| => KeywordHits(text, table[i].keywords) as real)
  }

  datatype Label = Label(category: string, confidence: real)

  /** The weak label of an already lowercased text against a keyword table: the
      first category with the highest non-zero score, with confidence
      score / list length; `other` with confidence 0 when nothing matches. */
  function LabelText(table: seq<KeywordList>, text: string): (r: Label)
    requires WellFormedTable(table)
    ensures r.category == Other <==> forall i :: 0 <= i < |table| ==> KeywordHits(text, table[i].keywords) == 0
    ensures r.category == Other ==> r.confidence == 0.0
    ensures r.category != Other ==> exists k :: 0 <= k < |table| && r.category == table[k].category
    ensures forall k :: 0 <= k < |table| && r.category == table[k].category ==>
      var hits := KeywordHits(text, table[k].keywords);
      && hits > 0
      && r.confidence == hits as real / |table[k].keywords| as real
      && 0.0 < r.confidence <= 1.0
      && (forall j :: 0 <= j < |table| ==> KeywordHits(text, table[j].keywords) <= hits)
      && (forall j :: 0 <= j < k ==> KeywordHits(text, table[j].keywords) < hits)
  {
    var scores := Scores(table, text);
    match SelectAbove(scores, 0.0)
    case None => Label(Other, 0.0)
    case Some(k) =>
      assert forall j :: 0 <= j < |table| && table[j].category == table[k].category ==> j == k;
      Ratio(KeywordHits(text, table[k].keywords), |table[k].keywords|);
      Label(table[k].category, scores[k] / |table[k].keywords| as real)
  }

  /** The weak label of a text under the configured keyword table. */
  function LabelWithKeywords(text: string): Label {
    Config.KeywordTableWellFormed();
    LabelText(Config.CategoryKeywords, text)
  }

  /** `label_email_with_keywords`: the weak label of the lowercased subject and body. */
  function LabelEmail(tools: TextTools, e: RawEmail): Label {
    LabelWithKeywords(Lower(Lower(Subject(e)) + " " + ResolveBody(tools, e.body)))
  }

  /** The labeller reads the same lowercased text the keyword flags read. */
  lemma LabelEmailText(tools: TextTools, e: RawEmail)
    ensures LabelEmail(tools, e) == LabelWithKeywords(Lower(FullText(tools, e)))
  {
    var s, b := Subject(e), ResolveBody(tools, e.body);
    assert Lower(Lower(s) + " " + b) == Lower(s + " " + b);
  }

  /** Training importance label: an important category, or confidence above 0.7. */
  predicate IsImportantLabel(l: Label) {
    IsImportantCategory(l.category) || l.confidence > 0.7
  }

  // ---------------------------------------------------------------- dataset

  /** One row of the training data frame. Every cell is present in the rows
      built here; `None` stands for a missing (NaN) cell of a frame from elsewhere. */
  datatype DataRow = DataRow(
    text: Option<string>,
    subjectLength: Option<real>,
    bodyLength: Option<real>,
    senderDomain: string,
    hasDeadline: Option<bool>,
    hasUrgent: Option<bool>,
    hasApply: Option<bool>,
    hasOpportunity: Option<bool>,
    wordCount: Option<real>,
    exclamationCount: Option<real>,
    questionCount: Option<real>,
    capsRatio: Option<real>,
    category: string,
    isImportant: bool,
    confidence: real)

  /** The frame row of an email with features `f` and weak label `l`. */
  function TrainingRow(f: FeatureBag, l: Label): (row: DataRow)
    ensures row.isImportant <==> IsImportantCategory(row.category) || row.confidence > 0.7
  {
    DataRow(
      text := Some(f.processedText),
      subjectLength := Some(f.subjectLength as real),
      bodyLength := Some(f.bodyLength as real),
      senderDomain := f.senderDomain,
      hasDeadline := Some(f.hasDeadline),
      hasUrgent := Some(f.hasUrgent),
      hasApply := Some(f.hasApply),
      hasOpportunity := Some(f.hasOpportunity),
      wordCount := Some(f.wordCount as real),
      exclamationCount := Some(f.exclamationCount as real),
      questionCount := Some(f.questionCount as real),
      capsRatio := Some(f.capsRatio),
      category := l.category,
      isImportant := IsImportantLabel(l),
      confidence := l.confidence)
  }

  /** `create_training_dataset`: one row per email, in input order, each carrying
      the email's features, weak label and derived importance. */
  function CreateTrainingDataset(tools: TextTools, emails: seq<RawEmail>): (rows: seq<DataRow>)
    ensures |rows| == |emails|
    ensures forall i :: 0 <= i < |emails| ==> rows[i] == TrainingRow(ExtractFeatures(tools, emails[i]), LabelEmail(tools, emails[i]))
    ensures forall i :: 0 <= i < |emails| ==>
      && rows[i].text == Some(ExtractFeatures(tools, emails[i]).processedText)
      && rows[i].category == LabelEmail(tools, emails[i]).category
      && rows[i].confidence == LabelEmail(tools, emails[i]).confidence
      && (rows[i].isImportant <==> IsImportantCategory(rows[i].category) || rows[i].confidence > 0.7)
  {
    seq(|emails|, i requires 0 <= i < |emails| => TrainingRow(ExtractFeatures(tools, emails[i]), LabelEmail(tools, emails[i])))
  }
}

=== FILE: email_card.dfy ===
/** The email card's display helpers: the time-ago label and the priority and
    tag colour classes. */
module EmailCard {
  import opened Wrappers
  import opened Text
  import opened Taxonomy
  import opened JsNumbers

  // ---------------------------------------------------------------- colours

  const HighClass: string := "border-l-red-500 bg-red-50/50 dark:bg-red-900/10"
  const MediumClass: string := "border-l-yellow-500 bg-yellow-50/50 dark:bg-yellow-900/10"
  const LowClass: string := "border-l-green-500 bg-green-50/50 dark:bg-green-900/10"

  /** `getPriorityColor`: red for "high", yellow for "medium", green for any
      other value. */
  function PriorityColor(priority: string): (c: string)
    ensures c == HighClass <==> priority == "high"
    ensures c == MediumClass <==> priority == "medium"
    ensures c == LowClass <==> priority != "high" && priority != "medium"
  {
    if priority == "high" then HighClass
    else if priority == "medium" then MediumClass
    else LowClass
  }

  /** The classes of the six keyword categories. */
  const TagColors: map<string, string> := map[
    Opportunities := "bg-blue-100 text-blue-800 dark:bg-blue-900/30 dark:text-blue-300",
    Hackathons := "bg-purple-100 text-purple-800 dark:bg-purple-900/30 dark:text-purple-300",
    Contests := "bg-yellow-100 text-yellow-800 dark:bg-yellow-900/30 dark:text-yellow-300",
    Scholarships := "bg-green-100 text-green-800 dark:bg-green-900/30 dark:text-green-300",
    Jobs := "bg-indigo-100 text-indigo-800 dark:bg-indigo-900/30 dark:text-indigo-300",
    Events := "bg-pink-100 text-pink-800 dark:bg-pink-900/30 dark:text-pink-300"]

  const GrayClass: string := "bg-gray-100 text-gray-800 dark:bg-gray-900/30 dark:text-gray-300"

  /** `getTagColor`: the category's own class, gray for any other string. */
  function TagColor(category: string): (c: string)
    ensures category in KeywordCategories ==> c == TagColors[category]
    ensures c == GrayClass <==> category !in KeywordCategories
  {
    if category in TagColors then TagColors[category] else GrayClass
  }

  /** The six categories get six different classes. */
  lemma TagColorsDistinct(a: string, b: string)
    requires a in KeywordCategories && b in KeywordCategories && a != b
    ensures TagColor(a) != TagColor(b)
  {
  }

  // ---------------------------------------------------------------- time ago

  const HourMs: int := 1000 * 60 * 60

  /** `Math.floor((now - date) / 3600000)`: whole hours elapsed, rounded down
      (also for dates in the future). */
  function HoursSince(now: int, date: int): (h: int)
    ensures h * HourMs <= now - date < (h + 1) * HourMs
  {
    (now - date) / HourMs
  }

  /** `timeAgo`: "Just now" under an hour (and for future dates), then hours
      up to a day, days up to a week, and the formatted date after that.
      `localeDate` stands for `toLocaleDateString`. */
  function TimeAgo(now: int, date: int, localeDate: int -> string): (text: string)
    ensures now - date < HourMs ==> text == "Just now"
    ensures HourMs <= now - date < 24 * HourMs ==> text == NatToString(HoursSince(now, date)) + "h ago"
    ensures 24 * HourMs <= now - date < 168 * HourMs ==>
      && 1 <= HoursSince(now, date) / 24 <= 6
      && text == NatToString(HoursSince(now, date) / 24) + "d ago"
    ensures 168 * HourMs <= now - date ==> text == localeDate(date)
  {
    var hours := HoursSince(now, date);
    if hours < 1 then "Just now"
    else if hours < 24 then NatToString(hours) + "h ago"
    else
      var days := hours / 24;
      if days < 7 then NatToString(days) + "d ago"
      else localeDate(date)
  }

  /** The number at the head of an hours or days label reads back as the
      elapsed hours or days. */
  lemma TimeAgoReadsBack(now: int, date: int, localeDate: int -> string)
    requires HourMs <= now - date < 168 * HourMs
    ensures HoursSince(now, date) < 24 ==> ParseInt(TimeAgo(now, date, localeDate)) == Some(HoursSince(now, date))
    ensures HoursSince(now, date) >= 24 ==> ParseInt(TimeAgo(now, date, localeDate)) == Some(HoursSince(now, date) / 24)
  {
    var h := HoursSince(now, date);
    var text := TimeAgo(now, date, localeDate);
    assert 1 <= h < 168;
    if h < 24 {
      ReadsBack(h, "h ago", text);
    } else {
      ReadsBack(h / 24, "d ago", text);
    }
  }

  lemma ReadsBack(n: nat, unit: string, text: string)
    requires unit == "h ago" || unit == "d ago"
    requires text == NatToString(n) + unit
    ensures ParseInt(text) == Some(n)
  {
    assert SignText(false) + NatToString(n) + unit == text;
    ParseIntDecimal(n, false, unit);
  }

}

=== FILE: email_types.dfy ===
/** The front end's email record and its filter ids. */
module EmailTypes {
  import opened Taxonomy

  /** The filter that shows every email. */
  const AllFilter: string := "all"

  /** The filter ids of the panel: "all" and the six keyword categories. */
  const FilterIds: seq<string> := [AllFilter] + KeywordCategories

  /** A tag; `caption` is the label shown on the card. */
  datatype EmailTag = EmailTag(caption: string, category: string)

  datatype EmailSender = EmailSender(name: string, email: string, avatar: string)

  datatype Priority = High | Medium | Low

  /** A listed email; `date` is the instant its date string denotes, in
      milliseconds since the epoch. */
  datatype Email = Email(
    id: string,
    subject: string,
    sender: EmailSender,
    date: int,
    preview: string,
    isImportant: bool,
    isRead: bool,
    priority: Priority,
    tags: seq<EmailTag>)

  /** Some tag of the email has the category. */
  predicate HasCategory(e: Email, c: string) {
    exists k :: 0 <= k < |e.tags| && e.tags[k].category == c
  }
}

=== FILE: filter_panel.dfy ===
/** The category filter panel: the list of active filter ids a click produces,
    and the "Total Filtered" figure. */
module FilterPanel {
  import opened Taxonomy
  import opened EmailTypes
  import opened Seqs

  predicate Distinct(s: seq<string>) {
    forall i, j :: 0 <= i < j < |s| ==> s[i] != s[j]
  }

  /** The test `f !== id`. */
  function Other(id: string): string -> bool {
    (f: string) => f != id
  }

  /** A sub-list of a list without repeats has no repeats. */
  lemma {:induction false} SubsequenceDistinct(r: seq<string>, s: seq<string>)
    requires Subsequence(r, s) && Distinct(s)
    ensures Distinct(r)
    decreases |s|
  {
    if |r| > 0 {
      var s' := s[..|s| - 1];
      assert Distinct(s') by {
        forall i, j | 0 <= i < j < |s'| ensures s'[i] != s'[j] {
          assert s'[i] == s[i] && s'[j] == s[j];
        }
      }
      if r[|r| - 1] == s[|s| - 1] {
        var r' := r[..|r| - 1];
        SubsequenceDistinct(r', s');
        SubsequenceMembers(r', s');
        forall i, j | 0 <= i < j < |r| ensures r[i] != r[j] {
          if j == |r| - 1 {
            assert r[i] == r'[i] && r'[i] in s';
            var k :| 0 <= k < |s'| && s'[k] == r[i];
            assert s[k] == r[i];
          } else {
            assert r[i] == r'[i] && r[j] == r'[j];
          }
        }
      } else {
        SubsequenceDistinct(r, s');
      }
    }
  }

  /** The list with every occurrence of `id` dropped, order kept
      (`filter(f => f !== id)`). */
  function Without(active: seq<string>, id: string): (r: seq<string>)
    ensures Subsequence(r, active) && |r| <= |active|
    ensures forall x :: x in r <==> x in active && x != id
    ensures id !in active ==> r == active
    ensures Distinct(active) ==> Distinct(r)
  {
    var r := Where(active, Other(id));
    SubsequenceMembers(r, active);
    assert Distinct(active) ==> Distinct(r) by {
      if Distinct(active) {
        SubsequenceDistinct(r, active);
      }
    }
    forall x | x in active && x != id ensures x in r {
      var k :| 0 <= k < |active| && active[k] == x;
      assert Other(id)(active[k]);
    }
    r
  }

  /** `handleFilterClick`: clicking "all" selects only "all"; clicking a
      category while "all" is active selects only that category; clicking an
      active category removes it, falling back to "all" when none is left;
      clicking an inactive one appends it. */
  function Click(active: seq<string>, id: string): (r: seq<string>)
    ensures |r| > 0
    ensures id == AllFilter ==> r == [AllFilter]
    ensures id != AllFilter && AllFilter in active ==> r == [id]
    ensures id != AllFilter && AllFilter !in active && id in active ==>
      && id !in r
      && (r == [AllFilter] <==> forall x :: x in active ==> x == id)
      && (r != [AllFilter] ==> forall x :: x in r <==> x in active && x != id)
    ensures id != AllFilter && AllFilter !in active && id !in active ==> r == active + [id]
  {
    if id == AllFilter then [AllFilter]
    else if AllFilter in active then [id]
    else if id in active then
      var rest := Without(active, id);
      if |rest| == 0 then [AllFilter]
      else
        assert rest[0] in rest && rest[0] != id && AllFilter !in rest;
        rest
    else active + [id]
  }

  /** What every reachable filter list looks like: non-empty, no repeats, only
      panel ids, and either exactly "all" or free of "all". */
  predicate WellFormed(active: seq<string>) {
    && |active| > 0
    && Distinct(active)
    && (forall i :: 0 <= i < |active| ==> active[i] in FilterIds)
    && (active == [AllFilter] || AllFilter !in active)
  }

  /** The dashboard starts with only "all" active. */
  const Initial: seq<string> := [AllFilter]

  lemma ClickKeepsWellFormed(active: seq<string>, id: string)
    requires WellFormed(active) && id in FilterIds
    ensures WellFormed(Click(active, id))
  {
    var r := Click(active, id);
    if id != AllFilter && AllFilter !in active {
      if id in active {
        assert forall i :: 0 <= i < |r| ==> r[i] in FilterIds by {
          forall i | 0 <= i < |r| ensures r[i] in FilterIds {
            if r != [AllFilter] {
              assert r[i] in r;
              var j :| 0 <= j < |active| && active[j] == r[i];
            }
          }
        }
      } else {
        forall i, j | 0 <= i < j < |r| ensures r[i] != r[j] {
          if j == |active| {
            assert r[i] == active[i] && active[i] in active;
          }
        }
        forall i | 0 <= i < |r| ensures r[i] in FilterIds {
          if i < |active| {
            assert r[i] == active[i];
          }
        }
        assert AllFilter !in r;
      }
    }
  }

  /** The filter list after a sequence of clicks on panel buttons. */
  function After(clicks: seq<string>): (r: seq<string>)
    requires forall i :: 0 <= i < |clicks| ==> clicks[i] in FilterIds
    ensures WellFormed(r)
  {
    if |clicks| == 0 then Initial
    else
      var before := After(clicks[..|clicks| - 1]);
      ClickKeepsWellFormed(before, clicks[|clicks| - 1]);
      Click(before, clicks[|clicks| - 1])
  }

  /** Clicking an inactive category twice, with "all" not active, restores the
      list. */
  lemma ClickTwice(active: seq<string>, id: string)
    requires |active| > 0 && AllFilter !in active
    requires id != AllFilter && id !in active
    ensures Click(Click(active, id), id) == active
  {
    var once := active + [id];
    assert AllFilter !in once;
    assert id in once by {
      assert once[|active|] == id;
    }
    WithoutLast(active, id);
  }

  lemma {:induction false} WithoutLast(s: seq<string>, id: string)
    requires id !in s
    ensures Without(s + [id], id) == s
    decreases |s|
  {
    if |s| == 0 {
      assert [id][1..] == [];
    } else {
      assert (s + [id])[1..] == s[1..] + [id];
      WithoutLast(s[1..], id);
      assert s == [s[0]] + s[1..];
    }
  }

  // ---------------------------------------------------------------- totals

  /** The counts the panel displays: all emails, and per filter id. */
  datatype EmailCounts = EmailCounts(all: nat, byFilter: map<string, nat>)

  /** `emailCounts[f] || 0`. */
  function CountOr0(counts: EmailCounts, f: string): nat {
    if f in counts.byFilter then counts.byFilter[f] else 0
  }

  /** The running sum of `reduce((sum, f) => sum + (emailCounts[f] || 0), 0)`. */
  function SumCounts(active: seq<string>, counts: EmailCounts): nat {
    if |active| == 0 then 0
    else SumCounts(active[..|active| - 1], counts) + CountOr0(counts, active[|active| - 1])
  }

  /** "Total Filtered": the count of all emails when "all" is active, otherwise
      the sum over the active filters, a missing count adding nothing. */
  function TotalFiltered(active: seq<string>, counts: EmailCounts): (n: nat)
    ensures AllFilter in active ==> n == counts.all
    ensures AllFilter !in active ==> n == SumCounts(active, counts)
    ensures AllFilter !in active && (forall i :: 0 <= i < |active| ==> active[i] !in counts.byFilter) ==> n == 0
  {
    if AllFilter in active then counts.all
    else
      SumMissing(active, counts);
      SumCounts(active, counts)
  }

  lemma {:induction false} SumMissing(active: seq<string>, counts: EmailCounts)
    ensures (forall i :: 0 <= i < |active| ==> active[i] !in counts.byFilter) ==> SumCounts(active, counts) == 0
    decreases |active|
  {
    if |active| > 0 {
      SumMissing(active[..|active| - 1], counts);
    }
  }
}

=== FILE: filter_service.dfy ===
/** The backend's keyword filter (`FilterService`): category tags, priority and
    importance from keyword hits, the merge with the ML service's answer, the
    dynamic keyword update and the per-category statistics. The near-date regex
    test is a parameter; the ML answer is passed in (`None` when the service is
    disabled or its request failed). */
module FilterService {
  import opened Wrappers
  import opened Text
  import opened Taxonomy
  import opened Tally
  import Config

  /** The filter's category keyword table, in declaration order. */
  const DefaultKeywords: seq<KeywordList> := [
    KeywordList(Opportunities, [
      "internship", "intern", "opportunity", "application", "apply now",
      "career", "job opening", "position", "hiring", "recruitment",
      "fellowship", "program", "mentorship", "training", "apprenticeship"]),
    KeywordList(Hackathons, [
      "hackathon", "hack", "coding competition", "programming contest",
      "dev challenge", "build challenge", "code sprint", "hack day",
      "innovation challenge", "tech competition"]),
    KeywordList(Contests, [
      "contest", "competition", "challenge", "prize", "award",
      "winner", "submit", "deadline", "entry", "participate",
      "coding contest", "programming competition"]),
    KeywordList(Scholarships, [
      "scholarship", "grant", "funding", "financial aid", "tuition",
      "education fund", "student aid", "bursary", "stipend",
      "educational support", "study abroad"]),
    KeywordList(Jobs, [
      "job", "position", "role", "employment", "career",
      "full-time", "part-time", "remote", "work from home",
      "software engineer", "developer", "programmer", "analyst"]),
    KeywordList(Events, [
      "event", "conference", "workshop", "seminar", "webinar",
      "meetup", "summit", "symposium", "networking", "tech talk",
      "presentation", "demo day"])
  ]

  const HighKeywords: seq<string> := [
    "urgent", "asap", "immediate", "deadline today", "expires today",
    "last chance", "final reminder", "action required", "time sensitive"]

  const MediumKeywords: seq<string> := [
    "deadline", "reminder", "important", "please review",
    "response needed", "follow up", "expires soon"]

  /** The backend and the ML service label with the same six keyword lists. */
  lemma TablesAgree()
    ensures DefaultKeywords == Config.CategoryKeywords
    ensures WellFormedTable(DefaultKeywords)
  {
    Config.KeywordTableWellFormed();
  }

  datatype Priority = High | Medium | Low

  function PriorityName(p: Priority): string {
    match p
    case High => "high"
    case Medium => "medium"
    case Low => "low"
  }

  datatype Tag = Tag(title: string, category: string, confidence: real)

  datatype Filtered = Filtered(tags: seq<Tag>, priority: Priority, isImportant: bool)

  // ---------------------------------------------------------------- labels

  /** `getCategoryLabel`: the display label of a known category, and the
      category itself for any other string. */
  function CategoryLabel(category: string): (shown: string)
    ensures category in KeywordCategories ==> shown != category && |shown| > 0
    ensures category !in KeywordCategories ==> shown == category
  {
    if category == Opportunities then "Opportunity"
    else if category == Hackathons then "Hackathon"
    else if category == Contests then "Contest"
    else if category == Scholarships then "Scholarship"
    else if category == Jobs then "Job"
    else if category == Events then "Event"
    else category
  }

  // ---------------------------------------------------------------- keyword pass

  /** A keyword occurs in the text once lowercased. */
  predicate Hit(text: string, keyword: string) {
    Contains(text, Lower(keyword))
  }

  /** How many keywords hit the text. */
  function Matches(text: string, keywords: seq<string>): (n: nat)
    ensures n <= |keywords|
    ensures n == 0 <==> forall k :: 0 <= k < |keywords| ==> !Hit(text, keywords[k])
  {
    if |keywords| == 0 then 0
    else
      assert forall k :: 1 <= k < |keywords| ==> keywords[k] == keywords[1..][k - 1];
      (if Hit(text, keywords[0]) then 1 else 0) + Matches(text, keywords[1..])
  }

  /** `Math.min(matches * 0.3, 1.0)`. */
  function TagConfidence(matches: nat): (c: real)
    requires matches > 0
    ensures 0.0 < c <= 1.0
    ensures matches >= 4 ==> c == 1.0
  {
    var c := matches as real * 0.3;
    if c < 1.0 then c else 1.0
  }

  /** The tag a table entry contributes to a text: present when at least one of
      its keywords occurs, with confidence rising by 0.3 per hit up to 1. */
  function TagOf(entry: KeywordList, text: string): (t: Option<Tag>)
    ensures t.Some? <==> Matches(text, entry.keywords) > 0
    ensures t.Some? ==> t.value.category == entry.category && t.value.title == CategoryLabel(entry.category)
    ensures t.Some? ==> t.value.confidence == TagConfidence(Matches(text, entry.keywords)) && 0.0 < t.value.confidence <= 1.0
  {
    var m := Matches(text, entry.keywords);
    if m > 0 then Some(Tag(CategoryLabel(entry.category), entry.category, TagConfidence(m))) else None
  }

  /** Some entry of the table contributes the tag. */
  predicate FromTable(table: seq<KeywordList>, text: string, t: Tag) {
    exists i :: 0 <= i < |table| && TagOf(table[i], text) == Some(t)
  }

  /** The category tags of a text: the tags of the table entries, in table order. */
  function TagsFrom(table: seq<KeywordList>, text: string): (tags: seq<Tag>)
    ensures |tags| <= |table|
    ensures forall k :: 0 <= k < |tags| ==> FromTable(table, text, tags[k])
    ensures forall i :: 0 <= i < |table| && TagOf(table[i], text).Some? ==> TagOf(table[i], text).value in tags
    decreases |table|
  {
    if |table| == 0 then []
    else
      var rest := TagsFrom(table[1..], text);
      assert forall i :: 1 <= i < |table| ==> table[i] == table[1..][i - 1];
      match TagOf(table[0], text)
      case Some(t) => [t] + rest
      case None => rest
  }

  /** One entry contributes its tag, if any. */
  lemma TagsFromOne(entry: KeywordList, text: string)
    ensures TagsFrom([entry], text) == if TagOf(entry, text).Some? then [TagOf(entry, text).value] else []
  {
    assert [entry][1..] == [];
  }

  /** The tags of two tables one after the other are the tags of the first
      followed by the tags of the second: with `TagsFromOne`, the tags follow
      table order, one per contributing entry. */
  lemma {:induction false} TagsFromAppend(a: seq<KeywordList>, b: seq<KeywordList>, text: string)
    ensures TagsFrom(a + b, text) == TagsFrom(a, text) + TagsFrom(b, text)
    decreases |a|
  {
    if |a| == 0 {
      assert a + b == b;
    } else {
      assert (a + b)[0] == a[0];
      assert (a + b)[1..] == a[1..] + b;
      TagsFromAppend(a[1..], b, text);
    }
  }

  /** Tags of a well-formed table carry distinct categories. */
  lemma {:induction false} TagsUnique(table: seq<KeywordList>, text: string)
    requires WellFormedTable(table)
    ensures UniqueCategories(TagsFrom(table, text))
    decreases |table|
  {
    if |table| > 0 {
      var tail := table[1..];
      assert WellFormedTable(tail) by {
        assert forall i :: 0 <= i < |tail| ==> tail[i] == table[i + 1];
      }
      TagsUnique(tail, text);
      var rest := TagsFrom(tail, text);
      forall k | 0 <= k < |rest| ensures rest[k].category != table[0].category {
        assert FromTable(tail, text, rest[k]);
        var i :| 0 <= i < |tail| && TagOf(tail[i], text) == Some(rest[k]);
        assert tail[i] == table[i + 1];
      }
      match TagOf(table[0], text) {
        case Some(t) =>
          ConsUnique(t, rest);
        case None =>
      }
    }
  }

  lemma ConsUnique(t: Tag, rest: seq<Tag>)
    requires UniqueCategories(rest)
    requires forall k :: 0 <= k < |rest| ==> rest[k].category != t.category
    ensures UniqueCategories([t] + rest)
  {
    var tags := [t] + rest;
    forall a, b | 0 <= a < b < |tags| ensures tags[a].category != tags[b].category {
      assert tags[b] == rest[b - 1];
      if a > 0 {
        assert tags[a] == rest[a - 1];
      }
    }
  }

  /** So each category has at most one tag: the one its own entry contributes. */
  lemma TagOfCategory(table: seq<KeywordList>, text: string, k: nat, i: nat)
    requires WellFormedTable(table)
    requires k < |TagsFrom(table, text)| && i < |table|
    requires TagsFrom(table, text)[k].category == table[i].category
    ensures TagOf(table[i], text) == Some(TagsFrom(table, text)[k])
  {
    assert FromTable(table, text, TagsFrom(table, text)[k]);
    var j :| 0 <= j < |table| && TagOf(table[j], text) == Some(TagsFrom(table, text)[k]);
    assert table[j].category == table[i].category;
  }

  /** A category of a well-formed table is tagged exactly when one of its
      keywords hits, and then with its own confidence. */
  lemma TaggedIff(table: seq<KeywordList>, text: string, i: nat)
    requires WellFormedTable(table) && i < |table|
    ensures HasCategory(TagsFrom(table, text), table[i].category) <==> Matches(text, table[i].keywords) > 0
    ensures Matches(text, table[i].keywords) > 0 ==>
      exists k :: 0 <= k < |TagsFrom(table, text)| &&
        TagsFrom(table, text)[k] == Tag(CategoryLabel(table[i].category), table[i].category, TagConfidence(Matches(text, table[i].keywords)))
  {
    var tags := TagsFrom(table, text);
    if HasCategory(tags, table[i].category) {
      var k :| 0 <= k < |tags| && tags[k].category == table[i].category;
      TagOfCategory(table, text, k, i);
    }
    if Matches(text, table[i].keywords) > 0 {
      var t := TagOf(table[i], text).value;
      assert t in tags;
      var k :| 0 <= k < |tags| && tags[k] == t;
      assert tags[k].category == table[i].category;
    }
  }

  /** The priority before the date heuristic: the first level, high then medium,
      with a hit. */
  function KeywordPriority(text: string): (p: Priority)
    ensures p == High <==> Matches(text, HighKeywords) > 0
    ensures p == Medium <==> Matches(text, HighKeywords) == 0 && Matches(text, MediumKeywords) > 0
  {
    if Matches(text, HighKeywords) > 0 then High
    else if Matches(text, MediumKeywords) > 0 then Medium
    else Low
  }

  /** Any tag of an important category. */
  predicate HasImportantTag(tags: seq<Tag>) {
    exists k :: 0 <= k < |tags| && IsImportantCategory(tags[k].category)
  }

  /** The deadline heuristic: "deadline" together with a near-date pattern. */
  predicate DeadlineSoon(nearDate: string -> bool, text: string) {
    Contains(text, "deadline") && nearDate(text)
  }

  /** `applyKeywordFiltering` over an already lowercased text. */
  function ApplyKeywordFiltering(table: seq<KeywordList>, nearDate: string -> bool, text: string): (r: Filtered)
    ensures r.tags == TagsFrom(table, text)
    ensures r.priority == High <==> Matches(text, HighKeywords) > 0 || DeadlineSoon(nearDate, text)
    ensures r.priority == Medium <==>
      !DeadlineSoon(nearDate, text) && Matches(text, HighKeywords) == 0 && Matches(text, MediumKeywords) > 0
    ensures r.priority == Low <==>
      !DeadlineSoon(nearDate, text) && Matches(text, HighKeywords) == 0 && Matches(text, MediumKeywords) == 0
    ensures r.isImportant <==>
      HasImportantTag(r.tags) || r.priority != Low
  {
    var tags := TagsFrom(table, text);
    var level := KeywordPriority(text);
    if DeadlineSoon(nearDate, text) then Filtered(tags, High, true)
    else Filtered(tags, level, HasImportantTag(tags) || level != Low)
  }

  // ---------------------------------------------------------------- filterEmail

  /** The fields of an email the filter reads; a missing `body` or `sender`
      object is `None`, a missing subject renders as "undefined". */
  datatype EmailInput = EmailInput(subject: Option<string>, body: Option<Option<string>>, sender: Option<string>)

  /** The answer of the ML service, as far as the merge reads it. */
  datatype MlCategory = MlCategory(name: string, confidence: real)
  datatype MlResult = MlResult(isImportant: bool, confidence: real, categories: Option<seq<MlCategory>>)

  /** The text the filter matches against: subject, body text and sender address,
      space separated and lowercased. Unlike the ML features it includes the sender. */
  function FilterText(subject: Option<string>, bodyText: Option<string>, senderEmail: string): (t: string)
    ensures |t| == |subject.GetOr("undefined")| + |bodyText.GetOr("")| + |senderEmail| + 2
  {
    Lower(subject.GetOr("undefined") + " " + bodyText.GetOr("") + " " + senderEmail)
  }

  datatype FilterOutcome = FilterOutcome(result: Filtered, mlPrediction: Option<MlResult>)

  /** `filterEmail`: keyword pass, then the merge. A missing body or sender object
      throws and yields no tags, low priority, not important, no ML prediction. */
  function FilterEmail(table: seq<KeywordList>, nearDate: string -> bool, e: EmailInput, ml: Option<MlResult>): (r: FilterOutcome)
    ensures e.body.None? || e.sender.None? ==> r == FilterOutcome(Filtered([], Low, false), None)
    ensures e.body.Some? && e.sender.Some? ==>
      r.result == CombineResults(ApplyKeywordFiltering(table, nearDate, FilterText(e.subject, e.body.value, e.sender.value)), ml)
      && r.mlPrediction == ml
  {
    match (e.body, e.sender)
    case (Some(text), Some(address)) =>
      var keywordResult := ApplyKeywordFiltering(table, nearDate, FilterText(e.subject, text, address));
      FilterOutcome(CombineResults(keywordResult, ml), ml)
    case _ => FilterOutcome(Filtered([], Low, false), None)
  }

  // ---------------------------------------------------------------- merge

  predicate UniqueCategories(tags: seq<Tag>) {
    forall a, b :: 0 <= a < b < |tags| ==> tags[a].category != tags[b].category
  }

  /** Position of the first tag with the given category. */
  function FindTag(tags: seq<Tag>, category: string): (r: Option<nat>)
    ensures r.None? <==> forall k :: 0 <= k < |tags| ==> tags[k].category != category
    ensures r.Some? ==> r.value < |tags| && tags[r.value].category == category
    ensures r.Some? ==> forall k :: 0 <= k < r.value ==> tags[k].category != category
  {
    if |tags| == 0 then None
    else if tags[0].category == category then Some(0)
    else
      match FindTag(tags[1..], category)
      case None => None
      case Some(k) => Some(k + 1)
  }

  function Max(a: real, b: real): real {
    if a >= b then a else b
  }

  /** Some tag carries the category. */
  predicate HasCategory(tags: seq<Tag>, category: string) {
    exists k :: 0 <= k < |tags| && tags[k].category == category
  }

  /** Some ML category above 0.5 carries the name. */
  predicate Proposed(cats: seq<MlCategory>, name: string) {
    exists j :: 0 <= j < |cats| && cats[j].confidence > 0.5 && cats[j].name == name
  }

  /** `r` keeps every tag of `tags` in place, with the same category and title
      and no lower confidence. */
  predicate Extends(r: seq<Tag>, tags: seq<Tag>) {
    && |tags| <= |r|
    && forall k :: 0 <= k < |tags| ==>
         r[k].category == tags[k].category && r[k].title == tags[k].title && r[k].confidence >= tags[k].confidence
  }

  /** One ML category folded into the tags: ignored at confidence 0.5 or below;
      otherwise the existing tag of that category takes the larger confidence, or
      a new tag is appended. */
  function MergeOne(tags: seq<Tag>, c: MlCategory): (r: seq<Tag>)
    ensures c.confidence <= 0.5 ==> r == tags
    ensures Extends(r, tags) && |r| <= |tags| + 1
    ensures |r| == |tags| + 1 ==> r[|tags|] == Tag(CategoryLabel(c.name), c.name, c.confidence)
    ensures |r| == |tags| + 1 <==> c.confidence > 0.5 && forall k :: 0 <= k < |tags| ==> tags[k].category != c.name
    ensures UniqueCategories(tags) ==> UniqueCategories(r)
    ensures c.confidence > 0.5 ==> HasCategory(r, c.name)
    ensures c.confidence > 0.5 && FindTag(tags, c.name).None? ==> r == tags + [Tag(CategoryLabel(c.name), c.name, c.confidence)]
    ensures c.confidence > 0.5 && FindTag(tags, c.name).Some? ==>
      var k := FindTag(tags, c.name).value;
      r == tags[k := tags[k].(confidence := Max(tags[k].confidence, c.confidence))]
  {
    if c.confidence <= 0.5 then tags
    else
      match FindTag(tags, c.name)
      case None => tags + [Tag(CategoryLabel(c.name), c.name, c.confidence)]
      case Some(k) =>
        var r := tags[k := tags[k].(confidence := Max(tags[k].confidence, c.confidence))];
        assert r[k].category == c.name;
        r
  }

  /** All ML categories folded into the tags, in order. */
  function MergeTags(tags: seq<Tag>, cats: seq<MlCategory>): (r: seq<Tag>)
    ensures Extends(r, tags) && |r| <= |tags| + |cats|
    ensures UniqueCategories(tags) ==> UniqueCategories(r)
    decreases |cats|
  {
    if |cats| == 0 then tags
    else MergeTags(MergeOne(tags, cats[0]), cats[1..])
  }

  lemma ExtendsHasCategory(r: seq<Tag>, tags: seq<Tag>, category: string)
    requires Extends(r, tags) && HasCategory(tags, category)
    ensures HasCategory(r, category)
  {
    var k :| 0 <= k < |tags| && tags[k].category == category;
    assert r[k].category == category;
  }

  /** After the merge every ML category above 0.5 has a tag, and every tag
      beyond the original ones comes from such a category. */
  lemma {:induction false} MergeTagsCovers(tags: seq<Tag>, cats: seq<MlCategory>)
    ensures forall j :: 0 <= j < |cats| && cats[j].confidence > 0.5 ==> HasCategory(MergeTags(tags, cats), cats[j].name)
    ensures forall k :: |tags| <= k < |MergeTags(tags, cats)| ==> Proposed(cats, MergeTags(tags, cats)[k].category)
    decreases |cats|
  {
    if |cats| > 0 {
      var once := MergeOne(tags, cats[0]);
      var rest := cats[1..];
      MergeTagsCovers(once, rest);
      var r := MergeTags(tags, cats);
      assert r == MergeTags(once, rest);
      forall j | 0 <= j < |cats| && cats[j].confidence > 0.5 ensures HasCategory(r, cats[j].name) {
        if j == 0 {
          ExtendsHasCategory(r, once, cats[0].name);
        } else {
          assert cats[j] == rest[j - 1];
        }
      }
      forall k | |tags| <= k < |r| ensures Proposed(cats, r[k].category) {
        if k < |once| {
          assert r[k].category == once[k].category == cats[0].name;
        } else {
          assert Proposed(rest, r[k].category);
          var j :| 0 <= j < |rest| && rest[j].confidence > 0.5 && rest[j].name == r[k].category;
          assert cats[j + 1] == rest[j];
        }
      }
    }
  }

  /** The confidence a tag of category `name` ends with when it starts at
      `base` and every ML category above 0.5 carrying that name is folded in by
      taking the larger value: the largest of `base` and those confidences. */
  function Best(cats: seq<MlCategory>, name: string, base: real): (b: real)
    ensures b >= base
    ensures forall j :: 0 <= j < |cats| && cats[j].confidence > 0.5 && cats[j].name == name ==> b >= cats[j].confidence
    ensures b == base || exists j :: 0 <= j < |cats| && cats[j].confidence > 0.5 && cats[j].name == name && b == cats[j].confidence
    decreases |cats|
  {
    if |cats| == 0 then base
    else
      var c := cats[0];
      var rest := cats[1..];
      var next := if c.confidence > 0.5 && c.name == name then Max(base, c.confidence) else base;
      var b := Best(rest, name, next);
      assert forall j :: 1 <= j < |cats| ==> cats[j] == rest[j - 1];
      assert b != next ==> exists j :: 0 <= j < |cats| && cats[j].confidence > 0.5 && cats[j].name == name && b == cats[j].confidence by {
        if b != next {
          var j :| 0 <= j < |rest| && rest[j].confidence > 0.5 && rest[j].name == name && b == rest[j].confidence;
          assert cats[j + 1] == rest[j];
        }
      }
      b
  }

  /** The first tag of a category stays the first one when tags are extended. */
  lemma FindTagExtends(r: seq<Tag>, tags: seq<Tag>, category: string)
    requires Extends(r, tags) && FindTag(tags, category).Some?
    ensures FindTag(r, category) == FindTag(tags, category)
  {
    var i := FindTag(tags, category).value;
    var j := FindTag(r, category).value;
    assert r[i].category == category;
    if j < i {
      assert false;
    }
  }

  /** What one merge step does to each position. */
  lemma MergeOneAt(tags: seq<Tag>, c: MlCategory, k: nat)
    requires k < |MergeOne(tags, c)|
    ensures k < |tags| ==> (MergeOne(tags, c)[k] ==
      if c.confidence > 0.5 && FindTag(tags, c.name) == Some(k) then tags[k].(confidence := Max(tags[k].confidence, c.confidence))
      else tags[k])
    ensures k >= |tags| ==> (k == |tags| && c.confidence > 0.5 && FindTag(tags, c.name).None? &&
      MergeOne(tags, c)[k] == Tag(CategoryLabel(c.name), c.name, c.confidence))
  {
  }

  /** An original tag after the merge: the first tag of its category ends with
      the largest of its own confidence and the ML confidences above 0.5 for
      that category; any other tag is unchanged. */
  lemma {:induction false} MergeTagsOld(tags: seq<Tag>, cats: seq<MlCategory>, k: nat)
    requires k < |tags|
    ensures MergeTags(tags, cats)[k] ==
      if FindTag(tags, tags[k].category) == Some(k) then tags[k].(confidence := Best(cats, tags[k].category, tags[k].confidence))
      else tags[k]
    decreases |cats|
  {
    if |cats| > 0 {
      var c, rest := cats[0], cats[1..];
      var once := MergeOne(tags, c);
      var y := tags[k].category;
      MergeOneAt(tags, c, k);
      assert once[k].category == y;
      FindTagExtends(once, tags, y);
      MergeTagsOld(once, rest, k);
    }
  }

  /** A tag appended for a category no tag has is the first of its category. */
  lemma {:induction false} FindTagAppend(tags: seq<Tag>, t: Tag)
    requires FindTag(tags, t.category).None?
    ensures FindTag(tags + [t], t.category) == Some(|tags|)
    decreases |tags|
  {
    if |tags| == 0 {
      assert tags + [t] == [t];
    } else {
      assert (tags + [t])[1..] == tags[1..] + [t];
      assert forall k :: 0 <= k < |tags[1..]| ==> tags[1..][k] == tags[k + 1];
      FindTagAppend(tags[1..], t);
    }
  }

  /** The tag appended by the first merge step ends with the largest
      confidence proposed for its category. */
  lemma AppendedFirst(tags: seq<Tag>, cats: seq<MlCategory>)
    requires |cats| > 0 && |tags| < |MergeOne(tags, cats[0])|
    ensures
      var x := cats[0].name;
      MergeTags(tags, cats)[|tags|] == Tag(CategoryLabel(x), x, Best(cats, x, 0.0)) && !HasCategory(tags, x)
  {
    var c, rest := cats[0], cats[1..];
    var x := c.name;
    var t := Tag(CategoryLabel(x), x, c.confidence);
    var once := MergeOne(tags, c);
    assert c.confidence > 0.5 && FindTag(tags, x).None?;
    assert once == tags + [t];
    FindTagAppend(tags, t);
    assert MergeTags(tags, cats) == MergeTags(once, rest);
    MergeTagsOld(once, rest, |tags|);
    assert Best(cats, x, 0.0) == Best(rest, x, Max(0.0, c.confidence));
    assert Max(0.0, c.confidence) == c.confidence;
  }

  /** A category the first merge step leaves without a tag gains nothing from
      that step. */
  lemma UntouchedByFirst(tags: seq<Tag>, cats: seq<MlCategory>, x: string)
    requires |cats| > 0 && !HasCategory(MergeOne(tags, cats[0]), x)
    ensures !HasCategory(tags, x)
    ensures Best(cats, x, 0.0) == Best(cats[1..], x, 0.0)
  {
    var c := cats[0];
    assert c.confidence > 0.5 ==> c.name != x;
    if HasCategory(tags, x) {
      ExtendsHasCategory(MergeOne(tags, c), tags, x);
    }
  }

  /** An appended tag after the merge: labelled for a category no original tag
      has, with the largest confidence proposed for that category. */
  lemma {:induction false} MergeTagsNew(tags: seq<Tag>, cats: seq<MlCategory>, k: nat)
    requires |tags| <= k < |MergeTags(tags, cats)|
    ensures
      var x := MergeTags(tags, cats)[k].category;
      MergeTags(tags, cats)[k] == Tag(CategoryLabel(x), x, Best(cats, x, 0.0)) && !HasCategory(tags, x)
    decreases |cats|
  {
    var once := MergeOne(tags, cats[0]);
    assert MergeTags(tags, cats) == MergeTags(once, cats[1..]);
    if k < |once| {
      MergeOneAt(tags, cats[0], k);
      AppendedFirst(tags, cats);
    } else {
      MergeTagsNew(once, cats[1..], k);
      UntouchedByFirst(tags, cats, MergeTags(tags, cats)[k].category);
    }
  }

  /** After the merge every original tag that is the first of its category has
      the largest of its keyword confidence and the confidences of the ML
      categories above 0.5 with that name; other original tags are unchanged;
      each appended tag is labelled for a category no original tag has, with
      the largest confidence proposed for it. */
  lemma MergeTagsConfidence(tags: seq<Tag>, cats: seq<MlCategory>)
    ensures forall k :: 0 <= k < |tags| ==> (MergeTags(tags, cats)[k] ==
      if FindTag(tags, tags[k].category) == Some(k) then tags[k].(confidence := Best(cats, tags[k].category, tags[k].confidence))
      else tags[k])
    ensures forall k :: |tags| <= k < |MergeTags(tags, cats)| ==>
      var x := MergeTags(tags, cats)[k].category;
      MergeTags(tags, cats)[k] == Tag(CategoryLabel(x), x, Best(cats, x, 0.0)) && !HasCategory(tags, x)
  {
    forall k | 0 <= k < |tags| ensures (MergeTags(tags, cats)[k] ==
      if FindTag(tags, tags[k].category) == Some(k) then tags[k].(confidence := Best(cats, tags[k].category, tags[k].confidence))
      else tags[k])
    {
      MergeTagsOld(tags, cats, k);
    }
    forall k | |tags| <= k < |MergeTags(tags, cats)| ensures
      var x := MergeTags(tags, cats)[k].category;
      MergeTags(tags, cats)[k] == Tag(CategoryLabel(x), x, Best(cats, x, 0.0)) && !HasCategory(tags, x)
    {
      MergeTagsNew(tags, cats, k);
    }
  }

  /** `combineResults`: without an ML answer the keyword result stands. With one,
      importance follows the ML answer when its confidence exceeds 0.7, priority
      becomes high when the ML answer is important with confidence above 0.8, and
      its categories are merged into the tags. */
  function CombineResults(kr: Filtered, ml: Option<MlResult>): (r: Filtered)
    ensures ml.None? ==> r == kr
    ensures ml.Some? ==> r.isImportant == (if ml.value.confidence > 0.7 then ml.value.isImportant else kr.isImportant)
    ensures ml.Some? ==> r.priority == (if ml.value.isImportant && ml.value.confidence > 0.8 then High else kr.priority)
    ensures Extends(r.tags, kr.tags)
    ensures UniqueCategories(kr.tags) ==> UniqueCategories(r.tags)
    ensures ml.Some? ==> r.tags == MergeTags(kr.tags, ml.value.categories.GetOr([]))
    ensures ml.Some? && UniqueCategories(kr.tags) ==> forall k :: 0 <= k < |kr.tags| ==>
      r.tags[k] == kr.tags[k].(confidence := Best(ml.value.categories.GetOr([]), kr.tags[k].category, kr.tags[k].confidence))
  {
    match ml
    case None => kr
    case Some(m) =>
      var important := if m.confidence > 0.7 then m.isImportant else kr.isImportant;
      var tags := MergeTags(kr.tags, m.categories.GetOr([]));
      var priority := if m.isImportant && m.confidence > 0.8 then High else kr.priority;
      MergeTagsConfidence(kr.tags, m.categories.GetOr([]));
      assert UniqueCategories(kr.tags) ==> forall k :: 0 <= k < |kr.tags| ==> FindTag(kr.tags, kr.tags[k].category) == Some(k);
      Filtered(tags, priority, important)
  }

  // ---------------------------------------------------------------- keyword update

  /** The elements of `xs` not yet in `acc`, appended in order, each once. */
  function AppendNew(acc: seq<string>, xs: seq<string>): (r: seq<string>)
    ensures |r| >= |acc| && r[..|acc|] == acc
    ensures forall y :: y in r <==> y in acc || y in xs
    ensures Distinct(acc) ==> Distinct(r)
    decreases |xs|
  {
    if |xs| == 0 then acc
    else if xs[0] in acc then AppendNew(acc, xs[1..])
    else AppendNew(acc + [xs[0]], xs[1..])
  }

  predicate Distinct(xs: seq<string>) {
    forall a, b :: 0 <= a < b < |xs| ==> xs[a] != xs[b]
  }

  /** `[...new Set(xs)]`: the first occurrence of every element, in order. */
  function Dedupe(xs: seq<string>): (r: seq<string>)
    ensures Distinct(r)
    ensures forall y :: y in r <==> y in xs
  {
    AppendNew([], xs)
  }

  lemma {:induction false} AppendNewSplit(acc: seq<string>, a: seq<string>, b: seq<string>)
    ensures AppendNew(acc, a + b) == AppendNew(AppendNew(acc, a), b)
    decreases |a|
  {
    if |a| > 0 {
      assert (a + b)[0] == a[0] && (a + b)[1..] == a[1..] + b;
      if a[0] in acc {
        AppendNewSplit(acc, a[1..], b);
      } else {
        AppendNewSplit(acc + [a[0]], a[1..], b);
      }
    } else {
      assert a + b == b;
    }
  }

  lemma {:induction false} AppendNewDistinct(acc: seq<string>, xs: seq<string>)
    requires Distinct(acc + xs)
    ensures AppendNew(acc, xs) == acc + xs
    decreases |xs|
  {
    if |xs| > 0 {
      assert xs[0] == (acc + xs)[|acc|];
      assert xs[0] !in acc by {
        forall k | 0 <= k < |acc| ensures acc[k] != xs[0] {
          assert acc[k] == (acc + xs)[k];
        }
      }
      assert (acc + [xs[0]]) + xs[1..] == acc + xs;
      AppendNewDistinct(acc + [xs[0]], xs[1..]);
    }
  }

  /** `updateKeywords`: an unknown category leaves the table unchanged. For a
      known one, its list becomes the old list followed by the new keywords not
      already present, each once; every other entry keeps its list. */
  function UpdateKeywords(table: seq<KeywordList>, category: string, newKeywords: seq<string>): (r: seq<KeywordList>)
    ensures (forall i :: 0 <= i < |table| ==> table[i].category != category) ==> r == table
    ensures |r| == |table|
    ensures forall i :: 0 <= i < |table| ==> r[i].category == table[i].category
    ensures forall i :: 0 <= i < |table| && table[i].category != category ==> r[i] == table[i]
    ensures forall i :: 0 <= i < |table| && table[i].category == category ==>
      && r[i].keywords == Dedupe(table[i].keywords + newKeywords)
      && Distinct(r[i].keywords)
      && (forall y :: y in r[i].keywords <==> y in table[i].keywords || y in newKeywords)
  {
    seq(|table|, i requires 0 <= i < |table| =>
      if table[i].category == category then KeywordList(category, Dedupe(table[i].keywords + newKeywords)) else table[i])
  }

  /** For a duplicate-free list the update appends exactly the new keywords not
      already present: the old list stays a prefix. */
  lemma UpdateKeepsOldList(current: seq<string>, newKeywords: seq<string>)
    requires Distinct(current)
    ensures Dedupe(current + newKeywords) == AppendNew(current, newKeywords)
    ensures |Dedupe(current + newKeywords)| >= |current| && Dedupe(current + newKeywords)[..|current|] == current
  {
    AppendNewSplit([], current, newKeywords);
    assert [] + current == current;
    AppendNewDistinct([], current);
  }

  /** Updating keeps every list non-empty and every category in place, so the
      table stays usable by the keyword pass. */
  lemma UpdatePreservesWellFormed(table: seq<KeywordList>, category: string, newKeywords: seq<string>)
    requires WellFormedTable(table)
    ensures WellFormedTable(UpdateKeywords(table, category, newKeywords))
  {
    var r := UpdateKeywords(table, category, newKeywords);
    forall i | 0 <= i < |table| && table[i].category == category ensures |r[i].keywords| > 0 {
      assert table[i].keywords[0] in r[i].keywords;
    }
  }

  // ---------------------------------------------------------------- statistics

  /** The categories of all tags of all emails, email by email. */
  function AllTagCategories(emails: seq<Filtered>): (cs: seq<string>)
  {
    if |emails| == 0 then []
    else
      AllTagCategories(emails[..|emails| - 1]) +
      seq(|emails[|emails| - 1].tags|, k requires 0 <= k < |emails[|emails| - 1].tags| => emails[|emails| - 1].tags[k].category)
  }

  function TagTotal(emails: seq<Filtered>): nat {
    if |emails| == 0 then 0 else TagTotal(emails[..|emails| - 1]) + |emails[|emails| - 1].tags|
  }

  lemma {:induction false} AllTagCategoriesLength(emails: seq<Filtered>)
    ensures |AllTagCategories(emails)| == TagTotal(emails)
    decreases |emails|
  {
    if |emails| > 0 {
      AllTagCategoriesLength(emails[..|emails| - 1]);
    }
  }

  function ImportantCount(emails: seq<Filtered>): (n: nat)
    ensures n == |set i | 0 <= i < |emails| && emails[i].isImportant|
    ensures n <= |emails|
  {
    if |emails| == 0 then 0
    else
      var init := emails[..|emails| - 1];
      var last := |emails| - 1;
      assert (set i | 0 <= i < |emails| && emails[i].isImportant) ==
        (set i | 0 <= i < |init| && init[i].isImportant) + (if emails[last].isImportant then {last} else {});
      (if emails[last].isImportant then 1 else 0) + ImportantCount(init)
  }

  datatype FilterStats = FilterStats(total: nat, important: nat, categories: seq<KeyCount>)

  /** `getFilteringStats`: the number of emails, how many are important, and a
      count per tag category; the category counts add up to the number of tags. */
  function GetFilteringStats(emails: seq<Filtered>): (s: FilterStats)
    ensures s.total == |emails|
    ensures s.important <= s.total
    ensures s.important == |set i | 0 <= i < |emails| && emails[i].isImportant|
    ensures Total(s.categories) == TagTotal(emails)
    ensures DistinctKeys(s.categories)
    ensures forall c :: CountOf(s.categories, c) == Occurrences(AllTagCategories(emails), c)
  {
    AllTagCategoriesLength(emails);
    FilterStats(|emails|, ImportantCount(emails), TallyOf(AllTagCategories(emails)))
  }
}

=== FILE: gmail_service.dfy ===
/** The message parsing of the Gmail service: header lookup, the `Name <addr>`
    address rule for senders and recipients, the depth-first walk over MIME
    parts for the body and the attachments, and the avatar colour hash.
    Base64 decoding and URI encoding are parameters. */
module GmailService {
  import opened Wrappers
  import opened Text

  /** Base64-to-UTF-8 decoding and `encodeURIComponent`. */
  datatype Codecs = Codecs(decode: string -> string, encodeUri: string -> string)

  // ---------------------------------------------------------------- headers

  datatype Header = Header(name: string, value: string)

  /** Header names compare case-insensitively. */
  predicate NameIs(h: Header, name: string) {
    Lower(h.name) == Lower(name)
  }

  /** `getHeader`: the value of the first header with the name, `None` if none has it. */
  function GetHeader(headers: seq<Header>, name: string): (r: Option<string>)
    ensures r.None? <==> forall k :: 0 <= k < |headers| ==> !NameIs(headers[k], name)
    ensures r.Some? ==> exists k :: 0 <= k < |headers| && NameIs(headers[k], name) && headers[k].value == r.value &&
                                   (forall j :: 0 <= j < k ==> !NameIs(headers[j], name))
  {
    if |headers| == 0 then None
    else if NameIs(headers[0], name) then Some(headers[0].value)
    else
      var r := GetHeader(headers[1..], name);
      assert forall k :: 1 <= k < |headers| ==> headers[k] == headers[1..][k - 1];
      if r.Some? then
        var k :| 0 <= k < |headers[1..]| && NameIs(headers[1..][k], name) && headers[1..][k].value == r.value &&
          forall j :: 0 <= j < k ==> !NameIs(headers[1..][j], name);
        assert NameIs(headers[k + 1], name) && headers[k + 1].value == r.value;
        r
      else r
  }

  /** `getHeader(...) || fallback`: a missing or empty header gives the fallback. */
  function HeaderOr(headers: seq<Header>, name: string, fallback: string): (v: string)
    ensures GetHeader(headers, name).None? ==> v == fallback
    ensures GetHeader(headers, name).Some? && GetHeader(headers, name).value != "" ==> v == GetHeader(headers, name).value
    ensures GetHeader(headers, name) == Some("") ==> v == fallback
    ensures |v| > 0 || v == fallback
  {
    match GetHeader(headers, name)
    case Some(value) => if value == "" then fallback else value
    case None => fallback
  }

  // ---------------------------------------------------------------- addresses

  /** The characters `.` does not match in a JavaScript regular expression
      without the `s` flag: the line terminators. */
  predicate LineBreak(c: char) {
    c == '\n' || c == '\r' || c == '\U{2028}' || c == '\U{2029}'
  }

  /** The characters `\s` matches in a JavaScript regular expression: the ASCII
      whitespace, the Unicode space separators, the line terminators and the
      byte order mark. */
  predicate JsSpace(c: char) {
    || IsSpace(c)
    || c == '\U{00A0}' || c == '\U{1680}' || '\U{2000}' <= c <= '\U{200A}'
    || c == '\U{2028}' || c == '\U{2029}' || c == '\U{202F}' || c == '\U{205F}'
    || c == '\U{3000}' || c == '\U{FEFF}'
  }

  predicate NoBreaks(s: string) {
    forall k :: 0 <= k < |s| ==> !LineBreak(s[k])
  }

  /** The end of the whitespace run starting at `i`. */
  function SpaceEnd(s: string, i: nat): (j: nat)
    requires i <= |s|
    ensures i <= j <= |s|
    ensures forall k :: i <= k < j ==> JsSpace(s[k])
    ensures j == |s| || !JsSpace(s[j])
    decreases |s| - i
  {
    if i < |s| && JsSpace(s[i]) then SpaceEnd(s, i + 1) else i
  }

  /** `^(.+?)\s*<(.+?)>$` matches with its first group ending at `i`: the group
      is non-empty and single-line, the whitespace after it is followed by `<`,
      and from there to the final `>` is a non-empty single-line second group. */
  predicate AngleSplitAt(s: string, i: nat) {
    && 1 <= i <= |s|
    && NoBreaks(s[..i])
    && var j := SpaceEnd(s, i);
       j + 2 < |s| && s[j] == '<' && s[|s| - 1] == '>' && NoBreaks(s[j + 1..|s| - 1])
  }

  /** The lazy first group: the smallest split point from `i` on. */
  function FirstAngleSplit(s: string, i: nat): (r: Option<nat>)
    requires 1 <= i
    ensures r.Some? ==> i <= r.value && AngleSplitAt(s, r.value)
    ensures r.Some? ==> forall m :: i <= m < r.value ==> !AngleSplitAt(s, m)
    ensures r.None? ==> forall m :: i <= m ==> !AngleSplitAt(s, m)
    decreases |s| + 1 - i
  {
    if i > |s| then None
    else if AngleSplitAt(s, i) then Some(i)
    else FirstAngleSplit(s, i + 1)
  }

  datatype Address = Address(name: string, email: string)

  const Unknown: Address := Address("Unknown", "")

  /** The address rule shared by senders and recipients. For `Name <addr>` the
      name is the trimmed first group without double quotes and the email the
      trimmed second group; any other non-empty single-line string is both name
      and email, trimmed; anything else is unknown. */
  function ParseAddress(s: string): (a: Address)
    ensures FirstAngleSplit(s, 1).Some? ==> '"' !in a.name
    ensures FirstAngleSplit(s, 1).None? && |s| > 0 && NoBreaks(s) ==> a == Address(Trim(s), Trim(s))
    ensures FirstAngleSplit(s, 1).None? && (|s| == 0 || !NoBreaks(s)) ==> a == Unknown
  {
    match FirstAngleSplit(s, 1)
    case Some(i) => Address(RemoveChar(Trim(s[..i]), '"'), Trim(s[SpaceEnd(s, i) + 1..|s| - 1]))
    case None => if |s| > 0 && NoBreaks(s) then Address(Trim(s), Trim(s)) else Unknown
  }

  /** A header without a final `>` never takes the `Name <addr>` form. */
  lemma NoAngleWithoutClose(s: string)
    requires |s| == 0 || s[|s| - 1] != '>'
    ensures FirstAngleSplit(s, 1).None?
  {
  }

  /** Formatting a display name and an address as `Name <addr>` and parsing it
      back gives both: the name as written (the first group ends where the name
      does) and the address trimmed. */
  lemma ParseFormatted(name: string, addr: string)
    requires |name| > 0 && !JsSpace(name[|name| - 1]) && '<' !in name && NoBreaks(name)
    requires |addr| > 0 && NoBreaks(addr)
    ensures ParseAddress(name + " <" + addr + ">") == Address(RemoveChar(Trim(name), '"'), Trim(addr))
  {
    var s := name + " <" + addr + ">";
    var n := |name|;
    assert s[..n] == name;
    assert s[n] == ' ' && s[n + 1] == '<';
    forall m | 1 <= m < n ensures !AngleSplitAt(s, m) {
      var j := SpaceEnd(s, m);
      assert s[j] == name[j];
    }
    assert SpaceEnd(s, n + 1) == n + 1;
    assert SpaceEnd(s, n) == n + 1;
    assert s[n + 2..|s| - 1] == addr;
    assert AngleSplitAt(s, n);
    var r := FirstAngleSplit(s, 1);
    assert r == Some(n);
  }

  /** A single-line header without `<` is taken whole, trimmed, as name and email. */
  lemma PlainAddress(s: string)
    requires |s| > 0 && NoBreaks(s) && '<' !in s
    ensures ParseAddress(s) == Address(Trim(s), Trim(s))
  {
    forall m | 1 <= m ensures !AngleSplitAt(s, m) {
      if m <= |s| {
        var j := SpaceEnd(s, m);
        if j < |s| {
          assert s[j] in s;
        }
      }
    }
  }

  datatype Sender = Sender(name: string, email: string, avatar: string)

  /** `parseSender`: an empty header is the unknown sender without an avatar;
      otherwise the address rule, with the avatar generated from the email. */
  function ParseSender(codecs: Codecs, from: string): (r: Sender)
    ensures from == "" ==> r == Sender("Unknown", "", "")
    ensures from != "" ==>
      && Address(r.name, r.email) == ParseAddress(from)
      && r.avatar == GenerateAvatar(codecs, r.email)
  {
    if from == "" then Sender("Unknown", "", "")
    else
      var a := ParseAddress(from);
      Sender(a.name, a.email, GenerateAvatar(codecs, a.email))
  }

  /** `parseRecipients`: nothing for an empty header, otherwise one address per
      comma-separated piece, each piece trimmed before the address rule. */
  function ParseRecipients(to: string): (rs: seq<Address>)
    ensures to == "" ==> rs == []
    ensures to != "" ==> |rs| == |Split(to, ',')|
    ensures to != "" ==> forall k :: 0 <= k < |rs| ==> rs[k] == ParseAddress(Trim(Split(to, ',')[k]))
  {
    if to == "" then []
    else
      var pieces := Split(to, ',');
      seq(|pieces|, k requires 0 <= k < |pieces| => ParseAddress(Trim(pieces[k])))
  }

  /** A non-empty header has one recipient more than it has commas. */
  lemma {:induction false} RecipientCount(to: string)
    requires to != ""
    ensures |ParseRecipients(to)| == CountChar(to, ',') + 1
  {
    SplitCount(to, ',');
  }

  lemma {:induction false} SplitCount(s: string, sep: char)
    ensures |Split(s, sep)| == CountChar(s, sep) + 1
    decreases |s|
  {
    if sep !in s {
      assert CountIf(s, x => x == sep) == 0;
    } else {
      var i := IndexOf(s, sep);
      assert s == s[..i] + [sep] + s[i + 1..];
      CountIfAppend(s[..i] + [sep], s[i + 1..], x => x == sep);
      CountIfAppend(s[..i], [sep], x => x == sep);
      assert CountIf(s[..i], x => x == sep) == 0;
      SplitCount(s[i + 1..], sep);
    }
  }

  // ---------------------------------------------------------------- MIME parts

  /** A MIME part: its type, its body data (still encoded; empty when absent),
      file name and attachment id (empty when absent), size, and sub-parts. */
  datatype Part = Part(
    mimeType: string,
    data: string,
    filename: string,
    attachmentId: string,
    size: nat,
    parts: Subparts)

  /** The `parts` array of a part, which may be absent (an empty array is present). */
  datatype Subparts = NoParts | Parts(list: seq<Part>)

  predicate PlainLeaf(p: Part) {
    p.mimeType == "text/plain" && |p.data| > 0
  }

  predicate HtmlLeaf(p: Part) {
    p.mimeType == "text/html" && |p.data| > 0
  }

  /** A part whose data the body walk takes instead of descending. */
  predicate TextLeaf(p: Part) {
    PlainLeaf(p) || HtmlLeaf(p)
  }

  datatype BodyText = BodyText(text: string, html: string)

  /** The inner `extractFromParts` of `extractBody`, over a list of parts. */
  function WalkBody(codecs: Codecs, parts: seq<Part>): BodyText
    decreases parts
  {
    if |parts| == 0 then BodyText("", "")
    else
      var first := PartBody(codecs, parts[0]);
      var rest := WalkBody(codecs, parts[1..]);
      BodyText(first.text + rest.text, first.html + rest.html)
  }

  /** One part of the body walk: plain text first, then HTML, then its sub-parts. */
  function PartBody(codecs: Codecs, p: Part): BodyText
    decreases p
  {
    if PlainLeaf(p) then BodyText(codecs.decode(p.data), "")
    else if HtmlLeaf(p) then BodyText("", codecs.decode(p.data))
    else if p.parts.Parts? then WalkBody(codecs, p.parts.list)
    else BodyText("", "")
  }

  /** The parts a depth-first walk visits, in order, descending into a part's
      sub-parts only when `stop` does not hold for it. */
  function Visit(parts: seq<Part>, stop: Part -> bool): seq<Part>
    decreases parts
  {
    if |parts| == 0 then []
    else VisitPart(parts[0], stop) + Visit(parts[1..], stop)
  }

  function VisitPart(p: Part, stop: Part -> bool): seq<Part>
    decreases p
  {
    [p] + (if !stop(p) && p.parts.Parts? then Visit(p.parts.list, stop) else [])
  }

  /** The decoded data of the parts of one MIME type with data, concatenated. */
  function DecodedOf(codecs: Codecs, ps: seq<Part>, mimeType: string): string {
    if |ps| == 0 then ""
    else (if ps[0].mimeType == mimeType && |ps[0].data| > 0 then codecs.decode(ps[0].data) else "") + DecodedOf(codecs, ps[1..], mimeType)
  }

  lemma {:induction false} DecodedOfAppend(codecs: Codecs, a: seq<Part>, b: seq<Part>, mimeType: string)
    ensures DecodedOf(codecs, a + b, mimeType) == DecodedOf(codecs, a, mimeType) + DecodedOf(codecs, b, mimeType)
    decreases |a|
  {
    if |a| == 0 {
      assert a + b == b;
    } else {
      assert (a + b)[1..] == a[1..] + b;
      DecodedOfAppend(codecs, a[1..], b, mimeType);
    }
  }

  /** The body walk reads exactly the text parts its traversal visits: `text` is
      the decoded text/plain data and `html` the decoded text/html data of the
      visited parts, in depth-first order. */
  lemma {:induction false} WalkBodyVisits(codecs: Codecs, parts: seq<Part>)
    ensures WalkBody(codecs, parts).text == DecodedOf(codecs, Visit(parts, TextLeaf), "text/plain")
    ensures WalkBody(codecs, parts).html == DecodedOf(codecs, Visit(parts, TextLeaf), "text/html")
    decreases parts
  {
    if |parts| > 0 {
      PartBodyVisits(codecs, parts[0]);
      WalkBodyVisits(codecs, parts[1..]);
      DecodedOfAppend(codecs, VisitPart(parts[0], TextLeaf), Visit(parts[1..], TextLeaf), "text/plain");
      DecodedOfAppend(codecs, VisitPart(parts[0], TextLeaf), Visit(parts[1..], TextLeaf), "text/html");
    }
  }

  lemma {:induction false} PartBodyVisits(codecs: Codecs, p: Part)
    ensures PartBody(codecs, p).text == DecodedOf(codecs, VisitPart(p, TextLeaf), "text/plain")
    ensures PartBody(codecs, p).html == DecodedOf(codecs, VisitPart(p, TextLeaf), "text/html")
    decreases p
  {
    var below := if !TextLeaf(p) && p.parts.Parts? then Visit(p.parts.list, TextLeaf) else [];
    assert VisitPart(p, TextLeaf) == [p] + below;
    DecodedOfAppend(codecs, [p], below, "text/plain");
    DecodedOfAppend(codecs, [p], below, "text/html");
    if !TextLeaf(p) && p.parts.Parts? {
      WalkBodyVisits(codecs, p.parts.list);
    }
  }

  /** `extractBody`: a payload with parts is walked; otherwise its own data is
      taken by its MIME type. */
  function ExtractBody(codecs: Codecs, payload: Part): (b: BodyText)
    ensures payload.parts.Parts? ==> b == WalkBody(codecs, payload.parts.list)
    ensures payload.parts.NoParts? ==> b == PartBody(codecs, payload)
    ensures payload.parts.NoParts? && !TextLeaf(payload) ==> b == BodyText("", "")
  {
    if payload.parts.Parts? then WalkBody(codecs, payload.parts.list)
    else if |payload.data| > 0 then
      if payload.mimeType == "text/plain" then BodyText(codecs.decode(payload.data), "")
      else if payload.mimeType == "text/html" then BodyText("", codecs.decode(payload.data))
      else BodyText("", "")
    else BodyText("", "")
  }

  // ---------------------------------------------------------------- attachments

  datatype Attachment = Attachment(filename: string, mimeType: string, size: nat, attachmentId: string)

  /** A part with both a file name and an attachment id. */
  predicate IsAttachment(p: Part) {
    |p.filename| > 0 && |p.attachmentId| > 0
  }

  function AttachmentOf(p: Part): Attachment {
    Attachment(p.filename, p.mimeType, p.size, p.attachmentId)
  }

  /** The inner `extractFromParts` of `extractAttachments`. */
  function WalkAttachments(parts: seq<Part>): (r: seq<Attachment>)
    ensures forall k :: 0 <= k < |r| ==> |r[k].filename| > 0 && |r[k].attachmentId| > 0
    decreases parts
  {
    if |parts| == 0 then []
    else PartAttachments(parts[0]) + WalkAttachments(parts[1..])
  }

  function PartAttachments(p: Part): (r: seq<Attachment>)
    ensures forall k :: 0 <= k < |r| ==> |r[k].filename| > 0 && |r[k].attachmentId| > 0
    decreases p
  {
    if IsAttachment(p) then [AttachmentOf(p)]
    else if p.parts.Parts? then WalkAttachments(p.parts.list)
    else []
  }

  /** The attachments of the visited parts, in order. */
  function AttachmentsOf(ps: seq<Part>): (r: seq<Attachment>)
    ensures |r| <= |ps|
  {
    if |ps| == 0 then []
    else (if IsAttachment(ps[0]) then [AttachmentOf(ps[0])] else []) + AttachmentsOf(ps[1..])
  }

  lemma {:induction false} AttachmentsOfAppend(a: seq<Part>, b: seq<Part>)
    ensures AttachmentsOf(a + b) == AttachmentsOf(a) + AttachmentsOf(b)
    decreases |a|
  {
    if |a| == 0 {
      assert a + b == b;
    } else {
      var head := if IsAttachment(a[0]) then [AttachmentOf(a[0])] else [];
      assert (a + b)[0] == a[0];
      assert (a + b)[1..] == a[1..] + b;
      assert AttachmentsOf(a + b) == head + AttachmentsOf(a[1..] + b);
      AttachmentsOfAppend(a[1..], b);
      assert AttachmentsOf(a) == head + AttachmentsOf(a[1..]);
      assert head + (AttachmentsOf(a[1..]) + AttachmentsOf(b)) == (head + AttachmentsOf(a[1..])) + AttachmentsOf(b);
    }
  }

  /** The attachment walk lists exactly the attachment parts its traversal
      visits, in depth-first order, never looking inside an attachment. */
  lemma {:induction false} WalkAttachmentsVisits(parts: seq<Part>)
    ensures WalkAttachments(parts) == AttachmentsOf(Visit(parts, IsAttachment))
    decreases parts
  {
    if |parts| > 0 {
      PartAttachmentsVisits(parts[0]);
      WalkAttachmentsVisits(parts[1..]);
      AttachmentsOfAppend(VisitPart(parts[0], IsAttachment), Visit(parts[1..], IsAttachment));
    }
  }

  lemma {:induction false} PartAttachmentsVisits(p: Part)
    ensures PartAttachments(p) == AttachmentsOf(VisitPart(p, IsAttachment))
    decreases p
  {
    var below := if !IsAttachment(p) && p.parts.Parts? then Visit(p.parts.list, IsAttachment) else [];
    assert VisitPart(p, IsAttachment) == [p] + below;
    AttachmentsOfAppend([p], below);
    if !IsAttachment(p) && p.parts.Parts? {
      WalkAttachmentsVisits(p.parts.list);
    }
  }

  /** `extractAttachments`: the walk over the payload's parts; a payload without
      parts has none, even if it carries a file itself. */
  function ExtractAttachments(payload: Part): (r: seq<Attachment>)
    ensures payload.parts.NoParts? ==> r == []
    ensures payload.parts.Parts? ==> r == AttachmentsOf(Visit(payload.parts.list, IsAttachment))
  {
    if payload.parts.Parts? then
      WalkAttachmentsVisits(payload.parts.list);
      WalkAttachments(payload.parts.list)
    else []
  }

  // ---------------------------------------------------------------- avatar

  const TwoTo32: int := 0x1_0000_0000
  const TwoTo31: int := 0x8000_0000

  /** JavaScript's ToInt32: the value modulo 2^32, read as a signed 32-bit integer. */
  function ToInt32(x: int): (r: int)
    ensures -TwoTo31 <= r < TwoTo31
  {
    var m := x % TwoTo32;
    if m >= TwoTo31 then m - TwoTo32 else m
  }

  lemma ToInt32Congruent(x: int, y: int, q: int)
    requires x - y == TwoTo32 * q
    ensures ToInt32(x) == ToInt32(y)
  {
    assert x % TwoTo32 == y % TwoTo32;
  }

  lemma ToInt32Residue(x: int)
    ensures exists q :: x - ToInt32(x) == TwoTo32 * q
  {
    var m := x % TwoTo32;
    var d := x / TwoTo32;
    assert x == TwoTo32 * d + m;
    if m >= TwoTo31 {
      assert x - ToInt32(x) == TwoTo32 * (d + 1);
    } else {
      assert x - ToInt32(x) == TwoTo32 * d;
    }
  }

  /** The UTF-16 code units of a character, as `split('')` and `charCodeAt` see them. */
  function CodeUnits(c: char): (units: seq<int>)
    ensures 1 <= |units| <= 2
    ensures forall k :: 0 <= k < |units| ==> 0 <= units[k] < 0x10000
  {
    var v := c as int;
    if v < 0x10000 then [v]
    else [0xD800 + (v - 0x10000) / 0x400, 0xDC00 + (v - 0x10000) % 0x400]
  }

  /** The UTF-16 code units of a string: one per character of the Basic
      Multilingual Plane, two (a surrogate pair) per other character. */
  function Utf16(s: string): (units: seq<int>)
    ensures |s| <= |units| <= 2 * |s|
  {
    if |s| == 0 then [] else Utf16(s[..|s| - 1]) + CodeUnits(s[|s| - 1])
  }

  /** In the Basic Multilingual Plane there is one code unit per character. */
  lemma {:induction false} Utf16OfBmp(s: string)
    requires forall k :: 0 <= k < |s| ==> (s[k] as int) < 0x10000
    ensures |Utf16(s)| == |s|
    decreases |s|
  {
    if |s| > 0 {
      var init := s[..|s| - 1];
      assert forall k :: 0 <= k < |init| ==> init[k] == s[k];
      Utf16OfBmp(init);
    }
  }

  /** Outside it there are two. */
  lemma {:induction false} Utf16OfAstral(s: string)
    requires forall k :: 0 <= k < |s| ==> (s[k] as int) >= 0x10000
    ensures |Utf16(s)| == 2 * |s|
    decreases |s|
  {
    if |s| > 0 {
      var init := s[..|s| - 1];
      assert forall k :: 0 <= k < |init| ==> init[k] == s[k];
      Utf16OfAstral(init);
    }
  }

  /** Encoding is per character, so the code units of a concatenation are the
      concatenated code units. */
  lemma {:induction false} Utf16Append(a: string, b: string)
    ensures Utf16(a + b) == Utf16(a) + Utf16(b)
    decreases |b|
  {
    if |b| > 0 {
      var init := b[..|b| - 1];
      assert (a + b)[..|a + b| - 1] == a + init;
      assert (a + b)[|a + b| - 1] == b[|b| - 1];
      Utf16Append(a, init);
    } else {
      assert a + b == a;
    }
  }

  /** One step of the hash: `((a << 5) - a) + code`, then `a & a`. */
  function HashStep(h: int, unit: int): int {
    ToInt32(ToInt32(h * 32) - h + unit)
  }

  function HashUnits(units: seq<int>): (h: int)
    ensures -TwoTo31 <= h < TwoTo31
  {
    if |units| == 0 then 0 else HashStep(HashUnits(units[..|units| - 1]), units[|units| - 1])
  }

  /** The polynomial the hash approximates: `h * 31 + code` over unbounded integers. */
  function Poly(units: seq<int>): int {
    if |units| == 0 then 0 else 31 * Poly(units[..|units| - 1]) + units[|units| - 1]
  }

  /** The 32-bit fold is exactly the unbounded polynomial wrapped once to a
      signed 32-bit integer: the intermediate wrap-arounds lose nothing. */
  lemma {:induction false} HashIsWrappedPoly(units: seq<int>)
    ensures HashUnits(units) == ToInt32(Poly(units))
    decreases |units|
  {
    if |units| == 0 {
    } else {
      var init := units[..|units| - 1];
      var u := units[|units| - 1];
      HashIsWrappedPoly(init);
      var t := HashUnits(init);
      var p := Poly(init);
      ToInt32Residue(p);
      var q :| p - ToInt32(p) == TwoTo32 * q;
      ToInt32Residue(t * 32);
      var q2 :| t * 32 - ToInt32(t * 32) == TwoTo32 * q2;
      var x := ToInt32(t * 32) - t + u;
      var y := 31 * p + u;
      assert x - y == 31 * (t - p) - TwoTo32 * q2;
      assert t - p == -(TwoTo32 * q);
      assert x - y == TwoTo32 * (-31 * q - q2);
      ToInt32Congruent(x, y, -31 * q - q2);
    }
  }

  const Colors: seq<string> := ["4285f4", "34a853", "fbbc05", "ea4335", "9c27b0", "00bcd4"]

  function Abs(x: int): nat {
    if x < 0 then -x else x
  }

  function AvatarHash(email: string): (h: int)
    ensures -TwoTo31 <= h < TwoTo31
  {
    HashUnits(Utf16(email))
  }

  /** `Math.abs(hash) % 6`: always a position in the palette. */
  function ColorIndex(email: string): (i: nat)
    ensures i < |Colors|
    ensures i == Abs(ToInt32(Poly(Utf16(email)))) % 6
  {
    HashIsWrappedPoly(Utf16(email));
    Abs(AvatarHash(email)) % 6
  }

  /** `generateAvatar`: the avatar service URL with the encoded email and the
      palette colour the hash picks. */
  function GenerateAvatar(codecs: Codecs, email: string): (url: string)
    ensures url == "https://ui-avatars.com/api/?name=" + codecs.encodeUri(email) + "&background=" + Colors[ColorIndex(email)] + "&color=fff&size=150"
    ensures Colors[ColorIndex(email)] in Colors
  {
    "https://ui-avatars.com/api/?name=" + codecs.encodeUri(email) + "&background=" + Colors[ColorIndex(email)] + "&color=fff&size=150"
  }

  // ---------------------------------------------------------------- message detail

  /** A message as the Gmail API returns it in full format. */
  datatype Message = Message(
    id: string,
    threadId: string,
    labelIds: Option<seq<string>>,
    snippet: string,
    headers: seq<Header>,
    payload: Part)

  datatype EmailDetail = EmailDetail(
    gmailId: string,
    threadId: string,
    subject: string,
    sender: Sender,
    recipients: seq<Address>,
    body: BodyText,
    snippet: string,
    date: string,
    isRead: bool,
    labels: seq<string>,
    attachments: seq<Attachment>)

  /** `getEmailDetail` after the fetch: an absent or empty Subject becomes
      "No Subject", a message is read unless it is labelled UNREAD, and missing
      labels become none. The date header is kept as text. */
  function GetEmailDetail(codecs: Codecs, m: Message): (d: EmailDetail)
    ensures |d.subject| > 0
    ensures d.subject == "No Subject" <==> GetHeader(m.headers, "Subject") in {None, Some(""), Some("No Subject")}
    ensures d.isRead <==> "UNREAD" !in d.labels
    ensures d.labels == m.labelIds.GetOr([])
    ensures d.sender == ParseSender(codecs, HeaderOr(m.headers, "From", ""))
    ensures d.recipients == ParseRecipients(HeaderOr(m.headers, "To", ""))
    ensures d.body == ExtractBody(codecs, m.payload) && d.attachments == ExtractAttachments(m.payload)
    ensures d.gmailId == m.id && d.threadId == m.threadId && d.snippet == m.snippet
    ensures d.date == (if GetHeader(m.headers, "Date").Some? then GetHeader(m.headers, "Date").value else "")
  {
    EmailDetail(
      gmailId := m.id,
      threadId := m.threadId,
      subject := HeaderOr(m.headers, "Subject", "No Subject"),
      sender := ParseSender(codecs, HeaderOr(m.headers, "From", "")),
      recipients := ParseRecipients(HeaderOr(m.headers, "To", "")),
      body := ExtractBody(codecs, m.payload),
      snippet := m.snippet,
      date := HeaderOr(m.headers, "Date", ""),
      isRead := m.labelIds.None? || "UNREAD" !in m.labelIds.value,
      labels := m.labelIds.GetOr([]),
      attachments := ExtractAttachments(m.payload))
  }
}

=== FILE: js_numbers.dfy ===
/** JavaScript's global `parseInt` called without a radix, on strings. */
module JsNumbers {
  import opened Wrappers
  import opened Text

  /** The value of a character read as a digit: '0'..'9' and the letters
      'a'..'f' in either case; 16 for any other character. */
  function DigitOf(c: char): (d: nat)
    ensures d <= 16
    ensures '0' <= c <= '9' ==> d == c as int - '0' as int
  {
    if '0' <= c <= '9' then c as int - '0' as int
    else if 'a' <= c <= 'f' then c as int - 'a' as int + 10
    else if 'A' <= c <= 'F' then c as int - 'A' as int + 10
    else 16
  }

  predicate IsDigitIn(c: char, radix: nat) {
    DigitOf(c) < radix
  }

  /** The length of the leading run of digits of the radix. */
  function DigitRun(s: string, radix: nat): (n: nat)
    ensures n <= |s|
    ensures forall i :: 0 <= i < n ==> IsDigitIn(s[i], radix)
    ensures n < |s| ==> !IsDigitIn(s[n], radix)
  {
    if |s| == 0 || !IsDigitIn(s[0], radix) then 0 else 1 + DigitRun(s[1..], radix)
  }

  /** The number a string of digits denotes in the radix. */
  function ValueIn(r: string, radix: nat): nat
    decreases |r|
  {
    if |r| == 0 then 0 else ValueIn(r[..|r| - 1], radix) * radix + DigitOf(r[|r| - 1])
  }

  /** A sign and a radix prefix removed: the sign, the radix and the rest. */
  datatype Prefix = Prefix(negative: bool, radix: nat, digits: string)

  function SplitPrefix(s: string): (p: Prefix)
    ensures p.radix == 10 || p.radix == 16
  {
    var t := TrimStart(s);
    var negative := |t| > 0 && t[0] == '-';
    var u := if |t| > 0 && (t[0] == '-' || t[0] == '+') then t[1..] else t;
    if |u| >= 2 && u[0] == '0' && (u[1] == 'x' || u[1] == 'X') then Prefix(negative, 16, u[2..])
    else Prefix(negative, 10, u)
  }

  /** JavaScript `parseInt` without a radix: leading whitespace and a sign are
      skipped, "0x" selects base 16, and the longest run of digits is read;
      no digit at all is `NaN`, here `None`. */
  function ParseInt(s: string): (r: Option<int>)
    ensures r.None? <==> DigitRun(SplitPrefix(s).digits, SplitPrefix(s).radix) == 0
  {
    var p := SplitPrefix(s);
    var n := DigitRun(p.digits, p.radix);
    if n == 0 then None
    else
      var v: int := ValueIn(p.digits[..n], p.radix);
      Some(if p.negative then -v else v)
  }

  lemma {:induction false} DecimalValue(r: string)
    requires forall i :: 0 <= i < |r| ==> '0' <= r[i] <= '9'
    ensures ValueIn(r, 10) == DigitsValue(r)
    decreases |r|
  {
    if |r| > 0 {
      DecimalValue(r[..|r| - 1]);
    }
  }

  lemma {:induction false} DigitRunAll(r: string, radix: nat)
    requires forall i :: 0 <= i < |r| ==> IsDigitIn(r[i], radix)
    ensures DigitRun(r, radix) == |r|
    decreases |r|
  {
    if |r| > 0 {
      DigitRunAll(r[1..], radix);
    }
  }

  /** A sign followed by a decimal digit that does not open "0x": no
      whitespace is skipped and the radix is 10. */
  lemma SignedDecimalPrefix(t: string, negative: bool)
    requires |t| > 0 && '0' <= t[0] <= '9'
    requires |t| >= 2 ==> t[1] != 'x' && t[1] != 'X'
    ensures SplitPrefix((if negative then "-" else "") + t) == Prefix(negative, 10, t)
  {
    if negative {
      var s := "-" + t;
      assert s[0] == '-' && !IsSpace(s[0]);
      assert TrimStart(s) == s;
      assert s[1..] == t;
    } else {
      assert "" + t == t;
      assert !IsSpace(t[0]) && t[0] != '-' && t[0] != '+';
      assert TrimStart(t) == t;
      assert SplitPrefix(t) == Prefix(false, 10, t);
    }
  }

  function SignText(negative: bool): string {
    if negative then "-" else ""
  }

  /** `ParseInt` read off the prefix split and the digit run. */
  lemma ParseIntOf(s: string, negative: bool, t: string, k: nat)
    requires SplitPrefix(s) == Prefix(negative, 10, t)
    requires 0 < k <= |t| && DigitRun(t, 10) == k
    ensures ParseInt(s) == Some(if negative then -(ValueIn(t[..k], 10) as int) else ValueIn(t[..k], 10) as int)
  {
  }

  /** A decimal number, optionally negated, reads back as itself; what follows
      the digits is ignored when it starts with neither a digit nor an 'x'. */
  lemma ParseIntDecimal(n: nat, negative: bool, rest: string)
    requires |rest| > 0 ==> !IsDigitIn(rest[0], 10) && rest[0] != 'x' && rest[0] != 'X'
    ensures ParseInt(SignText(negative) + NatToString(n) + rest) == Some(if negative then -(n as int) else n as int)
  {
    var s := SignText(negative) + NatToString(n) + rest;
    ParseIntDecimalAt(n, negative, rest, s);
  }

  lemma ParseIntDecimalAt(n: nat, negative: bool, rest: string, s: string)
    requires |rest| > 0 ==> !IsDigitIn(rest[0], 10) && rest[0] != 'x' && rest[0] != 'X'
    requires s == SignText(negative) + NatToString(n) + rest
    ensures ParseInt(s) == Some(if negative then -(n as int) else n as int)
  {
    var digits := NatToString(n);
    NumberDigits(n);
    var t := digits + rest;
    assert s == (if negative then "-" else "") + t;
    assert t[0] == digits[0];
    if |t| >= 2 {
      assert t[1] == if |digits| >= 2 then digits[1] else rest[0];
    }
    SignedDecimalPrefix(t, negative);
    DigitRunPrefix(digits, rest, 10);
    assert t[..|digits|] == digits;
    ParseIntOf(s, negative, t, |digits|);
  }

  /** The decimal rendering of a number is a run of digits worth the number. */
  lemma NumberDigits(n: nat)
    ensures |NatToString(n)| > 0 && '0' <= NatToString(n)[0] <= '9'
    ensures forall i :: 0 <= i < |NatToString(n)| ==> IsDigitIn(NatToString(n)[i], 10)
    ensures ValueIn(NatToString(n), 10) == n
  {
    DecimalValue(NatToString(n));
    NatToStringValue(n);
  }

  lemma {:induction false} DigitRunPrefix(r: string, rest: string, radix: nat)
    requires forall i :: 0 <= i < |r| ==> IsDigitIn(r[i], radix)
    requires |rest| > 0 ==> !IsDigitIn(rest[0], radix)
    ensures DigitRun(r + rest, radix) == |r|
    decreases |r|
  {
    if |r| > 0 {
      assert (r + rest)[1..] == r[1..] + rest;
      DigitRunPrefix(r[1..], rest, radix);
    }
  }
}

=== FILE: keys.dfy ===
/** Document ids: the smallest id of a set, a fresh id, and a map's entries
    listed in ascending id order. */
module Keys {

  /** `x` is the smallest element of `s`. */
  predicate IsMin(s: set<nat>, x: nat) {
    x in s && forall y :: y in s ==> x <= y
  }

  lemma MinExists(s: set<nat>)
    requires s != {}
    ensures exists x :: IsMin(s, x)
    decreases |s|
  {
    var x :| x in s;
    if s == {x} {
      assert IsMin(s, x);
    } else {
      var rest := s - {x};
      MinExists(rest);
      var m :| IsMin(rest, m);
      var least := if x < m then x else m;
      forall y | y in s ensures least <= y {
        if y != x {
          assert y in rest;
        }
      }
      assert IsMin(s, least);
    }
  }

  /** The smallest element of a non-empty set. */
  function MinKey(s: set<nat>): (x: nat)
    requires s != {}
    ensures IsMin(s, x)
  {
    MinExists(s);
    var x :| IsMin(s, x);
    x
  }

  /** An id above every id in use. */
  function FreshKey(s: set<nat>): (id: nat)
    ensures forall y :: y in s ==> y < id
    decreases |s|
  {
    if s == {} then 0
    else
      var x := MinKey(s);
      var rest := FreshKey(s - {x});
      var id := if rest > x then rest else x + 1;
      forall y | y in s ensures y < id {
        if y != x {
          assert y in s - {x};
        }
      }
      id
  }

  datatype Entry<T> = Entry(id: nat, doc: T)

  /** Every entry of `es` is the document `m` stores under its id. */
  predicate Stored<T(==)>(es: seq<Entry<T>>, m: map<nat, T>) {
    forall k :: 0 <= k < |es| ==> es[k].id in m && m[es[k].id] == es[k].doc
  }

  /** Some entry of `es` has the id. */
  predicate Listed<T>(es: seq<Entry<T>>, id: nat) {
    exists k :: 0 <= k < |es| && es[k].id == id
  }

  /** The entries of `m` in ascending id order. */
  function Entries<T(==)>(m: map<nat, T>): (es: seq<Entry<T>>)
    ensures |es| == |m.Keys|
    ensures Stored(es, m)
    ensures forall a, b :: 0 <= a < b < |es| ==> es[a].id < es[b].id
    ensures forall id :: id in m ==> Listed(es, id)
  {
    EntriesOf(m, m.Keys)
  }

  /** The entries of `m` whose ids are in `ids`, in ascending id order. */
  function EntriesOf<T(==)>(m: map<nat, T>, ids: set<nat>): (es: seq<Entry<T>>)
    requires ids <= m.Keys
    ensures |es| == |ids|
    ensures Stored(es, m)
    ensures forall k :: 0 <= k < |es| ==> es[k].id in ids
    ensures forall a, b :: 0 <= a < b < |es| ==> es[a].id < es[b].id
    ensures forall id :: id in ids ==> Listed(es, id)
    decreases |ids|
  {
    if ids == {} then []
    else
      var k := MinKey(ids);
      var rest := ids - {k};
      var es := EntriesOf(m, rest);
      EntriesCons(m, ids, k, es);
      [Entry(k, m[k])] + es
  }

  lemma EntriesCons<T>(m: map<nat, T>, ids: set<nat>, k: nat, es: seq<Entry<T>>)
    requires ids <= m.Keys && IsMin(ids, k)
    requires Stored(es, m)
    requires forall j :: 0 <= j < |es| ==> es[j].id in ids - {k}
    requires forall a, b :: 0 <= a < b < |es| ==> es[a].id < es[b].id
    requires forall id :: id in ids - {k} ==> Listed(es, id)
    ensures Stored([Entry(k, m[k])] + es, m)
    ensures forall a, b :: 0 <= a < b < |es| + 1 ==> ([Entry(k, m[k])] + es)[a].id < ([Entry(k, m[k])] + es)[b].id
    ensures forall id :: id in ids ==> Listed([Entry(k, m[k])] + es, id)
  {
    var r := [Entry(k, m[k])] + es;
    forall a, b | 0 <= a < b < |r| ensures r[a].id < r[b].id {
      if a == 0 {
        assert r[b] == es[b - 1];
        assert es[b - 1].id in ids - {k};
      }
    }
    forall id | id in ids ensures Listed(r, id) {
      if id == k {
        assert r[0].id == id;
      } else {
        assert id in ids - {k};
        var j :| 0 <= j < |es| && es[j].id == id;
        assert r[j + 1].id == id;
      }
    }
    forall j | 0 <= j < |r| ensures r[j].id in m && m[r[j].id] == r[j].doc {
      if j > 0 {
        assert r[j] == es[j - 1];
      }
    }
  }

  /** A rearrangement of stored entries is stored and lists the same ids. */
  lemma Rearranged<T>(es: seq<Entry<T>>, rs: seq<Entry<T>>, m: map<nat, T>)
    requires Stored(es, m)
    requires forall i :: 0 <= i < |rs| ==> rs[i] in es
    requires forall k :: 0 <= k < |es| ==> es[k] in rs
    ensures Stored(rs, m)
    ensures forall id :: Listed(es, id) ==> Listed(rs, id)
  {
    forall i | 0 <= i < |rs| ensures rs[i].id in m && m[rs[i].id] == rs[i].doc {
      assert rs[i] in es;
      var k :| 0 <= k < |es| && es[k] == rs[i];
    }
    forall id | Listed(es, id) ensures Listed(rs, id) {
      var k :| 0 <= k < |es| && es[k].id == id;
      assert es[k] in rs;
      var i :| 0 <= i < |rs| && rs[i] == es[k];
    }
  }
}

=== FILE: label_encoding.dfy ===
/** scikit-learn's `LabelEncoder` as the trainer and predictor use it: the
    classes are the distinct labels in ascending string order, a label encodes
    to its position among them and a position decodes back to the label. */
module LabelEncoding {

  /** Lexicographic order on strings by code point, as Python compares `str`. */
  predicate StrLt(a: string, b: string)
    decreases |a|
  {
    |b| > 0 && (|a| == 0 || a[0] < b[0] || (a[0] == b[0] && StrLt(a[1..], b[1..])))
  }

  lemma {:induction false} StrLtIrreflexive(a: string)
    ensures !StrLt(a, a)
    decreases |a|
  {
    if |a| > 0 {
      StrLtIrreflexive(a[1..]);
    }
  }

  lemma {:induction false} StrLtTransitive(a: string, b: string, c: string)
    requires StrLt(a, b) && StrLt(b, c)
    ensures StrLt(a, c)
    decreases |a|
  {
    if |a| > 0 && a[0] == b[0] && b[0] == c[0] {
      StrLtTransitive(a[1..], b[1..], c[1..]);
    }
  }

  lemma {:induction false} StrLtTotal(a: string, b: string)
    requires a != b
    ensures StrLt(a, b) || StrLt(b, a)
    decreases |a|
  {
    if |a| > 0 && |b| > 0 && a[0] == b[0] {
      assert a == [a[0]] + a[1..] && b == [b[0]] + b[1..];
      StrLtTotal(a[1..], b[1..]);
    }
  }

  /** Strictly ascending, hence duplicate-free. */
  predicate StrictlySorted(xs: seq<string>) {
    forall i, j :: 0 <= i < j < |xs| ==> StrLt(xs[i], xs[j])
  }

  lemma SortedDistinct(xs: seq<string>)
    requires StrictlySorted(xs)
    ensures forall i, j :: 0 <= i < j < |xs| ==> xs[i] != xs[j]
  {
    forall i, j | 0 <= i < j < |xs| ensures xs[i] != xs[j] {
      StrLtIrreflexive(xs[i]);
    }
  }

  /** Places `x` into a strictly ascending list, unless it is already there. */
  function InsertClass(xs: seq<string>, x: string): (r: seq<string>)
    requires StrictlySorted(xs)
    ensures StrictlySorted(r)
    ensures forall y :: y in r <==> y == x || y in xs
    ensures |r| <= |xs| + 1
  {
    if |xs| == 0 then [x]
    else if x == xs[0] then xs
    else if StrLt(x, xs[0]) then
      forall j | 0 < j < |xs| ensures StrLt(x, xs[j]) {
        StrLtTransitive(x, xs[0], xs[j]);
      }
      [x] + xs
    else
      StrLtTotal(x, xs[0]);
      var rest := InsertClass(xs[1..], x);
      assert forall y :: y in rest ==> StrLt(xs[0], y) by {
        forall y | y in rest ensures StrLt(xs[0], y) {
          if y != x {
            var j :| 0 <= j < |xs[1..]| && xs[1..][j] == y;
            assert xs[j + 1] == y;
          }
        }
      }
      assert xs == [xs[0]] + xs[1..];
      [xs[0]] + rest
  }

  /** `LabelEncoder.fit`: the distinct labels in ascending order. */
  function FitClasses(labels: seq<string>): (classes: seq<string>)
    ensures StrictlySorted(classes)
    ensures forall y :: y in classes <==> y in labels
    ensures |classes| <= |labels|
  {
    if |labels| == 0 then []
    else
      var init := FitClasses(labels[..|labels| - 1]);
      assert labels == labels[..|labels| - 1] + [labels[|labels| - 1]];
      InsertClass(init, labels[|labels| - 1])
  }

  /** The position of a known label among the classes. */
  function Encode(classes: seq<string>, value: string): (k: nat)
    requires value in classes
    ensures k < |classes| && classes[k] == value
    ensures forall j :: 0 <= j < k ==> classes[j] != value
  {
    if classes[0] == value then 0 else 1 + Encode(classes[1..], value)
  }

  /** `fit_transform`: every label encoded against the fitted classes. */
  function EncodeAll(classes: seq<string>, labels: seq<string>): (codes: seq<nat>)
    requires forall i :: 0 <= i < |labels| ==> labels[i] in classes
    ensures |codes| == |labels|
    ensures forall i :: 0 <= i < |labels| ==> codes[i] < |classes| && classes[codes[i]] == labels[i]
  {
    seq(|labels|, i requires 0 <= i < |labels| => Encode(classes, labels[i]))
  }

  /** Encoding is injective on the fitted classes: decoding a position and
      encoding the label again gives the position back. */
  lemma EncodeDecode(classes: seq<string>, k: nat)
    requires StrictlySorted(classes) && k < |classes|
    ensures Encode(classes, classes[k]) == k
  {
    SortedDistinct(classes);
  }
}

=== FILE: learning.dfy ===
/** The fitted artifacts shared by the trainer and the predictor, and the
    machine-learning library they call. Fitted objects are records of what they
    were fitted on; everything the library computes from them (TF-IDF vectors,
    standard scaling, stratified splitting, cross-validation, accuracy,
    class probabilities) is a field of a `Library` value. */
module Learning {
  import opened Wrappers
  import opened DataProcessor

  /** The classifier families: the three importance candidates and the category forest. */
  datatype Family = LogisticRegression | RandomForest | Svm | CategoryForest

  /** The importance candidates, in the order the trainer tries them. */
  const ImportanceCandidates: seq<Family> := [LogisticRegression, RandomForest, Svm]

  type Matrix = seq<seq<real>>

  /** A TF-IDF vectorizer fitted on a corpus. */
  datatype Vectorizer = Vectorizer(corpus: seq<string>, maxFeatures: nat)

  /** A standard scaler: unfitted, or fitted on a matrix. */
  datatype Scaler = Scaler(fittedOn: Option<Matrix>)

  /** A classifier fitted on a training matrix and its labels. */
  datatype Classifier = Classifier(family: Family, trainX: Matrix, trainY: seq<nat>)

  datatype Library = Library(
    textVector: (Vectorizer, string) -> seq<real>,
    scale: (Matrix, seq<real>) -> seq<real>,
    splitFails: (seq<nat>, real, int) -> bool,
    isTest: (seq<nat>, real, int, nat) -> bool,
    cvMean: (Family, Matrix, seq<nat>) -> real,
    accuracy: (Classifier, Matrix, seq<nat>) -> real,
    predictProba: (Classifier, seq<real>) -> seq<real>)

  /** The scalar feature columns: six numeric, then four boolean. */
  const NumericColumns: seq<string> := ["subject_length", "body_length", "word_count", "exclamation_count", "question_count", "caps_ratio"]
  const BooleanColumns: seq<string> := ["has_deadline", "has_urgent", "has_apply", "has_opportunity"]
  const ScalarColumns: seq<string> := NumericColumns + BooleanColumns

  /** A boolean feature as a number, as numpy stores it in a float matrix. */
  function BoolValue(b: bool): real {
    if b then 1.0 else 0.0
  }

  /** The value of the feature named `column` in a feature bag (the
      `features[...]` lookups); not a scalar column gives 0. */
  function FeatureValue(f: FeatureBag, column: string): real {
    if column == "subject_length" then f.subjectLength as real
    else if column == "body_length" then f.bodyLength as real
    else if column == "word_count" then f.wordCount as real
    else if column == "exclamation_count" then f.exclamationCount as real
    else if column == "question_count" then f.questionCount as real
    else if column == "caps_ratio" then f.capsRatio
    else if column == "has_deadline" then BoolValue(f.hasDeadline)
    else if column == "has_urgent" then BoolValue(f.hasUrgent)
    else if column == "has_apply" then BoolValue(f.hasApply)
    else if column == "has_opportunity" then BoolValue(f.hasOpportunity)
    else 0.0
  }

  /** One row of the model input: the text vector, then the scaled scalar block
      (`np.hstack`, row by row; standard scaling acts on each row separately). */
  function DesignRow(lib: Library, vec: Vectorizer, scalerData: Matrix, text: string, scalars: seq<real>): (x: seq<real>)
    ensures |x| == |lib.textVector(vec, text)| + |lib.scale(scalerData, scalars)|
    ensures x[..|lib.textVector(vec, text)|] == lib.textVector(vec, text)
  {
    lib.textVector(vec, text) + lib.scale(scalerData, scalars)
  }

  /** The model input of a whole frame, one design row per data row. */
  function Design(lib: Library, vec: Vectorizer, scalerData: Matrix, texts: seq<string>, matrix: Matrix): (x: Matrix)
    requires |texts| == |matrix|
    ensures |x| == |texts|
    ensures forall i :: 0 <= i < |x| ==> x[i] == DesignRow(lib, vec, scalerData, texts[i], matrix[i])
  {
    seq(|texts|, i requires 0 <= i < |texts| => DesignRow(lib, vec, scalerData, texts[i], matrix[i]))
  }
}

=== FILE: predict.dfy ===
/** The prediction service (`EmailPredictor`): loading the saved bundle and
    turning the two classifiers' probabilities into a prediction. */
module Predict {
  import opened Wrappers
  import opened Selection
  import opened Sorting
  import opened DataProcessor
  import opened Learning
  import opened TrainModel
  import Config

  /** The predictor's state after construction or loading. */
  datatype Predictor = Predictor(
    isLoaded: bool,
    importance: Option<Classifier>,
    category: Option<Classifier>,
    vectorizer: Option<Vectorizer>,
    labelClasses: Option<seq<string>>,
    scaler: Option<Scaler>)

  /** A freshly constructed predictor: nothing loaded. */
  const Unloaded: Predictor := Predictor(false, None, None, None, None, None)

  const NotLoadedMessage: string := "Models not loaded. Call load_models() first."

  /** What the model path holds: nothing, a file `joblib.load` cannot turn
      into a bundle (the exception's message), or a saved bundle. */
  datatype ModelFile = Missing | Unreadable(error: string) | Stored(bundle: Bundle)

  /** `load_models`: a missing model file fails with `FileNotFoundError`, an
      unreadable one with the loader's exception; otherwise every artifact is
      read from the bundle and the predictor is marked loaded. */
  function LoadModels(file: ModelFile): (r: Result<Predictor>)
    ensures r.Err? <==> !file.Stored?
    ensures file.Missing? ==> r == Err("Model file not found")
    ensures file.Unreadable? ==> r == Err(file.error)
    ensures r.Ok? ==> r.value.isLoaded
  {
    match file
    case Missing => Err("Model file not found")
    case Unreadable(error) => Err(error)
    case Stored(b) => Ok(Predictor(true, b.importanceModel, b.categoryModel, b.vectorizer, b.labelClasses, Some(b.scaler)))
  }

  /** Saving a trainer and loading the file gives back exactly the trainer's
      models, vectorizer, label classes and scaler. */
  lemma SaveLoadRoundTrip(t: Trainer)
    ensures LoadModels(Stored(SaveModels(t))) ==
      Ok(Predictor(true, t.importance, t.category, t.vectorizer, t.labelClasses, Some(t.scaler)))
  {
  }

  /** The scalar block the predictor builds, listed field by field. */
  function ScalarRow(f: FeatureBag): (row: seq<real>)
    ensures |row| == |ScalarColumns|
    ensures forall j :: 0 <= j < |ScalarColumns| ==> row[j] == FeatureValue(f, ScalarColumns[j])
  {
    [f.subjectLength as real, f.bodyLength as real, f.wordCount as real,
     f.exclamationCount as real, f.questionCount as real, f.capsRatio,
     BoolValue(f.hasDeadline), BoolValue(f.hasUrgent), BoolValue(f.hasApply), BoolValue(f.hasOpportunity)]
  }

  /** The predictor and the trainer present an email to the models identically:
      the frame row the trainer prepares for it is the predictor's text and
      scalar row. */
  lemma TrainingRowMatchesPrediction(tools: TextTools, e: RawEmail)
    ensures
      var f := ExtractFeatures(tools, e);
      var prepared := PrepareData(CreateTrainingDataset(tools, [e]));
      prepared.0 == [f.processedText] && prepared.1 == [ScalarRow(f)]
  {
    var f := ExtractFeatures(tools, e);
    var row := TrainingRow(f, LabelEmail(tools, e));
    assert CreateTrainingDataset(tools, [e]) == [row];
    TrainingCellsMatchFeatures(f, LabelEmail(tools, e));
    PreparedRow(row, f);
  }

  /** A frame of one row whose cells are the feature values prepares to the
      predictor's text and scalar row. */
  lemma PreparedRow(row: DataRow, f: FeatureBag)
    requires row.text == Some(f.processedText)
    requires forall j :: 0 <= j < |ScalarColumns| ==> Cell(row, ScalarColumns[j]) == FeatureValue(f, ScalarColumns[j])
    ensures PrepareData([row]).0 == [f.processedText] && PrepareData([row]).1 == [ScalarRow(f)]
  {
    var prepared := PrepareData([row]);
    assert prepared.1[0] == ScalarRow(f);
  }

  /** A category with probability above 0.1, by class position. */
  datatype Candidate = Candidate(index: nat, confidence: real)

  /** An entry of `categories` in the response. */
  datatype CategoryScore = CategoryScore(name: string, confidence: real)

  /** The features echoed back with a prediction. */
  datatype EchoedFeatures = EchoedFeatures(textLength: nat, hasDeadline: bool, hasUrgent: bool, senderDomain: string)

  datatype Prediction = Prediction(
    isImportant: bool,
    confidence: real,
    primaryCategory: string,
    categoryConfidence: real,
    categories: seq<CategoryScore>,
    features: EchoedFeatures)

  /** The classes whose probability exceeds 0.1, in class order. */
  function Candidates(probs: seq<real>): (c: seq<Candidate>)
    ensures forall k :: 0 <= k < |c| ==> c[k].index < |probs| && c[k].confidence == probs[c[k].index] > 0.1
    ensures forall a, b :: 0 <= a < b < |c| ==> c[a].index < c[b].index
    ensures forall i :: 0 <= i < |probs| && probs[i] > 0.1 ==> Candidate(i, probs[i]) in c
  {
    if |probs| == 0 then []
    else
      var c := Candidates(probs[..|probs| - 1]);
      var last := |probs| - 1;
      if probs[last] > 0.1 then c + [Candidate(last, probs[last])] else c
  }

  function Confidence(x: Candidate): real {
    x.confidence
  }

  function ClassIndex(x: Candidate): int {
    x.index
  }

  /** The first three candidates after a stable sort by descending probability,
      so equal probabilities keep class order. */
  function TopCandidates(probs: seq<real>): (top: seq<Candidate>)
    ensures |top| == if |Candidates(probs)| < 3 then |Candidates(probs)| else 3
    ensures forall k :: 0 <= k < |top| ==> top[k] in Candidates(probs)
  {
    TakeTop(Candidates(probs), Confidence, 3)
  }

  /** Every top candidate is a class whose probability exceeds 0.1. */
  lemma TopCandidatesScored(probs: seq<real>)
    ensures forall k :: 0 <= k < |TopCandidates(probs)| ==>
      var x := TopCandidates(probs)[k]; x.index < |probs| && x.confidence == probs[x.index] > 0.1
  {
    var c := Candidates(probs);
    var top := TopCandidates(probs);
    forall k | 0 <= k < |top| ensures top[k].index < |probs| && top[k].confidence == probs[top[k].index] > 0.1 {
      var j :| 0 <= j < |c| && c[j] == top[k];
    }
  }

  /** The top candidates descend by probability, and equal probabilities keep
      class order. */
  lemma TopCandidatesOrdered(probs: seq<real>)
    ensures forall a, b :: 0 <= a < b < |TopCandidates(probs)| ==>
      TopCandidates(probs)[a].confidence >= TopCandidates(probs)[b].confidence
    ensures forall a, b :: 0 <= a < b < |TopCandidates(probs)| && TopCandidates(probs)[a].confidence == TopCandidates(probs)[b].confidence ==>
      TopCandidates(probs)[a].index < TopCandidates(probs)[b].index
  {
    var c := Candidates(probs);
    var top := TakeTop(c, Confidence, 3);
    TakeTopTies(c, Confidence, 3, ClassIndex);
    forall a, b | 0 <= a < b < |top| ensures top[a].confidence >= top[b].confidence {
      assert Confidence(top[a]) >= Confidence(top[b]);
    }
    forall a, b | 0 <= a < b < |top| && top[a].confidence == top[b].confidence ensures top[a].index < top[b].index {
      assert ClassIndex(top[a]) < ClassIndex(top[b]);
    }
  }

  /** No candidate left out is more probable than one kept. */
  lemma TopCandidatesBeatRest(probs: seq<real>)
    ensures forall k :: 0 <= k < |Candidates(probs)| && Candidates(probs)[k] !in TopCandidates(probs) ==>
      forall a :: 0 <= a < |TopCandidates(probs)| ==> TopCandidates(probs)[a].confidence >= Candidates(probs)[k].confidence
  {
    var c := Candidates(probs);
    var top := TakeTop(c, Confidence, 3);
    forall k, a | 0 <= k < |c| && c[k] !in top && 0 <= a < |top| ensures top[a].confidence >= c[k].confidence {
      assert Confidence(top[a]) >= Confidence(c[k]);
    }
  }

  /** Candidates with their class names. */
  function Named(classes: seq<string>, top: seq<Candidate>): (r: seq<CategoryScore>)
    requires forall a :: 0 <= a < |top| ==> top[a].index < |classes|
    ensures |r| == |top|
    ensures forall a :: 0 <= a < |top| ==> r[a] == CategoryScore(classes[top[a].index], top[a].confidence)
  {
    seq(|top|, a requires 0 <= a < |top| => CategoryScore(classes[top[a].index], top[a].confidence))
  }

  /** The response built from the two probability vectors: importance is the
      positive-class probability strictly above `MIN_CONFIDENCE`, the primary
      category is the first most probable class. A class position outside the
      label classes fails. */
  function PostProcess(classes: seq<string>, ip: seq<real>, cp: seq<real>, f: FeatureBag): (r: Result<Prediction>)
    ensures r.Ok? <==>
      && |ip| >= 2 && |cp| > 0 && ArgMax(cp) < |classes|
      && (forall i :: 0 <= i < |cp| && cp[i] > 0.1 ==> i < |classes|)
    ensures r.Ok? ==>
      && |ip| >= 2 && |cp| > 0
      && r.value.confidence == ip[1]
      && (r.value.isImportant <==> ip[1] > Config.MinConfidence)
      && ArgMax(cp) < |classes|
      && r.value.primaryCategory == classes[ArgMax(cp)]
      && r.value.categoryConfidence == cp[ArgMax(cp)]
      && (forall j :: 0 <= j < |cp| ==> cp[j] <= r.value.categoryConfidence)
      && (forall j :: 0 <= j < ArgMax(cp) ==> cp[j] < r.value.categoryConfidence)
    ensures r.Ok? ==> r.value.features == EchoedFeatures(f.totalLength, f.hasDeadline, f.hasUrgent, f.senderDomain)
  {
    if |ip| < 2 then Err("index 1 is out of bounds")
    else if |cp| == 0 then Err("attempt to get argmax of an empty sequence")
    else if ArgMax(cp) >= |classes| || exists i :: 0 <= i < |cp| && cp[i] > 0.1 && i >= |classes| then
      Err("index is out of bounds")
    else
      var k := ArgMax(cp);
      var top := TopCandidates(cp);
      TopCandidatesScored(cp);
      var names := Named(classes, top);
      Ok(Prediction(
        isImportant := ip[1] > Config.MinConfidence,
        confidence := ip[1],
        primaryCategory := classes[k],
        categoryConfidence := cp[k],
        categories := names,
        features := EchoedFeatures(f.totalLength, f.hasDeadline, f.hasUrgent, f.senderDomain)))
  }

  /** `categories` holds the top three classes above 0.1, named, with their
      probabilities, most probable first. */
  lemma PostProcessCategories(classes: seq<string>, ip: seq<real>, cp: seq<real>, f: FeatureBag)
    ensures PostProcess(classes, ip, cp, f).Ok? ==>
      var cats := PostProcess(classes, ip, cp, f).value.categories;
      var top := TopCandidates(cp);
      && |cats| == |top| <= 3
      && (forall k :: 0 <= k < |cats| ==>
            && top[k].index < |classes|
            && cats[k] == CategoryScore(classes[top[k].index], top[k].confidence)
            && cats[k].confidence > 0.1)
      && (forall a, b :: 0 <= a < b < |cats| ==> cats[a].confidence >= cats[b].confidence)
  {
    TopCandidatesScored(cp);
    TopCandidatesOrdered(cp);
  }

  /** `predict_email`. Fails before loading and when an artifact is missing from
      the bundle; otherwise both models see the same design row, built from the
      extracted features exactly as in training, and the response is assembled
      from their probabilities. */
  function PredictEmail(lib: Library, tools: TextTools, p: Predictor, e: RawEmail): (r: Result<Prediction>)
    ensures !p.isLoaded ==> r == Err(NotLoadedMessage)
    ensures r.Ok? ==>
      && p.isLoaded && p.importance.Some? && p.category.Some? && p.vectorizer.Some? && p.labelClasses.Some?
      && p.scaler.Some? && p.scaler.value.fittedOn.Some?
    ensures r.Ok? ==>
      var f := ExtractFeatures(tools, e);
      var x := DesignRow(lib, p.vectorizer.value, p.scaler.value.fittedOn.value, f.processedText, ScalarRow(f));
      r == PostProcess(p.labelClasses.value, lib.predictProba(p.importance.value, x), lib.predictProba(p.category.value, x), f)
  {
    if !p.isLoaded then Err(NotLoadedMessage)
    else if p.vectorizer.None? || p.scaler.None? || p.importance.None? || p.category.None? || p.labelClasses.None? then
      Err("'NoneType' object has no attribute")
    else if p.scaler.value.fittedOn.None? then Err("This StandardScaler instance is not fitted yet")
    else
      var f := ExtractFeatures(tools, e);
      var x := DesignRow(lib, p.vectorizer.value, p.scaler.value.fittedOn.value, f.processedText, ScalarRow(f));
      PostProcess(p.labelClasses.value, lib.predictProba(p.importance.value, x), lib.predictProba(p.category.value, x), f)
  }
}

=== FILE: predict_api.dfy ===
/** The prediction service's HTTP routes `/predict` and `/batch_predict`.
    A JSON object is modelled by the keys the routes look at; the clock reading
    stamped on a response is a parameter. */
module PredictApi {
  import opened Wrappers
  import opened DataProcessor
  import opened Learning
  import opened Predict

  /** A `/predict` request object: the three email keys (absent is `None`) and
      how many other keys it has. */
  datatype PredictRequest = PredictRequest(subject: Option<string>, body: Option<Body>, sender: Option<string>, otherKeys: nat)

  /** An empty object is falsy, like a missing body. */
  predicate IsEmpty(req: PredictRequest) {
    req.subject.None? && req.body.None? && req.sender.None? && req.otherKeys == 0
  }

  function AsEmail(req: PredictRequest): RawEmail {
    RawEmail(req.subject, req.body, req.sender)
  }

  const ModelVersion: string := "1.0.0"

  datatype ApiResponse =
    | Predicted(prediction: Prediction, timestamp: string, modelVersion: string)
    | Failed(status: nat, error: string, missingFields: seq<string>)

  /** The required fields absent from the request, in the order subject, body. */
  function MissingFields(req: PredictRequest): (m: seq<string>)
    ensures "subject" in m <==> req.subject.None?
    ensures "body" in m <==> req.body.None?
    ensures forall k :: 0 <= k < |m| ==> m[k] == "subject" || m[k] == "body"
    ensures |m| == 2 ==> m == ["subject", "body"]
  {
    (if req.subject.None? then ["subject"] else []) + (if req.body.None? then ["body"] else [])
  }

  /** `/predict`: 503 before the models are loaded, 400 for a missing or empty
      body, 400 listing exactly the missing required fields, 500 when prediction
      fails, otherwise the prediction stamped with the time and model version. */
  function PredictRoute(lib: Library, tools: TextTools, p: Predictor, data: Option<PredictRequest>, now: string): (r: ApiResponse)
    ensures !p.isLoaded ==> r.Failed? && r.status == 503
    ensures p.isLoaded && (data.None? || IsEmpty(data.value)) ==> r == Failed(400, "No data provided", [])
    ensures p.isLoaded && data.Some? && !IsEmpty(data.value) && MissingFields(data.value) != [] ==>
      r == Failed(400, "Missing required fields", MissingFields(data.value))
    ensures r.Predicted? <==>
      p.isLoaded && data.Some? && data.value.subject.Some? && data.value.body.Some? &&
      PredictEmail(lib, tools, p, AsEmail(data.value)).Ok?
    ensures r.Predicted? ==>
      r == Predicted(PredictEmail(lib, tools, p, AsEmail(data.value)).value, now, ModelVersion)
    ensures r.Failed? && r.status == 500 ==>
      p.isLoaded && data.Some? && MissingFields(data.value) == [] && PredictEmail(lib, tools, p, AsEmail(data.value)).Err?
    ensures (p.isLoaded && data.Some? && !IsEmpty(data.value) && MissingFields(data.value) == [] &&
             PredictEmail(lib, tools, p, AsEmail(data.value)).Err?) ==>
      r == Failed(500, "Prediction failed", [])
  {
    if !p.isLoaded then Failed(503, "Models not loaded", [])
    else if data.None? || IsEmpty(data.value) then Failed(400, "No data provided", [])
    else
      var missing := MissingFields(data.value);
      if missing != [] then Failed(400, "Missing required fields", missing)
      else
        match PredictEmail(lib, tools, p, AsEmail(data.value))
        case Err(_) => Failed(500, "Prediction failed", [])
        case Ok(prediction) => Predicted(prediction, now, ModelVersion)
  }

  /** An entry of the `emails` array: an email object, or a value of another
      JSON type, named by its Python type (`str`, `int`, `float`, `bool`,
      `list` or `NoneType`). */
  datatype BatchItem = EmailObject(email: RawEmail) | NotAnObject(typeName: string)

  /** The `emails` value of a batch request: an array, or something that is
      not an array. */
  datatype EmailsField = EmailArray(items: seq<BatchItem>) | NotAnArray

  const MaxBatch: nat := 100

  datatype IndexedPrediction = IndexedPrediction(index: nat, prediction: Prediction)
  datatype IndexedError = IndexedError(index: nat, error: string)

  datatype BatchResponse =
    | BatchDone(predictions: seq<IndexedPrediction>, errors: seq<IndexedError>, totalProcessed: nat, totalErrors: nat, timestamp: string)
    | BatchRejected(status: nat, error: string)

  ghost predicate HasPrediction(ps: seq<IndexedPrediction>, i: nat) {
    exists k :: 0 <= k < |ps| && ps[k].index == i
  }

  ghost predicate HasError(es: seq<IndexedError>, i: nat) {
    exists k :: 0 <= k < |es| && es[k].index == i
  }

  lemma PredictionAppended(ps: seq<IndexedPrediction>, x: IndexedPrediction)
    ensures HasPrediction(ps + [x], x.index)
    ensures forall j :: HasPrediction(ps, j) ==> HasPrediction(ps + [x], j)
  {
    assert (ps + [x])[|ps|] == x;
    forall j | HasPrediction(ps, j) ensures HasPrediction(ps + [x], j) {
      var k :| 0 <= k < |ps| && ps[k].index == j;
      assert (ps + [x])[k] == ps[k];
    }
  }

  lemma ErrorAppended(es: seq<IndexedError>, x: IndexedError)
    ensures HasError(es + [x], x.index)
    ensures forall j :: HasError(es, j) ==> HasError(es + [x], j)
  {
    assert (es + [x])[|es|] == x;
    forall j | HasError(es, j) ensures HasError(es + [x], j) {
      var k :| 0 <= k < |es| && es[k].index == j;
      assert (es + [x])[k] == es[k];
    }
  }

  /** The batch loop: the outcome of each index goes, in index order, to the
      predictions when it succeeded and to the errors when it failed. */
  method SplitOutcomes(results: seq<Result<Prediction>>) returns (predictions: seq<IndexedPrediction>, errors: seq<IndexedError>)
    ensures |predictions| + |errors| == |results|
    ensures forall a, b :: 0 <= a < b < |predictions| ==> predictions[a].index < predictions[b].index
    ensures forall a, b :: 0 <= a < b < |errors| ==> errors[a].index < errors[b].index
    ensures forall k :: 0 <= k < |predictions| ==>
      predictions[k].index < |results| && results[predictions[k].index] == Ok(predictions[k].prediction)
    ensures forall k :: 0 <= k < |errors| ==>
      errors[k].index < |results| && results[errors[k].index] == Err(errors[k].error)
    ensures forall i :: 0 <= i < |results| ==>
      (HasPrediction(predictions, i) <==> results[i].Ok?) && (HasError(errors, i) <==> results[i].Err?)
  {
    predictions := [];
    errors := [];
    var i := 0;
    while i < |results|
      invariant 0 <= i <= |results|
      invariant |predictions| + |errors| == i
      invariant forall k :: 0 <= k < |predictions| ==>
        predictions[k].index < i && results[predictions[k].index] == Ok(predictions[k].prediction)
      invariant forall k :: 0 <= k < |errors| ==>
        errors[k].index < i && results[errors[k].index] == Err(errors[k].error)
      invariant forall a, b :: 0 <= a < b < |predictions| ==> predictions[a].index < predictions[b].index
      invariant forall a, b :: 0 <= a < b < |errors| ==> errors[a].index < errors[b].index
      invariant forall j :: 0 <= j < i ==>
        (results[j].Ok? ==> HasPrediction(predictions, j)) && (results[j].Err? ==> HasError(errors, j))
    {
      match results[i] {
        case Ok(prediction) =>
          PredictionAppended(predictions, IndexedPrediction(i, prediction));
          predictions := predictions + [IndexedPrediction(i, prediction)];
        case Err(message) =>
          ErrorAppended(errors, IndexedError(i, message));
          errors := errors + [IndexedError(i, message)];
      }
      i := i + 1;
    }
    forall j | 0 <= j < |results| && HasPrediction(predictions, j) ensures results[j].Ok? {
      var k :| 0 <= k < |predictions| && predictions[k].index == j;
    }
    forall j | 0 <= j < |results| && HasError(errors, j) ensures results[j].Err? {
      var k :| 0 <= k < |errors| && errors[k].index == j;
    }
  }

  /** Predicting one batch entry. An entry that is not an object has no `get`,
      so feature extraction raises the AttributeError that names its type. */
  function PredictItem(lib: Library, tools: TextTools, p: Predictor, item: BatchItem): (r: Result<Prediction>)
    ensures item.EmailObject? ==> r == PredictEmail(lib, tools, p, item.email)
    ensures item.NotAnObject? ==>
      r == Err(if p.isLoaded then "'" + item.typeName + "' object has no attribute 'get'" else NotLoadedMessage)
  {
    match item
    case EmailObject(e) => PredictEmail(lib, tools, p, e)
    case NotAnObject(typeName) =>
      if !p.isLoaded then Err(NotLoadedMessage)
      else Err("'" + typeName + "' object has no attribute 'get'")
  }

  /** Every entry of a batch predicted on its own. */
  function Outcomes(lib: Library, tools: TextTools, p: Predictor, items: seq<BatchItem>): (rs: seq<Result<Prediction>>)
    ensures |rs| == |items|
    ensures forall i :: 0 <= i < |items| ==> rs[i] == PredictItem(lib, tools, p, items[i])
    ensures forall i :: 0 <= i < |items| && items[i].EmailObject? ==> rs[i] == PredictEmail(lib, tools, p, items[i].email)
    ensures p.isLoaded ==> forall i :: 0 <= i < |items| && items[i].NotAnObject? ==> rs[i].Err?
  {
    seq(|items|, i requires 0 <= i < |items| => PredictItem(lib, tools, p, items[i]))
  }

  /** `/batch_predict`. After the guards (503 before loading; 400 for a missing
      `emails` key, a non-array or more than 100 entries) every entry is predicted
      on its own: each input index lands, in ascending order, in the predictions
      when its prediction succeeds and in the errors when it fails, as an entry
      that is not an object always does. */
  method BatchPredict(lib: Library, tools: TextTools, p: Predictor, emails: Option<EmailsField>, now: string)
    returns (r: BatchResponse)
    ensures !p.isLoaded ==> r == BatchRejected(503, "Models not loaded")
    ensures p.isLoaded && emails.None? ==> r == BatchRejected(400, "No emails provided")
    ensures p.isLoaded && emails == Some(NotAnArray) ==> r == BatchRejected(400, "Invalid format")
    ensures p.isLoaded && emails.Some? && emails.value.EmailArray? && |emails.value.items| > MaxBatch ==>
      r == BatchRejected(400, "Too many emails")
    ensures r.BatchDone? <==> p.isLoaded && emails.Some? && emails.value.EmailArray? && |emails.value.items| <= MaxBatch
    ensures r.BatchDone? ==>
      var results := Outcomes(lib, tools, p, emails.value.items);
      && r.totalProcessed == |r.predictions| && r.totalErrors == |r.errors|
      && r.totalProcessed + r.totalErrors == |emails.value.items|
      && (forall a, b :: 0 <= a < b < |r.predictions| ==> r.predictions[a].index < r.predictions[b].index)
      && (forall a, b :: 0 <= a < b < |r.errors| ==> r.errors[a].index < r.errors[b].index)
      && (forall k :: 0 <= k < |r.predictions| ==>
            r.predictions[k].index < |results| && results[r.predictions[k].index] == Ok(r.predictions[k].prediction))
      && (forall k :: 0 <= k < |r.errors| ==>
            r.errors[k].index < |results| && results[r.errors[k].index] == Err(r.errors[k].error))
      && (forall i :: 0 <= i < |results| ==>
            (HasPrediction(r.predictions, i) <==> results[i].Ok?) && (HasError(r.errors, i) <==> results[i].Err?))
    ensures r.BatchDone? && emails.Some? && emails.value.EmailArray? ==>
      forall i :: 0 <= i < |emails.value.items| && emails.value.items[i].NotAnObject? ==>
        HasError(r.errors, i) && !HasPrediction(r.predictions, i)
  {
    if !p.isLoaded {
      return BatchRejected(503, "Models not loaded");
    }
    if emails.None? {
      return BatchRejected(400, "No emails provided");
    }
    if emails.value.NotAnArray? {
      return BatchRejected(400, "Invalid format");
    }
    var items := emails.value.items;
    if |items| > MaxBatch {
      return BatchRejected(400, "Too many emails");
    }
    var predictions, errors := SplitOutcomes(Outcomes(lib, tools, p, items));
    return BatchDone(predictions, errors, |predictions|, |errors|, now);
  }
}

=== FILE: reminder_modal.dfy ===
/** The reminder form: the quick options, the submitted time and when the
    submit button is disabled. */
module ReminderModal {
  import opened Wrappers
  import opened Text
  import opened Schemas

  datatype QuickOption = QuickOption(id: string, caption: string)

  const QuickOptions: seq<QuickOption> := [
    QuickOption("30min", "30 minutes"),
    QuickOption("1hour", "1 hour"),
    QuickOption("3hours", "3 hours"),
    QuickOption("1day", "Tomorrow"),
    QuickOption("3days", "3 days"),
    QuickOption("1week", "1 week"),
    QuickOption("custom", "Custom")]

  function OptionIds(options: seq<QuickOption>): (ids: seq<string>)
    ensures |ids| == |options|
    ensures forall i :: 0 <= i < |options| ==> ids[i] == options[i].id
  {
    seq(|options|, i requires 0 <= i < |options| => options[i].id)
  }

  /** The form offers exactly the reminder types the server accepts, in the
      same order. */
  lemma OptionsAreReminderTypes()
    ensures OptionIds(QuickOptions) == ReminderTypeNames
  {
    var ids := OptionIds(QuickOptions);
    assert |ids| == 7;
    assert ids[0] == "30min" && ids[1] == "1hour" && ids[2] == "3hours" && ids[3] == "1day";
    assert ids[4] == "3days" && ids[5] == "1week" && ids[6] == "custom";
  }

  /** The form state: the selected option and the custom date and time fields. */
  datatype Form = Form(selectedTime: string, customTime: string, customDate: string)

  /** The form opens with "1hour" selected and empty custom fields. */
  const InitialForm: Form := Form("1hour", "", "")

  /** `handleSubmit`: the value handed to `onSubmit`, `None` when the form
      returns without submitting. */
  function HandleSubmit(f: Form): (r: Option<string>)
    ensures f.selectedTime != "custom" ==> r == Some(f.selectedTime)
    ensures f.selectedTime == "custom" ==> (r.Some? <==> f.customDate != "" && f.customTime != "")
    ensures f.selectedTime == "custom" && r.Some? ==> r.value == f.customDate + " " + f.customTime
  {
    if f.selectedTime == "custom" then
      if f.customDate != "" && f.customTime != "" then Some(f.customDate + " " + f.customTime) else None
    else Some(f.selectedTime)
  }

  /** The `disabled` expression of the submit button. */
  predicate SubmitDisabled(f: Form) {
    f.selectedTime == "custom" && (f.customDate == "" || f.customTime == "")
  }

  /** The button is disabled exactly when submitting would do nothing. */
  lemma DisabledIffNothingSubmitted(f: Form)
    ensures SubmitDisabled(f) <==> HandleSubmit(f).None?
  {
  }

  /** A submitted quick option is a reminder type the server understands. */
  lemma QuickChoiceIsReminderType(f: Form)
    requires f.selectedTime in OptionIds(QuickOptions) && f.selectedTime != "custom"
    ensures HandleSubmit(f).Some? && ParseReminderType(HandleSubmit(f).value).Some?
    ensures ParseReminderType(HandleSubmit(f).value).value != Custom
  {
    OptionsAreReminderTypes();
  }

  /** A custom date and time without spaces split back apart at the space. */
  lemma CustomSplitsBack(f: Form)
    requires f.selectedTime == "custom" && f.customDate != "" && f.customTime != ""
    requires ' ' !in f.customDate && ' ' !in f.customTime
    ensures HandleSubmit(f).Some? && Split(HandleSubmit(f).value, ' ') == [f.customDate, f.customTime]
  {
    var parts := [f.customDate, f.customTime];
    assert JoinWith(parts, ' ') == f.customDate + " " + f.customTime by {
      assert parts[1..] == [f.customTime];
    }
    SplitJoin(parts, ' ');
  }
}

=== FILE: reminder_routes.dfy ===
/** The reminder HTTP routes: query-string parsing, the status codes of the
    list, create, update and delete handlers, and the statistics endpoint.
    Authentication happens before these handlers and is not modelled. */
module ReminderRoutes {
  import opened Wrappers
  import opened Text
  import opened Keys
  import opened Tally
  import opened Schemas
  import opened ReminderService
  import opened JsNumbers

  // ---------------------------------------------------------------- query values

  /** A query parameter read as `parseInt(q) || fallback`: a missing or
      unparsable value, or zero, gives the fallback. */
  function QueryInt(q: Option<string>, fallback: int): (v: int)
    ensures q.None? ==> v == fallback
    ensures q.Some? && ParseInt(q.value).Some? && ParseInt(q.value).value != 0 ==> v == ParseInt(q.value).value
    ensures v == fallback || (q.Some? && ParseInt(q.value) == Some(v))
    ensures fallback != 0 ==> v != 0
  {
    if q.None? then fallback
    else
      match ParseInt(q.value)
      case None => fallback
      case Some(n) => if n == 0 then fallback else n
  }

  // ---------------------------------------------------------------- replies

  /** A JSON reply: a status with a body, or a status with an error message. */
  datatype Reply<T> = Reply(status: nat, body: T) | Failure(status: nat, error: string)

  /** A reply together with the store after the handler ran. */
  datatype Handled<T> = Handled(reply: Reply<T>, store: Store)

  datatype ListQuery = ListQuery(status: Option<string>, limit: Option<string>, page: Option<string>)

  /** `GET /`: one page of the user's reminders; limit and page are 50 and 1
      when absent, unparsable or zero. A page that would start at a negative
      offset fails with 500. */
  function ListRoute(st: Store, userId: nat, q: ListQuery): (r: Reply<Listing>)
    ensures r.Reply? ==> r.status == 200
    ensures r.Failure? ==> r == Failure(500, "Failed to fetch reminders")
    ensures r.Reply? <==> Skip(QueryInt(q.limit, 50), QueryInt(q.page, 1)) >= 0
    ensures r.Reply? ==>
      r.body == GetUserReminders(st.reminders, userId, q.status, Some(QueryInt(q.limit, 50)), Some(QueryInt(q.page, 1))).value
    ensures q.limit.None? && q.page.None? ==> r.Reply? && r.body.page == 1 && |r.body.reminders| <= 50
  {
    match GetUserReminders(st.reminders, userId, q.status, Some(QueryInt(q.limit, 50)), Some(QueryInt(q.page, 1)))
    case Err(_) => Failure(500, "Failed to fetch reminders")
    case Ok(listing) => Reply(200, listing)
  }

  /** The body of `POST /`; an empty or missing email id is `None`. */
  datatype CreateBody = CreateBody(emailId: Option<nat>, reminderTime: Option<int>, reminderType: Option<string>, notificationMethod: Option<string>)

  /** `POST /`: 400 without an email id, 500 when creation fails, otherwise
      201 with the new reminder. */
  function CreateRoute(st: Store, userId: nat, body: CreateBody, now: int): (r: Handled<Reminder>)
    ensures body.emailId.None? ==> r == Handled(Failure(400, "Email ID is required"), st)
    ensures r.reply.Failure? ==> r.store == st && (r.reply.status == 400 || r.reply.status == 500)
    ensures r.reply.Reply? <==>
      body.emailId.Some? &&
      CreateReminder(st, userId, body.emailId.value, ReminderRequest(body.reminderTime, body.reminderType, body.notificationMethod), now).Ok?
    ensures r.reply.Reply? ==>
      var c := CreateReminder(st, userId, body.emailId.value, ReminderRequest(body.reminderTime, body.reminderType, body.notificationMethod), now).value;
      r.reply == Reply(201, c.reminder) && r.store == c.store
  {
    if body.emailId.None? then Handled(Failure(400, "Email ID is required"), st)
    else
      match CreateReminder(st, userId, body.emailId.value, ReminderRequest(body.reminderTime, body.reminderType, body.notificationMethod), now)
      case Err(_) => Handled(Failure(500, "Failed to create reminder"), st)
      case Ok(c) => Handled(Reply(201, c.reminder), c.store)
  }

  /** An error message, or the fallback when it is empty. */
  function MessageOr(msg: string, fallback: string): string {
    if msg == "" then fallback else msg
  }

  /** `PUT /:reminderId`: the service's error message with 500, or the updated reminder. */
  function UpdateRoute(st: Store, userId: nat, id: nat, patch: ReminderPatch): (r: Handled<Reminder>)
    ensures r.reply.Failure? <==> UpdateReminder(st, id, userId, patch).Err?
    ensures r.reply.Failure? ==>
      r.store == st && r.reply == Failure(500, UpdateReminder(st, id, userId, patch).msg)
    ensures r.reply.Reply? ==>
      r.reply == Reply(200, UpdateReminder(st, id, userId, patch).value.reminder) &&
      r.store == UpdateReminder(st, id, userId, patch).value.store
  {
    match UpdateReminder(st, id, userId, patch)
    case Err(msg) => Handled(Failure(500, MessageOr(msg, "Failed to update reminder")), st)
    case Ok(c) => Handled(Reply(200, c.reminder), c.store)
  }

  /** `DELETE /:reminderId`: cancels; the service's error message with 500 on failure. */
  function DeleteRoute(st: Store, userId: nat, id: nat): (r: Handled<Reminder>)
    ensures r.reply.Failure? <==> !Owned(st, id, userId)
    ensures r.reply.Failure? ==> r == Handled(Failure(500, "Reminder not found"), st)
    ensures r.reply.Reply? ==> r.reply.status == 200 && r.reply.body.status == Cancelled
  {
    match CancelReminder(st, id, userId)
    case Err(msg) => Handled(Failure(500, MessageOr(msg, "Failed to cancel reminder")), st)
    case Ok(c) => Handled(Reply(200, c.reminder), c.store)
  }

  // ---------------------------------------------------------------- statistics

  const StatsLimit: int := 1000

  datatype Overview = Overview(total: nat, pending: nat, sent: nat, cancelled: nat, upcoming: nat, overdue: nat)

  datatype ReminderStats = ReminderStats(overview: Overview, byType: seq<KeyCount>)

  /** The number of reminders with status `s`. */
  function CountStatus(rs: seq<Entry<Reminder>>, s: Status): (n: nat)
    ensures n <= |rs|
    ensures n == |set i | 0 <= i < |rs| && rs[i].doc.status == s|
  {
    if |rs| == 0 then 0
    else
      var last := |rs| - 1;
      var init := rs[..last];
      assert (set i | 0 <= i < |rs| && rs[i].doc.status == s) ==
        (set i | 0 <= i < |init| && init[i].doc.status == s) + (if rs[last].doc.status == s then {last} else {});
      CountStatus(init, s) + (if rs[last].doc.status == s then 1 else 0)
  }

  /** Pending reminders due after the time read for them (`later`) or not
      (`!later`); `clock(i)` is the time read while reminder `i` is examined. */
  function CountPendingWhen(rs: seq<Entry<Reminder>>, clock: nat -> int, later: bool): (n: nat)
    ensures n == |set i | 0 <= i < |rs| && PendingWhen(rs[i].doc, clock(i), later)|
  {
    if |rs| == 0 then 0
    else
      var last := |rs| - 1;
      var init := rs[..last];
      assert (set i | 0 <= i < |rs| && PendingWhen(rs[i].doc, clock(i), later)) ==
        (set i | 0 <= i < |init| && PendingWhen(init[i].doc, clock(i), later)) +
        (if PendingWhen(rs[last].doc, clock(last), later) then {last} else {});
      CountPendingWhen(init, clock, later) + (if PendingWhen(rs[last].doc, clock(last), later) then 1 else 0)
  }

  /** Reminder `r` is pending and due after `now` (`later`) or not (`!later`). */
  predicate PendingWhen(r: Reminder, now: int, later: bool) {
    r.status == Pending && (r.remindAt > now) == later
  }

  /** The type names of the listed reminders, in order. */
  function TypeNames(rs: seq<Entry<Reminder>>): (names: seq<string>)
    ensures |names| == |rs|
    ensures forall k :: 0 <= k < |rs| ==> names[k] == ReminderTypeName(rs[k].doc.reminderType)
  {
    seq(|rs|, k requires 0 <= k < |rs| => ReminderTypeName(rs[k].doc.reminderType))
  }

  /** Every reminder has exactly one of the three statuses. */
  lemma {:induction false} StatusesPartition(rs: seq<Entry<Reminder>>)
    ensures CountStatus(rs, Pending) + CountStatus(rs, Sent) + CountStatus(rs, Cancelled) == |rs|
    decreases |rs|
  {
    if |rs| > 0 {
      StatusesPartition(rs[..|rs| - 1]);
    }
  }

  /** Against one reading of the clock per reminder, every pending reminder is
      either upcoming or overdue, never both. */
  lemma {:induction false} PendingPartition(rs: seq<Entry<Reminder>>, clock: nat -> int)
    ensures CountPendingWhen(rs, clock, true) + CountPendingWhen(rs, clock, false) == CountStatus(rs, Pending)
    decreases |rs|
  {
    if |rs| > 0 {
      PendingPartition(rs[..|rs| - 1], clock);
    }
  }

  /** When the overdue pass reads the clock no earlier than the upcoming pass,
      every pending reminder is counted at least once; one due between the two
      readings is counted as both. */
  lemma {:induction false} PendingCover(rs: seq<Entry<Reminder>>, up: nat -> int, over: nat -> int)
    requires forall i :: 0 <= i < |rs| ==> up(i) <= over(i)
    ensures CountPendingWhen(rs, up, true) + CountPendingWhen(rs, over, false) >= CountStatus(rs, Pending)
    decreases |rs|
  {
    if |rs| > 0 {
      PendingCover(rs[..|rs| - 1], up, over);
    }
  }

  lemma {:induction false} SameClock(rs: seq<Entry<Reminder>>, a: nat -> int, b: nat -> int)
    requires forall i :: 0 <= i < |rs| ==> a(i) == b(i)
    ensures CountPendingWhen(rs, a, false) == CountPendingWhen(rs, b, false)
    decreases |rs|
  {
    if |rs| > 0 {
      SameClock(rs[..|rs| - 1], a, b);
    }
  }

  /** The figures of the statistics endpoint for a list of reminders. The
      upcoming pass reads the clock as `up(i)` for reminder `i`, the overdue
      pass as `over(i)`. */
  function Summarize(rs: seq<Entry<Reminder>>, up: nat -> int, over: nat -> int): (s: ReminderStats)
    ensures s.overview.total == |rs|
    ensures s.overview.pending == CountStatus(rs, Pending)
    ensures s.overview.sent == CountStatus(rs, Sent)
    ensures s.overview.cancelled == CountStatus(rs, Cancelled)
    ensures s.overview.upcoming == CountPendingWhen(rs, up, true)
    ensures s.overview.overdue == CountPendingWhen(rs, over, false)
    ensures s.overview.pending + s.overview.sent + s.overview.cancelled == s.overview.total
    ensures (forall i :: 0 <= i < |rs| ==> up(i) <= over(i)) ==> s.overview.upcoming + s.overview.overdue >= s.overview.pending
    ensures (forall i :: 0 <= i < |rs| ==> up(i) == over(i)) ==> s.overview.upcoming + s.overview.overdue == s.overview.pending
    ensures Total(s.byType) == s.overview.total && DistinctKeys(s.byType)
    ensures forall name :: CountOf(s.byType, name) == Occurrences(TypeNames(rs), name)
  {
    StatusesPartition(rs);
    assert (forall i :: 0 <= i < |rs| ==> up(i) <= over(i)) ==>
      CountPendingWhen(rs, up, true) + CountPendingWhen(rs, over, false) >= CountStatus(rs, Pending) by {
      if forall i :: 0 <= i < |rs| ==> up(i) <= over(i) {
        PendingCover(rs, up, over);
      }
    }
    assert (forall i :: 0 <= i < |rs| ==> up(i) == over(i)) ==>
      CountPendingWhen(rs, up, true) + CountPendingWhen(rs, over, false) == CountStatus(rs, Pending) by {
      if forall i :: 0 <= i < |rs| ==> up(i) == over(i) {
        PendingPartition(rs, up);
        SameClock(rs, up, over);
      }
    }
    var byType := TallyOf(TypeNames(rs));
    ReminderStats(
      Overview(|rs|, CountStatus(rs, Pending), CountStatus(rs, Sent), CountStatus(rs, Cancelled),
               CountPendingWhen(rs, up, true), CountPendingWhen(rs, over, false)),
      byType)
  }

  /** The statistics read the first page of at most 1000 reminders, which
      always exists. */
  lemma StatsListing(st: Store, userId: nat)
    ensures GetUserReminders(st.reminders, userId, Some("all"), Some(StatsLimit), None).Ok?
    ensures |GetUserReminders(st.reminders, userId, Some("all"), Some(StatsLimit), None).value.reminders| <= 1000
  {
    assert Skip(StatsLimit, 1) == 0;
  }

  /** `GET /stats`: the figures over the user's first 1000 reminders, latest first. */
  function StatsRoute(st: Store, userId: nat, up: nat -> int, over: nat -> int): (r: Reply<ReminderStats>)
    ensures r.Reply? && r.status == 200
    ensures r.body.overview.total <= 1000
    ensures GetUserReminders(st.reminders, userId, Some("all"), Some(StatsLimit), None).Ok?
    ensures r.body == Summarize(GetUserReminders(st.reminders, userId, Some("all"), Some(StatsLimit), None).value.reminders, up, over)
  {
    StatsListing(st, userId);
    var listing := GetUserReminders(st.reminders, userId, Some("all"), Some(StatsLimit), None);
    Reply(200, Summarize(listing.value.reminders, up, over))
  }
}

=== FILE: reminder_service.dfy ===
/** The reminder lifecycle: creating, delivering, cancelling, updating and
    listing reminders. The two collections are maps from document id to
    document; the clock and the mail transport are parameters. */
module ReminderService {
  import opened Wrappers
  import opened Keys
  import opened Sorting
  import opened Schemas
  import GmailService

  // ---------------------------------------------------------------- reminder times

  const MinuteMs: int := 60 * 1000
  const HourMs: int := 60 * MinuteMs

  /** The offset table of the time calculation, keyed by type name, in milliseconds. */
  const TimeMap: map<string, int> := map[
    "30min" := 30 * MinuteMs,
    "1hour" := HourMs,
    "3hours" := 3 * HourMs,
    "1day" := 24 * HourMs,
    "3days" := 3 * 24 * HourMs,
    "1week" := 7 * 24 * HourMs]

  /** The delay, in minutes, that each non-custom reminder type stands for. */
  function DelayMinutes(t: ReminderType): nat {
    match t
    case ThirtyMinutes => 30
    case OneHour => 60
    case ThreeHours => 180
    case OneDay => 1440
    case ThreeDays => 4320
    case OneWeek => 10080
    case Custom => 60
  }

  /** Now plus the type's offset; a name that is not a preset (including
      "custom") falls back to one hour. */
  function CalculateReminderTime(reminderType: string, now: int): (at: int)
    ensures at > now
    ensures ParseReminderType(reminderType).Some? ==>
      at == now + DelayMinutes(ParseReminderType(reminderType).value) * MinuteMs
    ensures ParseReminderType(reminderType).None? ==> at == now + HourMs
  {
    now + (if reminderType in TimeMap then TimeMap[reminderType] else TimeMap["1hour"])
  }

  // ---------------------------------------------------------------- the store

  datatype Store = Store(reminders: map<nat, Reminder>, emails: map<nat, EmailDoc>)

  /** Some pending reminder refers to the email. */
  predicate HasPendingFor(reminders: map<nat, Reminder>, emailId: nat) {
    exists id :: id in reminders && reminders[id].emailId == emailId && reminders[id].status == Pending
  }

  /** Every stored email that a pending reminder refers to is flagged as
      having a reminder. */
  predicate PendingFlagged(st: Store) {
    forall e :: e in st.emails && HasPendingFor(st.reminders, e) ==> st.emails[e].hasReminder
  }

  // ---------------------------------------------------------------- creating

  /** The fields a client may send when creating a reminder (absent is `None`);
      a custom time is the parsed date, `None` when it is missing. A custom
      time that does not parse is not represented. */
  datatype ReminderRequest = ReminderRequest(reminderTime: Option<int>, reminderType: Option<string>, notificationMethod: Option<string>)

  function TypeName(req: ReminderRequest): string {
    req.reminderType.GetOr("1hour")
  }

  function MethodName(req: ReminderRequest): string {
    req.notificationMethod.GetOr("email")
  }

  function ReminderTitle(e: EmailDoc): string {
    "Reminder: " + e.subject
  }

  function ReminderDescription(e: EmailDoc): string {
    "Don't forget to check this email from " + e.sender.name
  }

  const EmailNotFound: string := "Email not found"
  const ReminderNotFound: string := "Reminder not found"
  const NotPending: string := "Cannot update non-pending reminder"
  const ValidationFailed: string := "Reminder validation failed"

  /** The outcome of a successful change: the new store and the reminder. */
  datatype Changed = Changed(store: Store, id: nat, reminder: Reminder)

  /** What saving a new reminder for the email accepts. */
  predicate CreateAccepted(e: EmailDoc, req: ReminderRequest) {
    && ParseReminderType(TypeName(req)).Some?
    && ParseChannel(MethodName(req)).Some?
    && (TypeName(req) == "custom" ==> req.reminderTime.Some?)
    && JsLength(ReminderDescription(e)) <= MaxDescription
  }

  /** The change a successful creation makes: the new pending reminder under a
      fresh id, and the email flagged. */
  function Created(st: Store, userId: nat, emailId: nat, req: ReminderRequest, now: int): (c: Changed)
    requires emailId in st.emails && CreateAccepted(st.emails[emailId], req)
    ensures
      var e := st.emails[emailId];
      var rem := c.reminder;
      && c.id !in st.reminders
      && c.store.reminders == st.reminders[c.id := rem]
      && c.store.emails == st.emails[emailId := e.(hasReminder := true)]
      && ValidReminder(rem)
      && rem.userId == userId && rem.emailId == emailId
      && rem.status == Pending && rem.sentAt.None? && !rem.isRecurring && rem.recurringPattern.None?
      && ReminderTypeName(rem.reminderType) == TypeName(req)
      && ChannelName(rem.notificationMethod) == MethodName(req)
      && (rem.reminderType == Custom ==> rem.remindAt == req.reminderTime.value)
      && (rem.reminderType != Custom ==> rem.remindAt == now + DelayMinutes(rem.reminderType) * MinuteMs)
      && rem.title == "Reminder: " + e.subject
      && rem.metadata == ReminderMetadata(e.subject, e.sender.name, e.sender.email)
  {
    var e := st.emails[emailId];
    var typeName := TypeName(req);
    var remindAt := if typeName == "custom" then req.reminderTime.value else CalculateReminderTime(typeName, now);
    var rem := NewReminder(userId, emailId, ReminderTitle(e), ReminderDescription(e), remindAt,
                           ParseReminderType(typeName).value, ParseChannel(MethodName(req)).value,
                           ReminderMetadata(e.subject, e.sender.name, e.sender.email));
    var id := FreshKey(st.reminders.Keys);
    Changed(Store(st.reminders[id := rem], st.emails[emailId := e.(hasReminder := true)]), id, rem)
  }

  /** Creates a pending reminder for a stored email: the type defaults to one
      hour and the channel to email; a custom reminder fires at the client's
      time, any other one after the type's delay. The email is then flagged. */
  function CreateReminder(st: Store, userId: nat, emailId: nat, req: ReminderRequest, now: int): (r: Result<Changed>)
    ensures emailId !in st.emails ==> r == Err(EmailNotFound)
    ensures r.Ok? <==> emailId in st.emails && CreateAccepted(st.emails[emailId], req)
    ensures r.Err? ==> r.msg == EmailNotFound || r.msg == ValidationFailed
    ensures r.Ok? ==>
      var e := st.emails[emailId];
      var rem := r.value.reminder;
      && r.value.id !in st.reminders
      && r.value.store.reminders == st.reminders[r.value.id := rem]
      && r.value.store.emails == st.emails[emailId := e.(hasReminder := true)]
      && ValidReminder(rem)
      && rem.userId == userId && rem.emailId == emailId
      && rem.status == Pending && rem.sentAt.None? && !rem.isRecurring && rem.recurringPattern.None?
      && ReminderTypeName(rem.reminderType) == TypeName(req)
      && ChannelName(rem.notificationMethod) == MethodName(req)
      && (rem.reminderType == Custom ==> rem.remindAt == req.reminderTime.value)
      && (rem.reminderType != Custom ==> rem.remindAt == now + DelayMinutes(rem.reminderType) * MinuteMs)
      && rem.title == "Reminder: " + e.subject
      && rem.metadata == ReminderMetadata(e.subject, e.sender.name, e.sender.email)
  {
    if emailId !in st.emails then Err(EmailNotFound)
    else if !CreateAccepted(st.emails[emailId], req) then Err(ValidationFailed)
    else Ok(Created(st, userId, emailId, req, now))
  }

  /** The description bound counts UTF-16 code units: a sender name of 240
      characters outside the Basic Multilingual Plane gives a description of
      278 characters but at least 518 code units (exactly 518, the prefix
      being ASCII). */
  lemma AstralDescription(e: EmailDoc)
    requires |e.sender.name| == 240 && forall k :: 0 <= k < 240 ==> e.sender.name[k] == '\U{1F600}'
    ensures |ReminderDescription(e)| == 278
    ensures JsLength(ReminderDescription(e)) >= 518
  {
    var prefix := "Don't forget to check this email from ";
    GmailService.Utf16Append(prefix, e.sender.name);
    GmailService.Utf16OfAstral(e.sender.name);
    assert |GmailService.Utf16(prefix)| >= 38;
  }

  /** So creating a reminder for such an email fails validation. */
  lemma CreateRefusesLongAstralName(st: Store, userId: nat, emailId: nat, req: ReminderRequest, now: int)
    requires emailId in st.emails
    requires |st.emails[emailId].sender.name| == 240
    requires forall k :: 0 <= k < 240 ==> st.emails[emailId].sender.name[k] == '\U{1F600}'
    ensures CreateReminder(st, userId, emailId, req, now) == Err(ValidationFailed)
  {
    AstralDescription(st.emails[emailId]);
    assert !CreateAccepted(st.emails[emailId], req);
  }

  lemma CreateKeepsFlags(st: Store, userId: nat, emailId: nat, req: ReminderRequest, now: int)
    requires PendingFlagged(st)
    requires CreateReminder(st, userId, emailId, req, now).Ok?
    ensures PendingFlagged(CreateReminder(st, userId, emailId, req, now).value.store)
  {
    var c := CreateReminder(st, userId, emailId, req, now).value;
    forall e | e in c.store.emails && HasPendingFor(c.store.reminders, e) ensures c.store.emails[e].hasReminder {
      if e != emailId {
        var id :| id in c.store.reminders && c.store.reminders[id].emailId == e && c.store.reminders[id].status == Pending;
        assert id != c.id;
        assert HasPendingFor(st.reminders, e);
      }
    }
  }

  // ---------------------------------------------------------------- delivering

  /** The channels a notification method uses. */
  datatype Dispatch = Dispatch(email: bool, push: bool)

  /** Email goes out for "email" and "both", push for "push" and "both". */
  function Dispatches(c: Channel): (d: Dispatch)
    ensures d.email <==> ChannelName(c) == "email" || ChannelName(c) == "both"
    ensures d.push <==> ChannelName(c) == "push" || ChannelName(c) == "both"
    ensures d.email || d.push
  {
    match c
    case EmailChannel => Dispatch(true, false)
    case PushChannel => Dispatch(false, true)
    case BothChannels => Dispatch(true, true)
  }

  /** Sending a reminder fails exactly when it needs the email channel and the
      mail transport (`mailer`) fails; the push channel only logs. */
  function SendReminder(rem: Reminder, mailer: Reminder -> bool): (delivered: bool)
    ensures rem.notificationMethod == PushChannel ==> delivered
    ensures !delivered <==> Dispatches(rem.notificationMethod).email && !mailer(rem)
  {
    !(Dispatches(rem.notificationMethod).email && !mailer(rem))
  }

  /** The reminders the delivery run picks up: pending and due by `now`. */
  predicate Due(rem: Reminder, now: int) {
    rem.status == Pending && rem.remindAt <= now
  }

  /** One reminder after a delivery run: a due reminder that was delivered is
      marked sent at `now`; every other reminder is left as it was. */
  function Processed(rem: Reminder, now: int, mailer: Reminder -> bool): (r: Reminder)
    ensures r == rem.(status := r.status, sentAt := r.sentAt)
    ensures r != rem <==> Due(rem, now) && SendReminder(rem, mailer)
    ensures r != rem ==> r.status == Sent && r.sentAt == Some(now)
  {
    if Due(rem, now) && SendReminder(rem, mailer) then rem.(status := Sent, sentAt := Some(now)) else rem
  }

  /** The delivery run: each due reminder is sent on its own, in any order; a
      failed send leaves that reminder pending and the run goes on. */
  method ProcessDueReminders(reminders: map<nat, Reminder>, now: int, mailer: Reminder -> bool)
    returns (after: map<nat, Reminder>)
    ensures after.Keys == reminders.Keys
    ensures forall id :: id in reminders ==> after[id] == Processed(reminders[id], now, mailer)
  {
    var due := set id | id in reminders && Due(reminders[id], now);
    after := reminders;
    var todo := due;
    while todo != {}
      invariant todo <= due
      invariant after.Keys == reminders.Keys
      invariant forall id :: id in reminders && id !in todo ==> after[id] == Processed(reminders[id], now, mailer)
      invariant forall id :: id in todo ==> after[id] == reminders[id]
      decreases |todo|
    {
      var id :| id in todo;
      if SendReminder(after[id], mailer) {
        after := after[id := after[id].(status := Sent, sentAt := Some(now))];
      }
      todo := todo - {id};
    }
  }

  /** A second run at the same time changes nothing: what was delivered is no
      longer pending, and what failed fails again. */
  lemma ProcessIdempotent(rem: Reminder, now: int, mailer: Reminder -> bool)
    ensures Processed(Processed(rem, now, mailer), now, mailer) == Processed(rem, now, mailer)
  {
  }

  /** After a run, every reminder still due is one whose send failed. */
  lemma ProcessLeavesOnlyFailures(rem: Reminder, now: int, mailer: Reminder -> bool)
    ensures Due(Processed(rem, now, mailer), now) ==> !SendReminder(rem, mailer) && Processed(rem, now, mailer) == rem
  {
  }

  /** A delivery run only retires pending reminders, so the flags stay sound. */
  lemma ProcessKeepsFlags(st: Store, after: map<nat, Reminder>, now: int, mailer: Reminder -> bool)
    requires PendingFlagged(st)
    requires after.Keys == st.reminders.Keys
    requires forall id :: id in st.reminders ==> after[id] == Processed(st.reminders[id], now, mailer)
    ensures PendingFlagged(Store(after, st.emails))
  {
    forall e | e in st.emails && HasPendingFor(after, e) ensures st.emails[e].hasReminder {
      var id :| id in after && after[id].emailId == e && after[id].status == Pending;
      assert st.reminders[id].status == Pending;
      assert HasPendingFor(st.reminders, e);
    }
  }

  // ---------------------------------------------------------------- cancelling

  /** The reminder exists and belongs to the user. */
  predicate Owned(st: Store, id: nat, userId: nat) {
    id in st.reminders && st.reminders[id].userId == userId
  }

  /** Cancels the user's reminder, even one already sent. The email loses its
      flag only when no pending reminder of anyone still refers to it. */
  function CancelReminder(st: Store, id: nat, userId: nat): (r: Result<Changed>)
    ensures r.Err? <==> !Owned(st, id, userId)
    ensures r.Err? ==> r.msg == ReminderNotFound
    ensures r.Ok? ==>
      var before := st.reminders[id];
      var e := before.emailId;
      && r.value.id == id
      && r.value.reminder == before.(status := Cancelled)
      && r.value.store.reminders == st.reminders[id := before.(status := Cancelled)]
      && (e in st.emails && !HasPendingFor(r.value.store.reminders, e) ==>
            r.value.store.emails == st.emails[e := st.emails[e].(hasReminder := false)])
      && (e !in st.emails || HasPendingFor(r.value.store.reminders, e) ==> r.value.store.emails == st.emails)
  {
    if !Owned(st, id, userId) then Err(ReminderNotFound)
    else
      var rem := st.reminders[id].(status := Cancelled);
      var reminders := st.reminders[id := rem];
      var e := rem.emailId;
      var emails :=
        if e in st.emails && !HasPendingFor(reminders, e) then st.emails[e := st.emails[e].(hasReminder := false)]
        else st.emails;
      Ok(Changed(Store(reminders, emails), id, rem))
  }

  lemma CancelKeepsFlags(st: Store, id: nat, userId: nat)
    requires PendingFlagged(st)
    requires CancelReminder(st, id, userId).Ok?
    ensures PendingFlagged(CancelReminder(st, id, userId).value.store)
  {
    var after := CancelReminder(st, id, userId).value.store;
    forall e | e in after.emails && HasPendingFor(after.reminders, e) ensures after.emails[e].hasReminder {
      var k :| k in after.reminders && after.reminders[k].emailId == e && after.reminders[k].status == Pending;
      assert k != id;
      assert HasPendingFor(st.reminders, e);
    }
  }

  // ---------------------------------------------------------------- updating

  /** The fields a client may overwrite (absent is `None`); enumeration values
      arrive as strings and are checked when the reminder is saved. */
  datatype ReminderPatch = ReminderPatch(
    title: Option<string>,
    description: Option<string>,
    remindAt: Option<int>,
    reminderType: Option<string>,
    status: Option<string>,
    notificationMethod: Option<string>,
    isRecurring: Option<bool>)

  const EmptyPatch: ReminderPatch := ReminderPatch(None, None, None, None, None, None, None)

  /** Every enumeration value supplied is a member of its enumeration. */
  predicate PatchNamesValid(p: ReminderPatch) {
    && (p.reminderType.None? || ParseReminderType(p.reminderType.value).Some?)
    && (p.status.None? || ParseStatus(p.status.value).Some?)
    && (p.notificationMethod.None? || ParseChannel(p.notificationMethod.value).Some?)
  }

  /** The reminder with the supplied fields overwritten. */
  function Apply(rem: Reminder, p: ReminderPatch): (r: Reminder)
    requires PatchNamesValid(p)
    ensures r.title == p.title.GetOr(rem.title) && r.description == p.description.GetOr(rem.description)
    ensures r.remindAt == p.remindAt.GetOr(rem.remindAt) && r.isRecurring == p.isRecurring.GetOr(rem.isRecurring)
    ensures ReminderTypeName(r.reminderType) == p.reminderType.GetOr(ReminderTypeName(rem.reminderType))
    ensures StatusName(r.status) == p.status.GetOr(StatusName(rem.status))
    ensures ChannelName(r.notificationMethod) == p.notificationMethod.GetOr(ChannelName(rem.notificationMethod))
    ensures r.userId == rem.userId && r.emailId == rem.emailId && r.sentAt == rem.sentAt
    ensures r.recurringPattern == rem.recurringPattern && r.metadata == rem.metadata
  {
    rem.(
      title := p.title.GetOr(rem.title),
      description := p.description.GetOr(rem.description),
      remindAt := p.remindAt.GetOr(rem.remindAt),
      reminderType := if p.reminderType.Some? then ParseReminderType(p.reminderType.value).value else rem.reminderType,
      status := if p.status.Some? then ParseStatus(p.status.value).value else rem.status,
      notificationMethod := if p.notificationMethod.Some? then ParseChannel(p.notificationMethod.value).value else rem.notificationMethod,
      isRecurring := p.isRecurring.GetOr(rem.isRecurring))
  }

  /** Overwrites the supplied fields of the user's pending reminder; a reminder
      that is sent or cancelled cannot be changed, and the result must still
      pass validation. */
  function UpdateReminder(st: Store, id: nat, userId: nat, p: ReminderPatch): (r: Result<Changed>)
    ensures !Owned(st, id, userId) ==> r == Err(ReminderNotFound)
    ensures Owned(st, id, userId) && st.reminders[id].status != Pending ==> r == Err(NotPending)
    ensures r.Ok? <==>
      Owned(st, id, userId) && st.reminders[id].status == Pending && PatchNamesValid(p) &&
      ValidReminder(Apply(st.reminders[id], p))
    ensures r.Ok? ==>
      && r.value.id == id
      && r.value.reminder == Apply(st.reminders[id], p)
      && ValidReminder(r.value.reminder)
      && r.value.store == Store(st.reminders[id := r.value.reminder], st.emails)
  {
    if !Owned(st, id, userId) then Err(ReminderNotFound)
    else if st.reminders[id].status != Pending then Err(NotPending)
    else if !PatchNamesValid(p) then Err(ValidationFailed)
    else
      var rem := Apply(st.reminders[id], p);
      if !ValidReminder(rem) then Err(ValidationFailed)
      else Ok(Changed(Store(st.reminders[id := rem], st.emails), id, rem))
  }

  /** An empty update of a valid pending reminder changes nothing. */
  lemma EmptyUpdateIsIdentity(st: Store, id: nat, userId: nat)
    requires Owned(st, id, userId) && st.reminders[id].status == Pending && ValidReminder(st.reminders[id])
    ensures UpdateReminder(st, id, userId, EmptyPatch) == Ok(Changed(st, id, st.reminders[id]))
  {
    assert Apply(st.reminders[id], EmptyPatch) == st.reminders[id];
    assert st.reminders[id := st.reminders[id]] == st.reminders;
  }

  /** An update that keeps the reminder pending keeps the flags sound. */
  lemma UpdateKeepsFlags(st: Store, id: nat, userId: nat, p: ReminderPatch)
    requires PendingFlagged(st)
    requires UpdateReminder(st, id, userId, p).Ok?
    ensures PendingFlagged(UpdateReminder(st, id, userId, p).value.store)
  {
    var after := UpdateReminder(st, id, userId, p).value.store;
    forall e | e in after.emails && HasPendingFor(after.reminders, e) ensures after.emails[e].hasReminder {
      var k :| k in after.reminders && after.reminders[k].emailId == e && after.reminders[k].status == Pending;
      assert st.reminders[k].emailId == e && st.reminders[k].status == Pending;
      assert HasPendingFor(st.reminders, e);
    }
  }

  // ---------------------------------------------------------------- listing

  /** A status filter: "all" keeps every status, any other value keeps the
      reminders whose status has that name. */
  predicate StatusMatches(rem: Reminder, status: string) {
    status == "all" || StatusName(rem.status) == status
  }

  /** The user's reminders that pass the status filter. */
  function Matching(reminders: map<nat, Reminder>, userId: nat, status: string): (m: map<nat, Reminder>)
    ensures forall id :: id in m <==> id in reminders && reminders[id].userId == userId && StatusMatches(reminders[id], status)
    ensures forall id :: id in m ==> m[id] == reminders[id]
  {
    map id | id in reminders && reminders[id].userId == userId && StatusMatches(reminders[id], status) :: reminders[id]
  }

  function RemindAtKey(e: Entry<Reminder>): real {
    e.doc.remindAt as real
  }

  /** The matching reminders, latest `remindAt` first; equal times keep id order. */
  function Newest(m: map<nat, Reminder>): (es: seq<Entry<Reminder>>)
    ensures |es| == |m.Keys|
    ensures Stored(es, m)
    ensures forall id :: id in m ==> Listed(es, id)
    ensures forall a, b :: 0 <= a < b < |es| ==> es[a].doc.remindAt >= es[b].doc.remindAt
  {
    var es := Entries(m);
    var sorted := SortByKeyDesc(es, RemindAtKey);
    Rearranged(es, sorted, m);
    sorted
  }

  /** `ceil(total / limit)` for a non-zero limit, negative limits included. */
  function CeilDiv(total: nat, limit: int): (q: int)
    requires limit != 0
    ensures limit > 0 ==> (q - 1) * limit < total <= q * limit
    ensures limit < 0 ==> q * limit <= total < (q - 1) * limit
  {
    if limit > 0 then
      var q := (total + limit - 1) / limit;
      assert total + limit - 1 == q * limit + (total + limit - 1) % limit;
      q
    else
      var d := total / -limit;
      assert total == d * -limit + total % -limit;
      assert (-d) * limit == d * -limit;
      assert (-d - 1) * limit == d * -limit + -limit;
      -d
  }

  /** The number of pages; a limit of 0 means no limit and an unbounded page count. */
  function TotalPages(total: nat, limit: int): Option<int> {
    if limit == 0 then None else Some(CeilDiv(total, limit))
  }

  datatype Listing = Listing(reminders: seq<Entry<Reminder>>, total: nat, page: int, totalPages: Option<int>)

  /** The offset of a page: `(page - 1) * limit`. */
  function Skip(limit: int, page: int): int {
    (page - 1) * limit
  }

  /** How many entries a limit admits out of `n`: 0 means all, a negative
      limit counts as its absolute value. */
  function Take(limit: int, n: nat): (k: nat)
    ensures k <= n
    ensures limit != 0 ==> k <= if limit < 0 then -limit else limit
    ensures limit == 0 ==> k == n
  {
    var l := if limit < 0 then -limit else limit;
    if limit == 0 || l > n then n else l
  }

  /** The entries from position `skip` on, as many as the limit admits. */
  function Window(es: seq<Entry<Reminder>>, skip: nat, limit: int): (w: seq<Entry<Reminder>>)
    ensures skip <= |es| ==> |w| == Take(limit, |es| - skip)
    ensures skip >= |es| ==> w == []
    ensures forall k :: 0 <= k < |w| ==> skip + k < |es| && w[k] == es[skip + k]
  {
    if skip >= |es| then [] else es[skip..skip + Take(limit, |es| - skip)]
  }

  /** A window of a stored, latest-first list is stored and latest-first. */
  lemma WindowKeeps(es: seq<Entry<Reminder>>, m: map<nat, Reminder>, skip: nat, limit: int)
    requires Stored(es, m)
    requires forall a, b :: 0 <= a < b < |es| ==> es[a].doc.remindAt >= es[b].doc.remindAt
    ensures Stored(Window(es, skip, limit), m)
    ensures forall a, b :: 0 <= a < b < |Window(es, skip, limit)| ==>
      Window(es, skip, limit)[a].doc.remindAt >= Window(es, skip, limit)[b].doc.remindAt
  {
    var w := Window(es, skip, limit);
    forall k | 0 <= k < |w| ensures w[k].id in m && m[w[k].id] == w[k].doc {
      assert w[k] == es[skip + k];
    }
    forall a, b | 0 <= a < b < |w| ensures w[a].doc.remindAt >= w[b].doc.remindAt {
      assert w[a] == es[skip + a] && w[b] == es[skip + b];
    }
  }

  /** One page of the user's reminders, latest first: status, limit and page
      default to "all", 50 and 1, the page starts after `(page - 1) * limit`
      reminders, and a negative offset is refused. */
  function GetUserReminders(reminders: map<nat, Reminder>, userId: nat, status: Option<string>, limit: Option<int>, page: Option<int>)
    : (r: Result<Listing>)
    ensures r.Err? <==> Skip(limit.GetOr(50), page.GetOr(1)) < 0
    ensures r.Ok? ==>
      var m := Matching(reminders, userId, status.GetOr("all"));
      var l := limit.GetOr(50);
      var rs := r.value.reminders;
      && r.value.total == |m.Keys|
      && r.value.page == page.GetOr(1)
      && r.value.totalPages == TotalPages(r.value.total, l)
      && Stored(rs, m)
      && (forall a, b :: 0 <= a < b < |rs| ==> rs[a].doc.remindAt >= rs[b].doc.remindAt)
      && (l != 0 ==> |rs| <= if l < 0 then -l else l)
      && (l == 0 ==> |rs| == r.value.total)
      && rs == Window(Newest(m), Skip(l, page.GetOr(1)), l)
  {
    var l := limit.GetOr(50);
    var p := page.GetOr(1);
    var skip := Skip(l, p);
    if skip < 0 then Err("skip value must be non-negative")
    else
      var m := Matching(reminders, userId, status.GetOr("all"));
      var sorted := Newest(m);
      WindowKeeps(sorted, m, skip, l);
      Ok(Listing(Window(sorted, skip, l), |m.Keys|, p, TotalPages(|m.Keys|, l)))
  }

  lemma MulLe(a: int, b: int, c: int)
    requires a <= b && c > 0
    ensures a * c <= b * c
  {
  }

  /** With a positive limit, page `page >= 1` of a list is non-empty exactly
      when its number is at most the page count. */
  lemma PageWithinCount(es: seq<Entry<Reminder>>, limit: int, page: int)
    requires limit > 0 && page >= 1
    ensures Skip(limit, page) >= 0
    ensures Window(es, Skip(limit, page), limit) != [] <==> page <= CeilDiv(|es|, limit)
  {
    MulLe(0, page - 1, limit);
    var q := CeilDiv(|es|, limit);
    var skip := Skip(limit, page);
    if page <= q {
      MulLe(page - 1, q - 1, limit);
      assert skip < |es|;
    } else {
      MulLe(q, page - 1, limit);
      assert skip >= |es|;
    }
  }
}

=== FILE: schemas.dfy ===
/** The stored documents of the backend: the email and reminder schemas with
    their enumerations, defaults and validation bounds. */
module Schemas {
  import opened Wrappers
  import opened Taxonomy
  import opened FilterService
  import opened GmailService

  // ---------------------------------------------------------------- reminder enums

  datatype ReminderType = ThirtyMinutes | OneHour | ThreeHours | OneDay | ThreeDays | OneWeek | Custom

  /** The `reminderType` enumeration, in schema order. */
  const ReminderTypeNames: seq<string> := ["30min", "1hour", "3hours", "1day", "3days", "1week", "custom"]

  function ReminderTypeName(t: ReminderType): (s: string)
    ensures s in ReminderTypeNames
  {
    match t
    case ThirtyMinutes => "30min"
    case OneHour => "1hour"
    case ThreeHours => "3hours"
    case OneDay => "1day"
    case ThreeDays => "3days"
    case OneWeek => "1week"
    case Custom => "custom"
  }

  /** Enum validation: exactly the seven names are accepted, each as its own value. */
  function ParseReminderType(s: string): (r: Option<ReminderType>)
    ensures r.Some? <==> s in ReminderTypeNames
    ensures r.Some? ==> ReminderTypeName(r.value) == s
  {
    if s == "30min" then Some(ThirtyMinutes)
    else if s == "1hour" then Some(OneHour)
    else if s == "3hours" then Some(ThreeHours)
    else if s == "1day" then Some(OneDay)
    else if s == "3days" then Some(ThreeDays)
    else if s == "1week" then Some(OneWeek)
    else if s == "custom" then Some(Custom)
    else None
  }

  lemma ReminderTypeRoundTrip(t: ReminderType)
    ensures ParseReminderType(ReminderTypeName(t)) == Some(t)
  {
  }

  datatype Status = Pending | Sent | Cancelled

  function StatusName(s: Status): string {
    match s
    case Pending => "pending"
    case Sent => "sent"
    case Cancelled => "cancelled"
  }

  function ParseStatus(s: string): (r: Option<Status>)
    ensures r.Some? <==> s in ["pending", "sent", "cancelled"]
    ensures r.Some? ==> StatusName(r.value) == s
  {
    if s == "pending" then Some(Pending)
    else if s == "sent" then Some(Sent)
    else if s == "cancelled" then Some(Cancelled)
    else None
  }

  /** The notification channels of a reminder. */
  datatype Channel = EmailChannel | PushChannel | BothChannels

  function ChannelName(c: Channel): string {
    match c
    case EmailChannel => "email"
    case PushChannel => "push"
    case BothChannels => "both"
  }

  function ParseChannel(s: string): (r: Option<Channel>)
    ensures r.Some? <==> s in ["email", "push", "both"]
    ensures r.Some? ==> ChannelName(r.value) == s
  {
    if s == "email" then Some(EmailChannel)
    else if s == "push" then Some(PushChannel)
    else if s == "both" then Some(BothChannels)
    else None
  }

  datatype Recurrence = Daily | Weekly | Monthly

  // ---------------------------------------------------------------- reminders

  datatype ReminderMetadata = ReminderMetadata(originalEmailSubject: string, senderName: string, senderEmail: string)

  /** A reminder document; times are milliseconds since the epoch. */
  datatype Reminder = Reminder(
    userId: nat,
    emailId: nat,
    title: string,
    description: string,
    remindAt: int,
    reminderType: ReminderType,
    status: Status,
    notificationMethod: Channel,
    isRecurring: bool,
    recurringPattern: Option<Recurrence>,
    sentAt: Option<int>,
    metadata: ReminderMetadata)

  const MaxDescription: nat := 500

  /** A JavaScript string's `length`, which `maxlength` compares: its UTF-16
      code units, so a character outside the Basic Multilingual Plane counts twice. */
  function JsLength(s: string): (n: nat)
    ensures |s| <= n <= 2 * |s|
  {
    |Utf16(s)|
  }

  /** What saving checks beyond the types: a non-empty title (a required string)
      and a description of at most 500 UTF-16 code units. */
  predicate ValidReminder(r: Reminder) {
    |r.title| > 0 && JsLength(r.description) <= MaxDescription
  }

  /** A new reminder with the schema defaults for the fields not given. */
  function NewReminder(userId: nat, emailId: nat, title: string, description: string, remindAt: int,
                       reminderType: ReminderType, channel: Channel, metadata: ReminderMetadata): (r: Reminder)
    ensures r.status == Pending && !r.isRecurring && r.recurringPattern.None? && r.sentAt.None?
    ensures r.userId == userId && r.emailId == emailId && r.remindAt == remindAt
    ensures r.reminderType == reminderType && r.notificationMethod == channel
    ensures r.title == title && r.description == description && r.metadata == metadata
  {
    Reminder(userId, emailId, title, description, remindAt, reminderType, Pending, channel, false, None, None, metadata)
  }

  // ---------------------------------------------------------------- emails

  /** The tag categories the email schema accepts: the six keyword categories and "other". */
  const TagCategories: seq<string> := KeywordCategories + [Other]

  /** A stored tag: a non-empty label, an accepted category, a confidence in [0, 1]. */
  predicate ValidTag(t: Tag) {
    |t.title| > 0 && t.category in TagCategories && 0.0 <= t.confidence <= 1.0
  }

  const DefaultConfidence: real := 0.5
  const MaxSnippet: nat := 500

  datatype StoredPrediction = StoredPrediction(isImportant: bool, confidence: real, categories: seq<MlCategory>)

  /** An email document. */
  datatype EmailDoc = EmailDoc(
    userId: nat,
    gmailId: string,
    threadId: string,
    subject: string,
    sender: Sender,
    snippet: string,
    date: int,
    isRead: bool,
    isImportant: bool,
    priority: Priority,
    tags: seq<Tag>,
    mlPrediction: StoredPrediction,
    labels: seq<string>,
    hasReminder: bool)

  /** What saving checks: the required strings are non-empty, the snippet has
      at most 500 UTF-16 code units, every tag is valid and the ML confidence is in [0, 1]. */
  predicate ValidEmail(e: EmailDoc) {
    && |e.gmailId| > 0 && |e.threadId| > 0 && |e.subject| > 0
    && |e.sender.name| > 0 && |e.sender.email| > 0
    && JsLength(e.snippet) <= MaxSnippet
    && (forall k :: 0 <= k < |e.tags| ==> ValidTag(e.tags[k]))
    && 0.0 <= e.mlPrediction.confidence <= 1.0
  }

  /** A new email document: unread, not important, medium priority, no tags,
      the default ML prediction and no reminder. */
  function NewEmail(userId: nat, gmailId: string, threadId: string, subject: string, sender: Sender, snippet: string, date: int): (e: EmailDoc)
    ensures !e.isRead && !e.isImportant && !e.hasReminder
    ensures e.priority == Medium && e.tags == [] && e.labels == []
    ensures e.mlPrediction == StoredPrediction(false, DefaultConfidence, [])
    ensures e.subject == subject && e.sender == sender && e.snippet == snippet && e.date == date
    ensures |gmailId| > 0 && |threadId| > 0 && |subject| > 0 && |sender.name| > 0 && |sender.email| > 0 && JsLength(snippet) <= MaxSnippet ==>
      ValidEmail(e)
  {
    EmailDoc(userId, gmailId, threadId, subject, sender, snippet, date, false, false, Medium, [], StoredPrediction(false, DefaultConfidence, []), [], false)
  }

  /** The bound counts code units, not characters: 251 characters outside the
      Basic Multilingual Plane are 502 code units, so such a snippet is refused. */
  lemma AstralSnippetRejected(e: EmailDoc)
    requires |e.snippet| == 251 && forall k :: 0 <= k < |e.snippet| ==> e.snippet[k] == '\U{1F600}'
    ensures |e.snippet| <= MaxSnippet && JsLength(e.snippet) == 502
    ensures !ValidEmail(e)
  {
    Utf16OfAstral(e.snippet);
  }

  /** The keyword filter only produces tags the email schema accepts: each
      tag's category is a keyword category, its label the non-empty display
      label and its confidence `min(0.3 k, 1)` in (0, 1]. */
  lemma KeywordTagsValid(table: seq<KeywordList>, nearDate: string -> bool, text: string)
    requires forall i :: 0 <= i < |table| ==> table[i].category in KeywordCategories
    ensures forall k :: 0 <= k < |ApplyKeywordFiltering(table, nearDate, text).tags| ==>
      ValidTag(ApplyKeywordFiltering(table, nearDate, text).tags[k])
  {
    var tags := ApplyKeywordFiltering(table, nearDate, text).tags;
    forall k | 0 <= k < |tags| ensures ValidTag(tags[k]) {
      assert FromTable(table, text, tags[k]);
      var i :| 0 <= i < |table| && TagOf(table[i], text) == Some(tags[k]);
      assert tags[k].category in KeywordCategories;
    }
  }
}

=== FILE: selection.dfy ===
/** "First maximum" selection, shared by three places of the source:
    the weak labeller's `max(scores.items(), key=...)`, the trainer's model
    selection loop (`if avg_score > best_score`) and `np.argmax`.
    All three scan left to right and replace the incumbent only on a strictly
    greater value, so the earliest of several equal maxima wins. */
module Selection {
  import opened Wrappers

  /** The incumbent after scanning `xs[..i]`, starting from no candidate and `floor`. */
  ghost predicate Incumbent(xs: seq<real>, i: nat, floor: real, best: Option<nat>, bestScore: real) {
    && i <= |xs|
    && (best.None? ==> bestScore == floor && forall j :: 0 <= j < i ==> xs[j] <= floor)
    && (best.Some? ==>
          && best.value < i
          && bestScore == xs[best.value] > floor
          && (forall j :: 0 <= j < i ==> xs[j] <= xs[best.value])
          && (forall j :: 0 <= j < best.value ==> xs[j] < xs[best.value]))
  }

  /** The selection loop from position `i` on. */
  function SelectFrom(xs: seq<real>, i: nat, floor: real, best: Option<nat>, bestScore: real): (r: Option<nat>)
    requires Incumbent(xs, i, floor, best, bestScore)
    ensures r.Some? ==> r.value < |xs|
    ensures Incumbent(xs, |xs|, floor, r, if r.Some? then xs[r.value] else floor)
    decreases |xs| - i
  {
    if i == |xs| then best
    else if xs[i] > bestScore then SelectFrom(xs, i + 1, floor, Some(i), xs[i])
    else SelectFrom(xs, i + 1, floor, best, bestScore)
  }

  /** The first position holding the maximum of `xs`, provided that maximum exceeds
      `floor`; `None` when no value exceeds `floor`. */
  function SelectAbove(xs: seq<real>, floor: real): (r: Option<nat>)
    ensures r.None? <==> forall j :: 0 <= j < |xs| ==> xs[j] <= floor
    ensures r.Some? ==> r.value < |xs| && xs[r.value] > floor
    ensures r.Some? ==> forall j :: 0 <= j < |xs| ==> xs[j] <= xs[r.value]
    ensures r.Some? ==> forall j :: 0 <= j < r.value ==> xs[j] < xs[r.value]
  {
    SelectFrom(xs, 0, floor, None, floor)
  }

  /** `np.argmax`: the first position of the maximum of a non-empty sequence. */
  function ArgMax(xs: seq<real>): (k: nat)
    requires |xs| > 0
    ensures k < |xs|
    ensures forall j :: 0 <= j < |xs| ==> xs[j] <= xs[k]
    ensures forall j :: 0 <= j < k ==> xs[j] < xs[k]
  {
    var floor := xs[0] - 1.0;
    assert Incumbent(xs, 1, floor, Some(0), xs[0]);
    SelectFrom(xs, 1, floor, Some(0), xs[0]).value
  }
}

=== FILE: seqs.dfy ===
/** Sub-lists and order-keeping filters (`array.filter`, list comprehensions
    with a condition), shared by the text pipeline, the filter panel and the
    dashboard. */
module Seqs {

  /** `r` is `s` with some elements left out, order kept. */
  predicate Subsequence<T(==)>(r: seq<T>, s: seq<T>)
    decreases |s|
  {
    if |r| == 0 then true
    else if |s| == 0 then false
    else if r[|r| - 1] == s[|s| - 1] then Subsequence(r[..|r| - 1], s[..|s| - 1])
    else Subsequence(r, s[..|s| - 1])
  }

  lemma {:induction false} SubsequenceMembers<T>(r: seq<T>, s: seq<T>)
    requires Subsequence(r, s)
    ensures forall i :: 0 <= i < |r| ==> r[i] in s
    decreases |s|
  {
    if |r| > 0 {
      if r[|r| - 1] == s[|s| - 1] {
        SubsequenceMembers(r[..|r| - 1], s[..|s| - 1]);
        forall i | 0 <= i < |r| ensures r[i] in s {
          if i < |r| - 1 {
            assert r[i] == r[..|r| - 1][i];
            var j :| 0 <= j < |s| - 1 && s[..|s| - 1][j] == r[i];
            assert s[j] == r[i];
          }
        }
      } else {
        SubsequenceMembers(r, s[..|s| - 1]);
        forall i | 0 <= i < |r| ensures r[i] in s {
          var j :| 0 <= j < |s| - 1 && s[..|s| - 1][j] == r[i];
          assert s[j] == r[i];
        }
      }
    }
  }

  /** Leaving elements out twice is leaving elements out once. */
  lemma {:induction false} SubsequenceTrans<T>(a: seq<T>, b: seq<T>, c: seq<T>)
    requires Subsequence(a, b) && Subsequence(b, c)
    ensures Subsequence(a, c)
    decreases |c|
  {
    if |a| > 0 && |b| > 0 && |c| > 0 {
      var a', b', c' := a[..|a| - 1], b[..|b| - 1], c[..|c| - 1];
      if b[|b| - 1] == c[|c| - 1] {
        if a[|a| - 1] == b[|b| - 1] {
          SubsequenceTrans(a', b', c');
        } else {
          SubsequenceTrans(a, b', c');
        }
      } else {
        SubsequenceTrans(a, b, c');
        SubsequenceInit(a, c');
      }
    }
  }

  lemma {:induction false} SubsequenceRefl<T>(s: seq<T>)
    ensures Subsequence(s, s)
    decreases |s|
  {
    if |s| > 0 {
      SubsequenceRefl(s[..|s| - 1]);
    }
  }

  /** Dropping the last kept element keeps a subsequence. */
  lemma {:induction false} SubsequenceInit<T>(r: seq<T>, s: seq<T>)
    requires Subsequence(r, s) && |r| > 0
    ensures Subsequence(r[..|r| - 1], s)
    decreases |s|
  {
    var r' := r[..|r| - 1];
    if |r'| > 0 {
      if r[|r| - 1] == s[|s| - 1] {
        if r'[|r'| - 1] == s[|s| - 1] {
          SubsequenceInit(r', s[..|s| - 1]);
        }
      } else {
        SubsequenceInit(r, s[..|s| - 1]);
        if r'[|r'| - 1] == s[|s| - 1] {
          SubsequenceInit(r', s[..|s| - 1]);
        }
      }
    }
  }

  /** The number of positions of `s` whose element satisfies `p`. */
  function Satisfying<T>(s: seq<T>, p: T -> bool): (n: nat)
    ensures n <= |s|
  {
    if |s| == 0 then 0
    else Satisfying(s[..|s| - 1], p) + (if p(s[|s| - 1]) then 1 else 0)
  }

  /** The elements of `s` satisfying `p`, in order. Being a sub-list of `s`
      made of satisfying elements and as long as the number of satisfying
      positions, it keeps every one of them, repeats included, and nothing else. */
  function Where<T(==)>(s: seq<T>, p: T -> bool): (r: seq<T>)
    ensures |r| == Satisfying(s, p) <= |s|
    ensures Subsequence(r, s)
    ensures forall i :: 0 <= i < |r| ==> p(r[i])
    ensures forall i :: 0 <= i < |s| && p(s[i]) ==> s[i] in r
    ensures (forall i :: 0 <= i < |s| ==> p(s[i])) ==> r == s
  {
    if |s| == 0 then []
    else
      var init := Where(s[..|s| - 1], p);
      var x := s[|s| - 1];
      assert s[..|s| - 1] + [x] == s;
      if p(x) then
        var r := init + [x];
        assert r[..|r| - 1] == init;
        forall i | 0 <= i < |s| - 1 && p(s[i]) ensures s[i] in r {
          assert s[i] == s[..|s| - 1][i];
        }
        r
      else
        assert |init| > 0 ==> p(init[|init| - 1]);
        forall i | 0 <= i < |s| - 1 && p(s[i]) ensures s[i] in init {
          assert s[i] == s[..|s| - 1][i];
        }
        init
  }

  lemma WhereSnoc<T>(s: seq<T>, x: T, p: T -> bool)
    ensures Where(s + [x], p) == Where(s, p) + (if p(x) then [x] else [])
  {
    assert (s + [x])[..|s|] == s;
  }

  lemma {:induction false} WhereCons<T>(x: T, s: seq<T>, p: T -> bool)
    ensures Where([x] + s, p) == (if p(x) then [x] else []) + Where(s, p)
    decreases |s|
  {
    if |s| == 0 {
      assert [x] + s == [] + [x];
      WhereSnoc([], x, p);
    } else {
      var init, y := s[..|s| - 1], s[|s| - 1];
      assert [x] + s == ([x] + init) + [y];
      assert s == init + [y];
      WhereSnoc([x] + init, y, p);
      WhereCons(x, init, p);
      WhereSnoc(init, y, p);
    }
  }

  /** Two conditions that agree on the list keep the same elements. */
  lemma {:induction false} WhereSame<T>(s: seq<T>, p: T -> bool, q: T -> bool)
    requires forall i :: 0 <= i < |s| ==> p(s[i]) == q(s[i])
    ensures Where(s, p) == Where(s, q)
    decreases |s|
  {
    if |s| > 0 {
      WhereSame(s[..|s| - 1], p, q);
    }
  }
}

=== FILE: sorting.dfy ===
/** Stable descending sort by a real-valued key.
    Python's `list.sort` and JavaScript's `Array.prototype.sort` are both stable,
    so the sorted order is fully determined: larger keys first, and among equal
    keys the earlier input position first. The sort is computed on positions
    (a permutation of `0..|s|-1`), which lets stability be stated directly. */
module Sorting {

  /** Position `a` comes before position `b` in the stable descending order. */
  predicate Precedes<T>(s: seq<T>, key: T -> real, a: int, b: int)
    requires 0 <= a < |s| && 0 <= b < |s|
  {
    key(s[a]) > key(s[b]) || (key(s[a]) == key(s[b]) && a < b)
  }

  /** `p` lists positions of `s`, each before every later one. */
  predicate SortedPositions<T>(s: seq<T>, key: T -> real, p: seq<nat>) {
    && (forall i :: 0 <= i < |p| ==> p[i] < |s|)
    && (forall i, j :: 0 <= i < j < |p| ==> p[i] < |s| && p[j] < |s| && Precedes(s, key, p[i], p[j]))
  }

  /** `p` is a permutation of the positions `lo..|s|-1`. */
  predicate CoversFrom<T>(s: seq<T>, p: seq<nat>, lo: nat) {
    && |p| == |s| - lo
    && (forall i :: 0 <= i < |p| ==> lo <= p[i])
    && (forall k :: lo <= k < |s| ==> k in p)
  }

  /** Inserts position `x`, smaller than every position in `q`, into its place. */
  function Insert<T>(s: seq<T>, key: T -> real, x: nat, q: seq<nat>): (r: seq<nat>)
    requires x < |s|
    requires SortedPositions(s, key, q)
    requires forall i :: 0 <= i < |q| ==> x < q[i]
    ensures SortedPositions(s, key, r)
    ensures |r| == |q| + 1
    ensures forall y :: y in r <==> y == x || y in q
  {
    if |q| == 0 then [x]
    else if key(s[q[0]]) <= key(s[x]) then
      assert forall j :: 0 <= j < |q| ==> key(s[q[j]]) <= key(s[q[0]]) by {
        forall j | 0 < j < |q| ensures key(s[q[j]]) <= key(s[q[0]]) {
          assert Precedes(s, key, q[0], q[j]);
        }
      }
      [x] + q
    else
      var rest := Insert(s, key, x, q[1..]);
      assert forall y :: y in q[1..] ==> Precedes(s, key, q[0], y) by {
        forall y | y in q[1..] ensures Precedes(s, key, q[0], y) {
          var j :| 0 <= j < |q[1..]| && q[1..][j] == y;
          assert q[j + 1] == y;
        }
      }
      [q[0]] + rest
  }

  /** Stable descending order of the positions `lo..|s|-1`. */
  function SortFrom<T>(s: seq<T>, key: T -> real, lo: nat): (p: seq<nat>)
    requires lo <= |s|
    ensures SortedPositions(s, key, p)
    ensures CoversFrom(s, p, lo)
    decreases |s| - lo
  {
    if lo == |s| then []
    else
      var q := SortFrom(s, key, lo + 1);
      var r := Insert(s, key, lo, q);
      assert forall k :: lo <= k < |s| ==> k in r by {
        forall k | lo <= k < |s| ensures k in r {
          if k > lo {
            assert k in q;
          }
        }
      }
      assert forall i :: 0 <= i < |r| ==> lo <= r[i] by {
        forall i | 0 <= i < |r| ensures lo <= r[i] {
          assert r[i] in r;
        }
      }
      r
  }

  /** The stable descending order of all positions of `s`: a permutation of
      `0..|s|-1` whose keys never increase, equal keys keeping input order. */
  function Order<T>(s: seq<T>, key: T -> real): (p: seq<nat>)
    ensures |p| == |s|
    ensures forall i :: 0 <= i < |p| ==> p[i] < |s|
    ensures forall k :: 0 <= k < |s| ==> k in p
    ensures forall i, j :: 0 <= i < j < |p| ==> p[i] != p[j]
    ensures forall i, j :: 0 <= i < j < |p| ==> key(s[p[i]]) >= key(s[p[j]])
    ensures forall i, j :: 0 <= i < j < |p| && key(s[p[i]]) == key(s[p[j]]) ==> p[i] < p[j]
  {
    var p := SortFrom(s, key, 0);
    assert forall i, j :: 0 <= i < j < |p| ==> Precedes(s, key, p[i], p[j]);
    p
  }

  /** `s` rearranged into stable descending key order. */
  function SortByKeyDesc<T>(s: seq<T>, key: T -> real): (r: seq<T>)
    ensures |r| == |s|
    ensures forall i :: 0 <= i < |r| ==> r[i] == s[Order(s, key)[i]]
    ensures forall i :: 0 <= i < |r| ==> r[i] in s
    ensures forall k :: 0 <= k < |s| ==> s[k] in r
    ensures forall i, j :: 0 <= i < j < |r| ==> key(r[i]) >= key(r[j])
  {
    var p := Order(s, key);
    var r := seq(|p|, i requires 0 <= i < |p| => s[p[i]]);
    assert forall k :: 0 <= k < |s| ==> s[k] in r by {
      forall k | 0 <= k < |s| ensures s[k] in r {
        assert k in p;
        var i :| 0 <= i < |p| && p[i] == k;
        assert r[i] == s[k];
      }
    }
    r
  }

  /** The first `n` elements of the stable descending order: the `n` largest
      keys, ties going to the earlier input position. */
  function TakeTop<T>(s: seq<T>, key: T -> real, n: nat): (top: seq<T>)
    ensures |top| == if |s| < n then |s| else n
    ensures forall a :: 0 <= a < |top| ==> top[a] == s[Order(s, key)[a]]
    ensures forall a :: 0 <= a < |top| ==> top[a] in s
    ensures forall a, b :: 0 <= a < b < |top| ==> key(top[a]) >= key(top[b])
    ensures forall k :: 0 <= k < |s| && s[k] !in top ==> forall a :: 0 <= a < |top| ==> key(top[a]) >= key(s[k])
  {
    var sorted := SortByKeyDesc(s, key);
    var m := if |s| < n then |s| else n;
    var top := sorted[..m];
    forall k | 0 <= k < |s| && s[k] !in top
      ensures forall a :: 0 <= a < |top| ==> key(top[a]) >= key(s[k])
    {
      var j :| 0 <= j < |sorted| && sorted[j] == s[k];
    }
    top
  }

  /** When the input is ordered by `pos`, ties in the top elements keep that order. */
  lemma TakeTopTies<T>(s: seq<T>, key: T -> real, n: nat, pos: T -> int)
    requires forall a, b :: 0 <= a < b < |s| ==> pos(s[a]) < pos(s[b])
    ensures forall a, b :: 0 <= a < b < |TakeTop(s, key, n)| && key(TakeTop(s, key, n)[a]) == key(TakeTop(s, key, n)[b]) ==>
      pos(TakeTop(s, key, n)[a]) < pos(TakeTop(s, key, n)[b])
  {
    var top := TakeTop(s, key, n);
    var order := Order(s, key);
    forall a, b | 0 <= a < b < |top| && key(top[a]) == key(top[b]) ensures pos(top[a]) < pos(top[b]) {
      assert top[a] == s[order[a]] && top[b] == s[order[b]];
      assert order[a] < order[b];
    }
  }
}

=== FILE: tally.dfy ===
/** Counting string keys: the per-key counts kept in an object by the
    backend's statistics routines. */
module Tally {

  /** A key and how many times it was counted. */
  datatype KeyCount = KeyCount(key: string, count: nat)

  /** The count recorded for a key, 0 when absent. */
  function CountOf(counts: seq<KeyCount>, key: string): nat {
    if |counts| == 0 then 0
    else if counts[0].key == key then counts[0].count
    else CountOf(counts[1..], key)
  }

  function Total(counts: seq<KeyCount>): nat {
    if |counts| == 0 then 0 else counts[0].count + Total(counts[1..])
  }

  predicate DistinctKeys(counts: seq<KeyCount>) {
    forall a, b :: 0 <= a < b < |counts| ==> counts[a].key != counts[b].key
  }

  /** Counts one more `key`: increments its entry, or appends one. */
  function Bump(counts: seq<KeyCount>, key: string): (r: seq<KeyCount>)
    ensures |counts| <= |r| <= |counts| + 1
    ensures forall k :: 0 <= k < |counts| ==> r[k].key == counts[k].key
    ensures |r| > |counts| ==> r[|counts|].key == key
  {
    if |counts| == 0 then [KeyCount(key, 1)]
    else if counts[0].key == key then [KeyCount(key, counts[0].count + 1)] + counts[1..]
    else [counts[0]] + Bump(counts[1..], key)
  }

  /** Bumping adds one to the total. */
  lemma {:induction false} BumpTotal(counts: seq<KeyCount>, key: string)
    ensures Total(Bump(counts, key)) == Total(counts) + 1
    decreases |counts|
  {
    if |counts| > 0 {
      TotalCons(counts[0], counts[1..]);
      assert [counts[0]] + counts[1..] == counts;
      var r := Bump(counts, key);
      if counts[0].key == key {
        TotalCons(r[0], counts[1..]);
      } else {
        BumpTotal(counts[1..], key);
        TotalCons(counts[0], Bump(counts[1..], key));
      }
    }
  }

  /** Bumping adds one to the key's count and leaves every other count alone. */
  lemma {:induction false} BumpCountOf(counts: seq<KeyCount>, key: string, c: string)
    ensures CountOf(Bump(counts, key), c) == CountOf(counts, c) + (if c == key then 1 else 0)
    decreases |counts|
  {
    if |counts| > 0 {
      CountOfCons(counts[0], counts[1..], c);
      assert [counts[0]] + counts[1..] == counts;
      var r := Bump(counts, key);
      if counts[0].key == key {
        CountOfCons(r[0], counts[1..], c);
      } else {
        BumpCountOf(counts[1..], key, c);
        CountOfCons(counts[0], Bump(counts[1..], key), c);
      }
    }
  }

  /** Bumping keeps the keys distinct. */
  lemma {:induction false} BumpDistinct(counts: seq<KeyCount>, key: string)
    requires DistinctKeys(counts)
    ensures DistinctKeys(Bump(counts, key))
    decreases |counts|
  {
    var r := Bump(counts, key);
    if |counts| > 0 && counts[0].key == key {
      forall a, b | 0 <= a < b < |r| ensures r[a].key != r[b].key {
        assert r[a].key == counts[a].key && r[b].key == counts[b].key;
      }
    } else if |counts| > 0 {
      forall a, b | 0 <= a < b < |counts[1..]| ensures counts[1..][a].key != counts[1..][b].key {
        assert counts[1..][a] == counts[a + 1] && counts[1..][b] == counts[b + 1];
      }
      BumpDistinct(counts[1..], key);
      DistinctCons(counts, Bump(counts[1..], key), key);
    }
  }

  /** Bumping keeps every count positive. */
  lemma {:induction false} BumpPositive(counts: seq<KeyCount>, key: string)
    requires forall k :: 0 <= k < |counts| ==> counts[k].count > 0
    ensures forall k :: 0 <= k < |Bump(counts, key)| ==> Bump(counts, key)[k].count > 0
    decreases |counts|
  {
    var r := Bump(counts, key);
    if |counts| > 0 && counts[0].key == key {
      forall k | 0 <= k < |r| ensures r[k].count > 0 {
        if k > 0 {
          assert r[k] == counts[k];
        }
      }
    } else if |counts| > 0 {
      var rest := Bump(counts[1..], key);
      forall k | 0 <= k < |counts[1..]| ensures counts[1..][k].count > 0 {
        assert counts[1..][k] == counts[k + 1];
      }
      BumpPositive(counts[1..], key);
      forall k | 0 <= k < |r| ensures r[k].count > 0 {
        if k > 0 {
          assert r[k] == rest[k - 1];
        }
      }
    }
  }

  lemma TotalCons(x: KeyCount, rest: seq<KeyCount>)
    ensures Total([x] + rest) == x.count + Total(rest)
  {
    assert ([x] + rest)[1..] == rest;
  }

  lemma CountOfCons(x: KeyCount, rest: seq<KeyCount>, c: string)
    ensures CountOf([x] + rest, c) == if x.key == c then x.count else CountOf(rest, c)
  {
    assert ([x] + rest)[1..] == rest;
  }

  /** Putting back the head of a distinct list in front of its tail's bump
      keeps the keys distinct. */
  lemma DistinctCons(counts: seq<KeyCount>, rest: seq<KeyCount>, key: string)
    requires |counts| > 0 && counts[0].key != key
    requires |counts| - 1 <= |rest| <= |counts|
    requires forall k :: 0 <= k < |counts| - 1 ==> rest[k].key == counts[k + 1].key
    requires |rest| > |counts| - 1 ==> rest[|counts| - 1].key == key
    requires DistinctKeys(counts[1..]) ==> DistinctKeys(rest)
    ensures DistinctKeys(counts) ==> DistinctKeys([counts[0]] + rest)
  {
    if DistinctKeys(counts) {
      forall a, b | 0 <= a < b < |counts[1..]| ensures counts[1..][a].key != counts[1..][b].key {
        assert counts[1..][a] == counts[a + 1] && counts[1..][b] == counts[b + 1];
      }
      var r := [counts[0]] + rest;
      forall b | 1 <= b < |r| ensures r[b].key != counts[0].key {
        assert r[b] == rest[b - 1];
        if b < |counts| {
          assert r[b].key == counts[b].key;
        }
      }
    }
  }

  /** Number of occurrences of `c` in `xs`. */
  function Occurrences(xs: seq<string>, c: string): nat {
    if |xs| == 0 then 0 else (if xs[|xs| - 1] == c then 1 else 0) + Occurrences(xs[..|xs| - 1], c)
  }

  /** The counts of the keys of a list, in order of first appearance (the
      `counts[k] = (counts[k] || 0) + 1` idiom over a JavaScript object). */
  function TallyOf(xs: seq<string>): (counts: seq<KeyCount>)
    ensures Total(counts) == |xs|
    ensures DistinctKeys(counts)
    ensures forall c :: CountOf(counts, c) == Occurrences(xs, c)
    ensures forall k :: 0 <= k < |counts| ==> counts[k].count > 0
  {
    if |xs| == 0 then []
    else
      var prev := TallyOf(xs[..|xs| - 1]);
      var x := xs[|xs| - 1];
      BumpTotal(prev, x);
      BumpDistinct(prev, x);
      BumpPositive(prev, x);
      forall c ensures CountOf(Bump(prev, x), c) == Occurrences(xs, c) {
        BumpCountOf(prev, x, c);
      }
      Bump(prev, x)
  }
}

=== FILE: taxonomy.dfy ===
/** The category names used by the Python service, the Node backend and the
    React front end alike. Each component spells them as the same string literals. */
module Taxonomy {

  const Opportunities: string := "opportunities"
  const Hackathons: string := "hackathons"
  const Contests: string := "contests"
  const Scholarships: string := "scholarships"
  const Jobs: string := "jobs"
  const Events: string := "events"
  const Other: string := "other"

  /** The six categories that own a keyword list, in declaration order. */
  const KeywordCategories: seq<string> := [Opportunities, Hackathons, Contests, Scholarships, Jobs, Events]

  /** Categories whose presence marks an email important, in both the weak
      labeller and the backend keyword filter. */
  predicate IsImportantCategory(c: string) {
    c == Opportunities || c == Scholarships || c == Jobs
  }

  /** One entry of a keyword table: a category and its keyword list. */
  datatype KeywordList = KeywordList(category: string, keywords: seq<string>)

  /** A keyword table the labellers can score against: every list is non-empty,
      no entry is the catch-all, and no category appears twice. */
  predicate WellFormedTable(table: seq<KeywordList>) {
    && (forall i :: 0 <= i < |table| ==> |table[i].keywords| > 0 && table[i].category != Other)
    && (forall i, j :: 0 <= i < j < |table| ==> table[i].category != table[j].category)
  }

  /** The category names of a keyword table, in table order. */
  function TableCategories(table: seq<KeywordList>): (names: seq<string>)
    ensures |names| == |table|
    ensures forall i :: 0 <= i < |table| ==> names[i] == table[i].category
  {
    seq(|table|, i requires 0 <= i < |table| => table[i].category)
  }
}

=== FILE: text.dfy ===
/** String helpers shared by the Python and JavaScript parts of the model.
    Characters are classified in ASCII terms: `IsSpace` is the ASCII whitespace
    set and `Lower` maps only 'A'..'Z'. */
module Text {

  predicate IsSpace(c: char) {
    c == ' ' || c == '\t' || c == '\n' || c == '\r' || c == '\U{000B}' || c == '\U{000C}'
  }

  predicate IsUpper(c: char) {
    'A' <= c <= 'Z'
  }

  predicate IsLetter(c: char) {
    'a' <= c <= 'z' || 'A' <= c <= 'Z'
  }

  function LowerChar(c: char): char {
    if IsUpper(c) then (c as int + 32) as char else c
  }

  /** `str.lower()` / `String.prototype.toLowerCase()` on ASCII letters. */
  function Lower(s: string): (r: string)
    ensures |r| == |s|
    ensures forall i :: 0 <= i < |s| ==> r[i] == LowerChar(s[i])
  {
    seq(|s|, i requires 0 <= i < |s| => LowerChar(s[i]))
  }

  lemma LowerAppend(a: string, b: string)
    ensures Lower(a + b) == Lower(a) + Lower(b)
  {
  }

  predicate StartsWith(s: string, p: string) {
    |p| <= |s| && s[..|p|] == p
  }

  /** Substring test: Python's `t in s`, JavaScript's `s.includes(t)`. */
  predicate Contains(s: string, t: string)
    decreases |s|
  {
    StartsWith(s, t) || (|s| > 0 && Contains(s[1..], t))
  }

  /** `t` occurs in `s` starting at offset `i`. */
  predicate OccursAt(s: string, t: string, i: int) {
    0 <= i <= |s| - |t| && s[i..i + |t|] == t
  }

  /** `Contains` holds exactly when `t` occurs at some offset of `s`. */
  lemma {:induction false} ContainsIff(s: string, t: string)
    ensures Contains(s, t) <==> exists i :: OccursAt(s, t, i)
    decreases |s|
  {
    if StartsWith(s, t) {
      assert OccursAt(s, t, 0);
    } else if |s| > 0 {
      ContainsIff(s[1..], t);
      if Contains(s[1..], t) {
        var i :| OccursAt(s[1..], t, i);
        assert s[i + 1..i + 1 + |t|] == s[1..][i..i + |t|];
        assert OccursAt(s, t, i + 1);
      } else {
        forall i | OccursAt(s, t, i)
          ensures false
        {
          if i > 0 {
            var a, b := s[1..][i - 1..i - 1 + |t|], s[i..i + |t|];
            forall j | 0 <= j < |t|
              ensures a[j] == b[j]
            {
            }
            assert OccursAt(s[1..], t, i - 1);
          }
        }
      }
    } else {
      forall i | OccursAt(s, t, i)
        ensures false
      {
      }
    }
  }

  /** Occurrences survive extension on either side. */
  lemma ContainsAppend(a: string, b: string, t: string)
    ensures Contains(a, t) ==> Contains(a + b, t)
    ensures Contains(b, t) ==> Contains(a + b, t)
  {
    ContainsIff(a, t);
    ContainsIff(b, t);
    ContainsIff(a + b, t);
    if Contains(a, t) {
      var i :| OccursAt(a, t, i);
      assert (a + b)[i..i + |t|] == a[i..i + |t|];
      assert OccursAt(a + b, t, i);
    }
    if Contains(b, t) {
      var i :| OccursAt(b, t, i);
      assert (a + b)[|a| + i..|a| + i + |t|] == b[i..i + |t|];
      assert OccursAt(a + b, t, |a| + i);
    }
  }

  /** Number of characters of `s` satisfying `p`. */
  function CountIf(s: string, p: char -> bool): (n: nat)
    ensures n <= |s|
    ensures n == 0 <==> forall i :: 0 <= i < |s| ==> !p(s[i])
  {
    if |s| == 0 then 0
    else
      assert forall i :: 1 <= i < |s| ==> s[i] == s[1..][i - 1];
      (if p(s[0]) then 1 else 0) + CountIf(s[1..], p)
  }

  lemma {:induction false} CountIfAppend(a: string, b: string, p: char -> bool)
    ensures CountIf(a + b, p) == CountIf(a, p) + CountIf(b, p)
    decreases |a|
  {
    if |a| == 0 {
      assert a + b == b;
    } else {
      assert (a + b)[1..] == a[1..] + b;
      CountIfAppend(a[1..], b, p);
    }
  }

  /** `s.count(c)` in Python. */
  function CountChar(s: string, c: char): nat {
    CountIf(s, x => x == c)
  }

  /** First index of `c` in `s`. */
  function IndexOf(s: string, c: char): (i: nat)
    requires c in s
    ensures i < |s| && s[i] == c && c !in s[..i]
  {
    if s[0] == c then 0 else 1 + IndexOf(s[1..], c)
  }

  /** The pieces joined back with the separator between consecutive pieces. */
  function JoinWith(parts: seq<string>, sep: char): string {
    if |parts| == 0 then ""
    else if |parts| == 1 then parts[0]
    else parts[0] + [sep] + JoinWith(parts[1..], sep)
  }

  /** `s.split(sep)` for a one-character separator (Python and JavaScript agree):
      the pieces are separator-free and joining them back gives `s`. */
  function Split(s: string, sep: char): (parts: seq<string>)
    ensures |parts| >= 1
    ensures forall k :: 0 <= k < |parts| ==> sep !in parts[k]
    ensures JoinWith(parts, sep) == s
    decreases |s|
  {
    if sep !in s then [s]
    else
      var i := IndexOf(s, sep);
      assert s == s[..i] + [sep] + s[i + 1..];
      [s[..i]] + Split(s[i + 1..], sep)
  }

  /** Splitting a join of separator-free pieces gives the pieces back. */
  lemma {:induction false} SplitJoin(parts: seq<string>, sep: char)
    requires |parts| >= 1
    requires forall k :: 0 <= k < |parts| ==> sep !in parts[k]
    ensures Split(JoinWith(parts, sep), sep) == parts
    decreases |parts|
  {
    if |parts| == 1 {
    } else {
      var s := JoinWith(parts, sep);
      assert s == parts[0] + [sep] + JoinWith(parts[1..], sep);
      assert s[|parts[0]|] == sep;
      assert s[..|parts[0]|] == parts[0];
      assert IndexOf(s, sep) == |parts[0]| by {
        IndexOfPrefix(s, sep, |parts[0]|);
      }
      assert s[|parts[0]| + 1..] == JoinWith(parts[1..], sep);
      SplitJoin(parts[1..], sep);
    }
  }

  lemma IndexOfPrefix(s: string, c: char, k: nat)
    requires k < |s| && s[k] == c && c !in s[..k]
    ensures IndexOf(s, c) == k
  {
    var i := IndexOf(s, c);
  }

  /** Characters with `c` removed (JavaScript `s.replace(/c/g, '')`). */
  function RemoveChar(s: string, c: char): (r: string)
    ensures c !in r
    ensures |r| == |s| - CountChar(s, c)
  {
    if |s| == 0 then ""
    else (if s[0] == c then "" else [s[0]]) + RemoveChar(s[1..], c)
  }

  function TrimStart(s: string): (r: string)
    ensures |r| <= |s| && r == s[|s| - |r|..]
    ensures forall i :: 0 <= i < |s| - |r| ==> IsSpace(s[i])
    ensures |r| == 0 || !IsSpace(r[0])
  {
    if |s| > 0 && IsSpace(s[0]) then TrimStart(s[1..]) else s
  }

  function TrimEnd(s: string): (r: string)
    ensures |r| <= |s| && r == s[..|r|]
    ensures forall i :: |r| <= i < |s| ==> IsSpace(s[i])
    ensures |r| == 0 || !IsSpace(r[|r| - 1])
  {
    if |s| > 0 && IsSpace(s[|s| - 1]) then TrimEnd(s[..|s| - 1]) else s
  }

  /** Length of the leading run of whitespace characters. */
  function SpaceRunLen(s: string): (k: nat)
    ensures k <= |s|
    ensures forall i :: 0 <= i < k ==> IsSpace(s[i])
    ensures k == |s| || !IsSpace(s[k])
  {
    if |s| == 0 || !IsSpace(s[0]) then 0 else 1 + SpaceRunLen(s[1..])
  }

  /** `str.trim()`: `s` with its leading whitespace run and its trailing
      whitespace removed, so the slice neither starts nor ends with whitespace. */
  function Trim(s: string): (r: string)
    ensures SpaceRunLen(s) + |r| <= |s| && r == s[SpaceRunLen(s)..SpaceRunLen(s) + |r|]
    ensures forall i :: SpaceRunLen(s) + |r| <= i < |s| ==> IsSpace(s[i])
    ensures |r| == 0 || (!IsSpace(r[0]) && !IsSpace(r[|r| - 1]))
  {
    var a := SpaceRunLen(s);
    var r := TrimEnd(s[a..]);
    assert |r| > 0 ==> r[0] == s[a];
    r
  }

  /** Length of the leading run of non-whitespace characters. */
  function RunLen(s: string): (k: nat)
    ensures k <= |s|
    ensures forall i :: 0 <= i < k ==> !IsSpace(s[i])
    ensures k == |s| || IsSpace(s[k])
  {
    if |s| == 0 || IsSpace(s[0]) then 0 else 1 + RunLen(s[1..])
  }

  /** Python's `s.split()` with no argument: the maximal whitespace-free runs. */
  function Words(s: string): (ws: seq<string>)
    ensures forall k :: 0 <= k < |ws| ==> |ws[k]| > 0 && forall i :: 0 <= i < |ws[k]| ==> !IsSpace(ws[k][i])
    decreases |s|
  {
    if |s| == 0 then []
    else if IsSpace(s[0]) then Words(s[1..])
    else
      var k := RunLen(s);
      [s[..k]] + Words(s[k..])
  }

  lemma RunLenAppend(a: string, b: string)
    requires |b| > 0 && IsSpace(b[0])
    ensures RunLen(a + b) == RunLen(a)
  {
    if |a| > 0 && !IsSpace(a[0]) {
      assert (a + b)[1..] == a[1..] + b;
      RunLenAppend(a[1..], b);
    }
  }

  /** A whitespace character separates the words on its two sides. */
  lemma {:induction false} WordsAppendSpace(a: string, b: string)
    ensures Words(a + " " + b) == Words(a) + Words(b)
    decreases |a|
  {
    var s := a + " " + b;
    if |a| == 0 {
      assert s[1..] == b;
    } else if IsSpace(a[0]) {
      assert s[1..] == a[1..] + " " + b;
      WordsAppendSpace(a[1..], b);
    } else {
      RunLenAppend(a, " " + b);
      assert s == a + (" " + b);
      var k := RunLen(a);
      assert s[..k] == a[..k];
      assert s[k..] == a[k..] + " " + b;
      WordsAppendSpace(a[k..], b);
      if k < |a| {
        assert IsSpace(a[k]);
      } else {
        assert a[k..] == [];
      }
      assert Words(a) == [a[..k]] + Words(a[k..]);
    }
  }

  /** Splitting a single-space join of whitespace-free words gives the words back. */
  lemma {:induction false} WordsJoin(ws: seq<string>)
    requires forall k :: 0 <= k < |ws| ==> |ws[k]| > 0 && forall i :: 0 <= i < |ws[k]| ==> !IsSpace(ws[k][i])
    ensures Words(JoinWith(ws, ' ')) == ws
    decreases |ws|
  {
    if |ws| == 0 {
    } else if |ws| == 1 {
      WordsOfWord(ws[0]);
    } else {
      WordsJoin(ws[1..]);
      WordsAppendSpace(ws[0], JoinWith(ws[1..], ' '));
      WordsOfWord(ws[0]);
      assert JoinWith(ws, ' ') == ws[0] + " " + JoinWith(ws[1..], ' ');
    }
  }

  lemma WordsOfWord(w: string)
    requires |w| > 0 && forall i :: 0 <= i < |w| ==> !IsSpace(w[i])
    ensures Words(w) == [w]
  {
    RunLenAll(w);
    assert w[|w|..] == [];
    assert w[..|w|] == w;
  }

  lemma RunLenAll(w: string)
    requires forall i :: 0 <= i < |w| ==> !IsSpace(w[i])
    ensures RunLen(w) == |w|
  {
    if |w| > 0 {
      RunLenAll(w[1..]);
    }
  }

  /** Decimal rendering of a natural number (JavaScript template `${n}`). */
  function NatToString(n: nat): (r: string)
    ensures |r| >= 1
    ensures forall i :: 0 <= i < |r| ==> '0' <= r[i] <= '9'
  {
    if n < 10 then [Digit(n)] else NatToString(n / 10) + [Digit(n % 10)]
  }

  function Digit(d: nat): (c: char)
    requires d < 10
    ensures '0' <= c <= '9'
  {
    ('0' as int + d) as char
  }

  /** The digit string read back as a number. */
  function DigitsValue(r: string): int
    decreases |r|
  {
    if |r| == 0 then 0 else DigitsValue(r[..|r| - 1]) * 10 + (r[|r| - 1] as int - '0' as int)
  }

  /** Rendering then reading back a natural number gives it back. */
  lemma {:induction false} NatToStringValue(n: nat)
    ensures DigitsValue(NatToString(n)) == n
  {
    if n >= 10 {
      NatToStringValue(n / 10);
      var r := NatToString(n);
      assert r[..|r| - 1] == NatToString(n / 10);
    }
  }
}

=== FILE: train_model.dfy ===
/** The training pipeline (`EmailClassifierTrainer`): frame preparation, the
    importance stage with its model selection, the category stage that reuses the
    fitted transforms, the saved bundle and the full pipeline. Progress printing
    is not modelled. The library failures the model names (a refused stratified
    split, no candidate scoring above 0, the missing `category` column of an
    empty frame, a stage run out of order) are `Err`; the library's other
    exceptions are not modelled. */
module TrainModel {
  import opened Wrappers
  import opened Selection
  import opened DataProcessor
  import opened Learning
  import opened LabelEncoding
  import Config

  /** The trainer's state: fitted models, vectorizer, label encoder classes and scaler. */
  datatype Trainer = Trainer(
    importance: Option<Classifier>,
    category: Option<Classifier>,
    vectorizer: Option<Vectorizer>,
    labelClasses: Option<seq<string>>,
    scaler: Scaler)

  /** A freshly constructed trainer: nothing fitted, an unfitted scaler. */
  const NewTrainer: Trainer := Trainer(None, None, None, None, Scaler(None))

  // ---------------------------------------------------------------- frame

  /** A cell of the scalar block of a data row, with a missing value read as 0. */
  function Cell(row: DataRow, column: string): real {
    if column == "subject_length" then row.subjectLength.GetOr(0.0)
    else if column == "body_length" then row.bodyLength.GetOr(0.0)
    else if column == "word_count" then row.wordCount.GetOr(0.0)
    else if column == "exclamation_count" then row.exclamationCount.GetOr(0.0)
    else if column == "question_count" then row.questionCount.GetOr(0.0)
    else if column == "caps_ratio" then row.capsRatio.GetOr(0.0)
    else if column == "has_deadline" then BoolValue(row.hasDeadline.GetOr(false))
    else if column == "has_urgent" then BoolValue(row.hasUrgent.GetOr(false))
    else if column == "has_apply" then BoolValue(row.hasApply.GetOr(false))
    else if column == "has_opportunity" then BoolValue(row.hasOpportunity.GetOr(false))
    else 0.0
  }

  /** `prepare_data`: the texts, with a missing text read as empty, and the scalar
      matrix with the columns in `ScalarColumns` order. */
  function PrepareData(rows: seq<DataRow>): (r: (seq<string>, Matrix))
    ensures |r.0| == |rows| && |r.1| == |rows|
    ensures forall i :: 0 <= i < |rows| ==> r.0[i] == (if rows[i].text.Some? then rows[i].text.value else "")
    ensures forall i :: 0 <= i < |rows| ==> |r.1[i]| == |ScalarColumns|
    ensures forall i, j :: 0 <= i < |rows| && 0 <= j < |ScalarColumns| ==> r.1[i][j] == Cell(rows[i], ScalarColumns[j])
    ensures forall i, j :: 0 <= i < |rows| && 0 <= j < |ScalarColumns| && Cell(rows[i], ScalarColumns[j]) != 0.0 ==>
      ScalarColumns[j] in NumericColumns || r.1[i][j] == 1.0
  {
    var texts := seq(|rows|, i requires 0 <= i < |rows| => rows[i].text.GetOr(""));
    var matrix := seq(|rows|, i requires 0 <= i < |rows| =>
      seq(|ScalarColumns|, j requires 0 <= j < |ScalarColumns| => Cell(rows[i], ScalarColumns[j])));
    (texts, matrix)
  }

  /** A row built by the dataset builder prepares to exactly the feature values
      of its email: the training frame and the extracted features agree column by
      column, and no cell falls back to 0. */
  lemma TrainingCellsMatchFeatures(f: FeatureBag, l: Label)
    ensures forall j :: 0 <= j < |ScalarColumns| ==>
      Cell(TrainingRow(f, l), ScalarColumns[j]) == FeatureValue(f, ScalarColumns[j])
    ensures TrainingRow(f, l).text == Some(f.processedText)
  {
    var row := TrainingRow(f, l);
    assert row.subjectLength == Some(f.subjectLength as real) && row.bodyLength == Some(f.bodyLength as real);
    assert row.wordCount == Some(f.wordCount as real) && row.capsRatio == Some(f.capsRatio);
    assert row.exclamationCount == Some(f.exclamationCount as real) && row.questionCount == Some(f.questionCount as real);
    assert row.hasDeadline == Some(f.hasDeadline) && row.hasUrgent == Some(f.hasUrgent);
    assert row.hasApply == Some(f.hasApply) && row.hasOpportunity == Some(f.hasOpportunity);
    forall j | 0 <= j < |ScalarColumns| ensures Cell(row, ScalarColumns[j]) == FeatureValue(f, ScalarColumns[j]) {
    }
  }

  // ---------------------------------------------------------------- split

  /** The ascending positions below `n` the mask puts on the requested side. */
  function Positions(n: nat, inTest: nat -> bool, wantTest: bool): (p: seq<nat>)
    ensures forall k :: 0 <= k < |p| ==> p[k] < n && inTest(p[k]) == wantTest
    ensures forall j :: 0 <= j < n && inTest(j) == wantTest ==> j in p
    ensures forall a, b :: 0 <= a < b < |p| ==> p[a] < p[b]
  {
    if n == 0 then []
    else
      var p := Positions(n - 1, inTest, wantTest);
      if inTest(n - 1) == wantTest then p + [n - 1] else p
  }

  /** A train/test split of the rows of a frame. */
  datatype Split = Split(train: seq<nat>, test: seq<nat>)

  /** `train_test_split` with `TEST_SIZE`, `RANDOM_STATE` and stratification by
      the labels: `None` when the library refuses the stratification. Every row
      lands on exactly one side. */
  function SplitRows(lib: Library, labels: seq<nat>): (r: Option<Split>)
    ensures r.None? <==> lib.splitFails(labels, Config.TestSize, Config.RandomState)
    ensures r.Some? ==> forall j :: 0 <= j < |labels| ==> (j in r.value.train <==> j !in r.value.test)
    ensures r.Some? ==> forall k :: 0 <= k < |r.value.train| ==> r.value.train[k] < |labels|
    ensures r.Some? ==> forall k :: 0 <= k < |r.value.test| ==> r.value.test[k] < |labels|
  {
    if lib.splitFails(labels, Config.TestSize, Config.RandomState) then None
    else
      var inTest := (j: nat) => lib.isTest(labels, Config.TestSize, Config.RandomState, j);
      Some(Split(Positions(|labels|, inTest, false), Positions(|labels|, inTest, true)))
  }

  function Pick<T>(xs: seq<T>, idx: seq<nat>): (r: seq<T>)
    requires forall k :: 0 <= k < |idx| ==> idx[k] < |xs|
    ensures |r| == |idx|
    ensures forall k :: 0 <= k < |idx| ==> r[k] == xs[idx[k]]
  {
    seq(|idx|, k requires 0 <= k < |idx| => xs[idx[k]])
  }

  /** The training and held-out parts of a design matrix and its labels. */
  datatype Partitioned = Partitioned(trainX: Matrix, trainY: seq<nat>, testX: Matrix, testY: seq<nat>)

  function Partition(x: Matrix, y: seq<nat>, s: Split): (p: Partitioned)
    requires |x| == |y|
    requires forall k :: 0 <= k < |s.train| ==> s.train[k] < |y|
    requires forall k :: 0 <= k < |s.test| ==> s.test[k] < |y|
    ensures |p.trainX| == |p.trainY| == |s.train| && |p.testX| == |p.testY| == |s.test|
  {
    Partitioned(Pick(x, s.train), Pick(y, s.train), Pick(x, s.test), Pick(y, s.test))
  }

  // ---------------------------------------------------------------- stages

  /** The outcome of a stage: the updated trainer, the fitted model and its
      held-out accuracy. */
  datatype Stage = Stage(trainer: Trainer, model: Classifier, accuracy: real)

  function ImportanceLabels(rows: seq<DataRow>): (y: seq<nat>)
    ensures |y| == |rows|
    ensures forall i :: 0 <= i < |rows| ==> y[i] == (if rows[i].isImportant then 1 else 0)
  {
    seq(|rows|, i requires 0 <= i < |rows| => if rows[i].isImportant then 1 else 0)
  }

  /** The design matrix of the importance stage: a vectorizer fitted on the
      texts and a scaler fitted on the scalar matrix. */
  function ImportanceDesign(lib: Library, rows: seq<DataRow>): (x: Matrix)
    ensures |x| == |rows|
  {
    var (texts, matrix) := PrepareData(rows);
    Design(lib, Vectorizer(texts, Config.MaxFeatures), matrix, texts, matrix)
  }

  /** Mean cross-validation accuracy of each candidate on the training part. */
  function CandidateScores(lib: Library, p: Partitioned): (scores: seq<real>)
    ensures |scores| == |ImportanceCandidates|
    ensures forall k :: 0 <= k < |scores| ==> scores[k] == lib.cvMean(ImportanceCandidates[k], p.trainX, p.trainY)
  {
    seq(|ImportanceCandidates|, k requires 0 <= k < |ImportanceCandidates| =>
      lib.cvMean(ImportanceCandidates[k], p.trainX, p.trainY))
  }

  /** `train_importance_classifier`. The candidate kept is the first with the
      highest cross-validation mean, which must exceed 0 (the incumbent score
      starts at 0 and is replaced only by a strictly greater mean); otherwise the
      incumbent stays `None` and fitting it fails. The chosen model is fitted on
      the training part only and scored on the held-out part only. */
  function TrainImportance(lib: Library, t: Trainer, rows: seq<DataRow>): (r: Result<Stage>)
    ensures r.Ok? ==>
      && SplitRows(lib, ImportanceLabels(rows)).Some?
      && var p := Partition(ImportanceDesign(lib, rows), ImportanceLabels(rows), SplitRows(lib, ImportanceLabels(rows)).value);
      && var scores := CandidateScores(lib, p);
      && r.value.model.trainX == p.trainX && r.value.model.trainY == p.trainY
      && r.value.accuracy == lib.accuracy(r.value.model, p.testX, p.testY)
      && (forall k :: 0 <= k < |scores| && ImportanceCandidates[k] == r.value.model.family ==>
            && scores[k] > 0.0
            && (forall j :: 0 <= j < |scores| ==> scores[j] <= scores[k])
            && (forall j :: 0 <= j < k ==> scores[j] < scores[k]))
    ensures r.Ok? ==> r.value.model.family in ImportanceCandidates
    ensures r.Ok? ==>
      && r.value.trainer.importance == Some(r.value.model)
      && r.value.trainer.vectorizer == Some(Vectorizer(PrepareData(rows).0, Config.MaxFeatures))
      && r.value.trainer.scaler == Scaler(Some(PrepareData(rows).1))
      && r.value.trainer.category == t.category && r.value.trainer.labelClasses == t.labelClasses
    ensures SplitRows(lib, ImportanceLabels(rows)).Some? ==>
      (r.Err? <==> forall k :: 0 <= k < |ImportanceCandidates| ==>
        lib.cvMean(ImportanceCandidates[k],
          Partition(ImportanceDesign(lib, rows), ImportanceLabels(rows), SplitRows(lib, ImportanceLabels(rows)).value).trainX,
          Partition(ImportanceDesign(lib, rows), ImportanceLabels(rows), SplitRows(lib, ImportanceLabels(rows)).value).trainY) <= 0.0)
  {
    var (texts, matrix) := PrepareData(rows);
    var vec := Vectorizer(texts, Config.MaxFeatures);
    var x := ImportanceDesign(lib, rows);
    var y := ImportanceLabels(rows);
    match SplitRows(lib, y)
    case None => Err("stratified split failed")
    case Some(s) =>
      var p := Partition(x, y, s);
      var scores := CandidateScores(lib, p);
      match SelectAbove(scores, 0.0)
      case None => Err("'NoneType' object has no attribute 'fit'")
      case Some(k) =>
        var model := Classifier(ImportanceCandidates[k], p.trainX, p.trainY);
        assert forall j :: 0 <= j < |scores| && ImportanceCandidates[j] == model.family ==> j == k;
        var t' := t.(importance := Some(model), vectorizer := Some(vec), scaler := Scaler(Some(matrix)));
        Ok(Stage(t', model, lib.accuracy(model, p.testX, p.testY)))
  }

  /** The categories of a frame, in row order. */
  function CategoryColumn(rows: seq<DataRow>): (c: seq<string>)
    ensures |c| == |rows|
    ensures forall i :: 0 <= i < |rows| ==> c[i] == rows[i].category
  {
    seq(|rows|, i requires 0 <= i < |rows| => rows[i].category)
  }

  /** The category labels of a frame, encoded against the classes fitted on them. */
  function CategoryLabels(rows: seq<DataRow>): (y: seq<nat>)
    ensures |y| == |rows|
    ensures forall i :: 0 <= i < |rows| ==> y[i] < |FitClasses(CategoryColumn(rows))| && FitClasses(CategoryColumn(rows))[y[i]] == rows[i].category
  {
    var categories := CategoryColumn(rows);
    EncodeAll(FitClasses(categories), categories)
  }

  /** `train_category_classifier`. It only applies the vectorizer and scaler
      already fitted by the importance stage (so it fails on a trainer where that
      stage has not run) and leaves both unchanged; the label encoder is fitted
      here on the category column. */
  function TrainCategory(lib: Library, t: Trainer, rows: seq<DataRow>): (r: Result<Stage>)
    ensures t.vectorizer.None? ==> r.Err?
    ensures t.scaler.fittedOn.None? ==> r.Err?
    ensures r.Ok? ==> r.value.trainer.vectorizer == t.vectorizer && r.value.trainer.scaler == t.scaler
    ensures r.Ok? ==> r.value.trainer.importance == t.importance
    ensures r.Ok? ==> r.value.trainer.category == Some(r.value.model) && r.value.model.family == CategoryForest
    ensures r.Ok? ==> r.value.trainer.labelClasses == Some(FitClasses(CategoryColumn(rows)))
    ensures r.Ok? ==>
      var (texts, matrix) := PrepareData(rows);
      forall k :: 0 <= k < |r.value.model.trainX| ==>
        r.value.model.trainX[k] in Design(lib, t.vectorizer.value, t.scaler.fittedOn.value, texts, matrix)
    ensures t.vectorizer.Some? && t.scaler.fittedOn.Some? ==> (r.Err? <==> SplitRows(lib, CategoryLabels(rows)).None?)
    ensures r.Ok? ==>
      && SplitRows(lib, CategoryLabels(rows)).Some?
      && var (texts, matrix) := PrepareData(rows);
      && var p := Partition(Design(lib, t.vectorizer.value, t.scaler.fittedOn.value, texts, matrix),
                            CategoryLabels(rows), SplitRows(lib, CategoryLabels(rows)).value);
      && r.value.model.trainX == p.trainX && r.value.model.trainY == p.trainY
      && r.value.accuracy == lib.accuracy(r.value.model, p.testX, p.testY)
  {
    if t.vectorizer.None? then Err("'NoneType' object has no attribute 'transform'")
    else if t.scaler.fittedOn.None? then Err("This StandardScaler instance is not fitted yet")
    else
      var (texts, matrix) := PrepareData(rows);
      var x := Design(lib, t.vectorizer.value, t.scaler.fittedOn.value, texts, matrix);
      var categories := CategoryColumn(rows);
      var classes := FitClasses(categories);
      var y := CategoryLabels(rows);
      match SplitRows(lib, y)
      case None => Err("stratified split failed")
      case Some(s) =>
        var p := Partition(x, y, s);
        var model := Classifier(CategoryForest, p.trainX, p.trainY);
        var t' := t.(category := Some(model), labelClasses := Some(classes));
        Ok(Stage(t', model, lib.accuracy(model, p.testX, p.testY)))
  }

  /** The category stage cannot run first. */
  lemma CategoryNeedsImportanceStage(lib: Library, rows: seq<DataRow>)
    ensures TrainCategory(lib, NewTrainer, rows).Err?
  {
  }

  // ---------------------------------------------------------------- bundle

  datatype BundleConfig = BundleConfig(categories: seq<string>, maxFeatures: nat, minConfidence: real)

  /** The saved model file. */
  datatype Bundle = Bundle(
    importanceModel: Option<Classifier>,
    categoryModel: Option<Classifier>,
    vectorizer: Option<Vectorizer>,
    labelClasses: Option<seq<string>>,
    scaler: Scaler,
    config: BundleConfig)

  /** `save_models`: everything the trainer fitted, plus the configuration. */
  function SaveModels(t: Trainer): (b: Bundle)
    ensures b.importanceModel == t.importance && b.categoryModel == t.category
    ensures b.vectorizer == t.vectorizer && b.labelClasses == t.labelClasses && b.scaler == t.scaler
    ensures b.config.categories == Config.Categories
    ensures b.config.maxFeatures == Config.MaxFeatures && b.config.minConfidence == Config.MinConfidence
  {
    Bundle(t.importance, t.category, t.vectorizer, t.labelClasses, t.scaler,
      BundleConfig(Config.Categories, Config.MaxFeatures, Config.MinConfidence))
  }

  // ---------------------------------------------------------------- pipeline

  /** The demonstration emails used when no training data is given. */
  const SampleEmails: seq<RawEmail> := [
    RawEmail(Some("Google Summer of Code 2024 Applications Open"),
      Some(PlainBody("Join thousands of students in contributing to open source projects...")),
      Some("opensource@google.com")),
    RawEmail(Some("HackMIT Registration Opens Tomorrow"),
      Some(PlainBody("Get ready for the biggest hackathon at MIT! Registration opens...")),
      Some("team@hackmit.org")),
    RawEmail(Some("Weekly Newsletter - Tech Updates"),
      Some(PlainBody("Here are this week's top tech stories and updates...")),
      Some("newsletter@techblog.com")),
    RawEmail(Some("Software Engineering Internship - Meta"),
      Some(PlainBody("We are excited to offer internship positions for summer 2024...")),
      Some("university@meta.com")),
    RawEmail(Some("Gates Millennium Scholarship Application"),
      Some(PlainBody("The Gates Foundation is offering full scholarships...")),
      Some("scholars@gatesfoundation.org"))
  ]

  /** The pipeline's return value, plus whether the small-dataset warning was printed. */
  datatype Report = Report(importanceAccuracy: real, categoryAccuracy: real, trainingSamples: nat, smallDataWarning: bool)

  /** Both stages on a non-empty frame, then the saved bundle. */
  function RunStages(lib: Library, rows: seq<DataRow>): (r: Result<(Report, Bundle)>)
    ensures r.Ok? ==> r.value.0.trainingSamples == |rows|
    ensures r.Ok? ==> (r.value.0.smallDataWarning <==> |rows| < 50)
    ensures r.Ok? ==>
      var b := r.value.1;
      && b.importanceModel.Some? && b.categoryModel.Some? && b.vectorizer.Some?
      && b.labelClasses.Some? && b.scaler.fittedOn.Some?
      && b.categoryModel.value.family == CategoryForest
      && b.importanceModel.value.family in ImportanceCandidates
    ensures r.Ok? ==>
      && TrainImportance(lib, NewTrainer, rows).Ok?
      && r.value.0.importanceAccuracy == TrainImportance(lib, NewTrainer, rows).value.accuracy
      && r.value.1.vectorizer == Some(Vectorizer(PrepareData(rows).0, Config.MaxFeatures))
      && r.value.1.scaler == Scaler(Some(PrepareData(rows).1))
  {
    var importance :- TrainImportance(lib, NewTrainer, rows);
    var category :- TrainCategory(lib, importance.trainer, rows);
    var bundle := SaveModels(category.trainer);
    Ok((Report(importance.accuracy, category.accuracy, |rows|, |rows| < 50), bundle))
  }

  /** `train_full_pipeline`: build the frame (from the samples when no data is
      given), run the importance stage then the category stage, save the bundle.
      An empty email list builds a frame without columns, whose `category`
      column cannot be read. */
  function TrainFullPipeline(lib: Library, tools: TextTools, emails: Option<seq<RawEmail>>): (r: Result<(Report, Bundle)>)
    ensures emails.Some? && |emails.value| == 0 ==> r == Err("KeyError: 'category'")
    ensures r.Ok? ==> r.value.0.trainingSamples == (if emails.None? then |SampleEmails| else |emails.value|)
    ensures r.Ok? ==> (r.value.0.smallDataWarning <==> r.value.0.trainingSamples < 50)
    ensures r.Ok? ==>
      var b := r.value.1;
      && b.importanceModel.Some? && b.categoryModel.Some? && b.vectorizer.Some?
      && b.labelClasses.Some? && b.scaler.fittedOn.Some?
      && b.categoryModel.value.family == CategoryForest
      && b.importanceModel.value.family in ImportanceCandidates
    ensures r.Ok? ==>
      var rows := CreateTrainingDataset(tools, emails.GetOr(SampleEmails));
      && TrainImportance(lib, NewTrainer, rows).Ok?
      && r.value.0.importanceAccuracy == TrainImportance(lib, NewTrainer, rows).value.accuracy
      && r.value.1.vectorizer == Some(Vectorizer(PrepareData(rows).0, Config.MaxFeatures))
      && r.value.1.scaler == Scaler(Some(PrepareData(rows).1))
  {
    var rows := CreateTrainingDataset(tools, emails.GetOr(SampleEmails));
    if |rows| == 0 then Err("KeyError: 'category'") else RunStages(lib, rows)
  }

  /** The default pipeline trains on five emails, so it always warns. */
  lemma SamplePipelineWarns(lib: Library, tools: TextTools)
    ensures TrainFullPipeline(lib, tools, None).Ok? ==> TrainFullPipeline(lib, tools, None).value.0.smallDataWarning
  {
    assert |SampleEmails| == 5;
  }
}

=== FILE: wrappers.dfy ===
/** Failure-carrying result types shared by every module of the model.
    The source signals failure by raising (Python), throwing (JavaScript) or
    answering with an HTTP error status; the model returns these values instead. */
module Wrappers {

  datatype Option<+T> = None | Some(value: T) {

    /** The value, or `default` when absent (Python's `dict.get(k, default)`,
        JavaScript's `x || default` for values that are never falsy). */
    function GetOr(default: T): T {
      match this
      case Some(v) => v
      case None => default
    }
  }

  /** `Ok` carries the value; `Err` carries the message the source raises or throws. */
  datatype Result<+T> = Ok(value: T) | Err(msg: string) {

    predicate IsFailure() {
      Err?
    }

    function PropagateFailure<U>(): Result<U>
      requires Err?
    {
      Err(msg)
    }

    function Extract(): T
      requires Ok?
    {
      value
    }
  }
}
